=== FILE: README.md ===
# Bootcamp certificate generator — a Dafny model of its decision logic

The system is an Express application. Administrators upload a certificate
design (an image or a PDF). The application stamps a QR code and an identifier
onto it, stores the PDF under a bootcamp/type folder, and records it in a
Supabase database, where anyone can verify it from the QR link. Users sign up,
wait for an administrator's approval, and then log in. Administrators manage
users and list every certificate.

This project models the deterministic core of that application as pure Dafny
functions over immutable datatypes, and proves what it promises:

- `js.dfy` (`Js`) holds the JavaScript built-ins the core relies on, each with
  its own laws: `indexOf`, `replace` (first occurrence and global),
  `toLowerCase`/`toUpperCase` on ASCII, `trim`, `split`/`join` on one
  character, and decimal rendering of numbers.
- `records.dfy` (`Records`) holds the database rows and the "group by
  bootcamp" reduction that three handlers of the source repeat (two of them are
  modelled), with the TypeError it throws on a bootcamp named like a member
  every object inherits, proved equal to a reference grouping otherwise.
- `cert_request.dfy` (`CertRequest`) holds the live generation handler: the
  upload filter, the ordered field validation, `toSnakeCase`, the folder and
  URL construction, the page/QR layout table, and the stored record.
- `pdf_layout.dfy` (`PdfLayout`) holds the alternate pdf-lib pipeline's
  geometry over `real`: page sizes, the fit box, centring, overlay plate and
  caption placement, the identifier truncation, and the dispatch on mimetype.
- `templates.dfy` and `template_laws.dfy` (`Templates`, `TemplateLaws`) hold
  the HTML template engine (`{{CSS}}`, `{{#if}}` with its ten-pass bound,
  `{{#each}}`, placeholders, partials, `getNestedValue`, `createAlert`) and its
  laws.
- `cert_list.dfy` (`CertList`) holds `formatCertificatesData`.
- `auth_gate.dfy` (`AuthGate`) holds the `requireAuth`, `requireAdmin` and
  `optionalAuth` middleware.
- `auth_flow.dfy` (`AuthFlow`) holds sign-up, login with its approval gate,
  logout, token refresh and the form alerts.
- `store.dfy` (`Store`) holds the database helpers. The database is a value,
  and an outage is part of it.
- `admin_views.dfy` (`AdminViews`) holds the admin pages' counts, buttons and
  statistics.

External services enter as parameters. These are the identity service's
answers, the database's answers, `uuidv4()`'s value, the current time, the
decoded image size, and whether a rendering step throws. JavaScript `null` and
`undefined` are `None` of `Option`, and `x || d` on a string is `OrElse(x, d)`,
where the empty string also counts as false. The one place where the two differ
is the `status` of a status update: it is a `Store.BodyField`, which is
`Absent`, `Null` or `Given`, because an absent status leaves the column alone
and `null` clears it.

## Model

| member | source | states |
|---|---|---|
| CertRequest.StripPunctuationKeepsWordAndSeparators | controllers/certController.js:16 | Text made only of word characters, white space and hyphens passes punctuation removal unchanged. |
| CertRequest.CollapseScanIsRuns | controllers/certController.js:17 | The left-to-right scan of `/[\s-]+/g` equals the reference definition: each maximal run of white space and hyphens becomes one `_`, and all else is copied. |
| CertRequest.SnakeCase | controllers/certController.js:12-18 | A normalised folder name uses only `[a-z0-9_]`, for any input. |
| CertRequest.SnakeCaseFixesSnake | controllers/certController.js:12-18 | A name already in `[a-z0-9_]` is its own normal form. |
| CertRequest.SnakeCaseIdempotent | controllers/certController.js:12-18 | Normalising twice gives the same as normalising once. |
| CertRequest.SnakeCaseKeepsUncoveredSpace | controllers/certController.js:13-17 | Trimming runs before punctuation removal, so `"a !"` normalises to `"a_"`. |
| CertRequest.SnakeCaseAllPunctuation | controllers/certController.js:16 | A name made only of punctuation normalises to the empty folder name. |
| CertRequest.SnakeCaseCollapsesRun | controllers/certController.js:14-17 | Upper case is lowered, and a mixed run of spaces and hyphens becomes one underscore. |
| CertRequest.ExtName | controllers/certController.js:38 | `path.extname` is a suffix of the last path component. It is non-empty exactly when that component has a dot after its first character and is not `..`, and then it is a dot followed by text with no further dot or slash. |
| CertRequest.UploadStage | controllers/certController.js:31-47 | An upload is stored exactly when it passes the filter and is at most 10 MB. A filter failure gives the filter's error message. |
| CertRequest.ShortExtensionRefused | controllers/certController.js:37-41 | A file whose extension has fewer than three letters after the dot is refused, whatever its mimetype. |
| CertRequest.FilterAcceptsUpperCaseExtension | controllers/certController.js:38 | The extension is lowered before the test, so `.PNG` passes. |
| CertRequest.FilterChecksMimetype | controllers/certController.js:39-41 | A good extension with a mimetype naming no allowed type is refused. |
| CertRequest.FilterRefusesDotFile | controllers/certController.js:38 | A dot-file such as `.png` has no extension and is refused. |
| CertRequest.ParseRoundTrip | controllers/certController.js:65-71 | Format and type parsing accept exactly the two names of each enumeration and invert the naming. |
| CertRequest.Validate | controllers/certController.js:52-71 | The checks run in source order: a missing file, then any empty field, then the format, then the type. A request passes only when all four pass. |
| CertRequest.FileUrlShape | controllers/certController.js:185-194 | `file_url` is `/certs/`, the normalised bootcamp folder (dropped when it is empty), `completed` or `participated` by type, and `<uid>.pdf`. |
| CertRequest.JoinThree | controllers/certController.js:185 | `path.join` of three segments drops an empty first segment. |
| CertRequest.LayoutOrientation | controllers/certController.js:93-108 | Portrait is 794×1123 and landscape is 1123×794. The bottom offset is 60 in both, and the landscape right offset (80) is larger than the portrait one (50). |
| CertRequest.Generate | controllers/certController.js:49-250 | A request gets a 400 exactly when validation fails, and then nothing is rendered, stored or removed. A valid request removes its upload. It gets a 500 exactly when any step from QR encoding to the clean-up throws, and JSON exactly when every step succeeds and the request is JSON. A render job, with the QR payload `BASE_URL/verify/<uid>`, is handed to the browser exactly when the request is valid and no step before the browser launch threw. A row is stored exactly when every step and the insert succeed, and it carries the uid and `/verify/<uid>`. |
| CertRequest.RejectionIgnoresIdentifier | controllers/certController.js:52-72 | A rejected request gets the same answer whatever identifier, base URL, user, pipeline or database outcome is supplied: nothing is drawn before validation ends. |
| CertRequest.QrMatchesVerifyLink | controllers/certController.js:195-211 | On success the QR payload equals `absolute_verify`, which is the base URL followed by `verify_url`. `absolute_pdf` is the base URL followed by `file_url`. |
| CertRequest.SaveFailureInvisible | controllers/certController.js:198-204 | The response is the same whether the database insert succeeded or failed. |
| CertRequest.RecordMirrorsForm | controllers/certController.js:185-196 | The stored row carries the uid, the four form fields and the original file name. Its owner is the authenticated user, or null when there is none. |
| CertRequest.RejectedUploadLeftBehind | controllers/certController.js:52-62 | As written, an upload that fails field validation gets a 400 and its temporary file is not removed. |
| CertRequest.GenerateWithCleanup | controllers/certController.js:240-249 | With clean-up on every path, the temporary upload is removed exactly when there was one, and the response is unchanged. |
| PdfLayout.NominalPageSize | utils/pdfGenerator.js:82-85 | The page is 595×842 exactly for the format string `portrait`, and 842×595 for any other string. |
| PdfLayout.FitInside | utils/pdfGenerator.js:98-111 | The resized image fits the box, keeps the aspect ratio, and touches the box in at least one direction. |
| PdfLayout.FitInsideUpscales | utils/pdfGenerator.js:98-111 | Enlargement is not disabled, so an image smaller than the box is scaled up. |
| PdfLayout.Centred | utils/pdfGenerator.js:122-130 | The drawn image has equal gaps left and right, and equal gaps top and bottom. |
| PdfLayout.CentredWithinMargins | utils/pdfGenerator.js:88-130 | A fitted, centred image stays at least 20 points from every page edge. |
| PdfLayout.EmbeddingExamples | utils/pdfGenerator.js:95-115 | `image/jpeg` is embedded as JPEG and `image/png` as PNG. |
| PdfLayout.ProcessImage | utils/pdfGenerator.js:77-133 | An image upload gets the nominal page and the embedding its mimetype selects. The image keeps its aspect ratio, is centred, and stays 20 points inside every edge. |
| PdfLayout.ShortId | utils/pdfGenerator.js:70 | The shown identifier is the first eight characters of the uid, or all of a shorter one. |
| PdfLayout.OverlayIgnoresFormat | utils/pdfGenerator.js:153-159 | The overlay origin is the same for every format string. |
| PdfLayout.PlaceOverlay | utils/pdfGenerator.js:141-187 | The 180×110 overlay's top-right corner is 40 points from the first page's top and right edges. The white plate encloses it with 10 points on each side. The 12-point caption `ID: ` plus the short id sits at (x, y−25). |
| PdfLayout.CaptionBelowPlate | utils/pdfGenerator.js:162-184 | The caption's top stays below the plate's bottom edge. |
| PdfLayout.CaptionOfUuid | utils/pdfGenerator.js:70 | For a 36-character uid the caption is `ID: ` followed by the uid's first eight characters, twelve characters in all. |
| PdfLayout.QrClippedAsWritten | utils/pdfGenerator.js:36-63 | As written, a 120-pixel QR image at offset 10 on a 120-pixel-high canvas shows only 110 rows. |
| PdfLayout.OverlayCanvas | utils/pdfGenerator.js:42-63 | With the QR sized to the canvas height less the inset on both sides, the whole code is visible. |
| PdfLayout.Generate | utils/pdfGenerator.js:196-236 | As written, a generated document stamps the canvas whose QR image loses its bottom rows, encodes the verification link, and places the overlay from its first page. Generation fails exactly when the upload cannot be read as its mimetype says, the QR encoder fails, or the document has no page. |
| PdfLayout.GenerateWholeQr | utils/pdfGenerator.js:196-236 | With the QR image sized to its canvas, generation succeeds and fails exactly as written and produces the same document, except that the whole QR code is visible. |
| PdfLayout.PdfKeepsItsPages | utils/pdfGenerator.js:206-209 | A PDF upload keeps its own pages, and the overlay is placed from its first page's size, whatever the format. |
| PdfLayout.ImageGetsOneNominalPage | utils/pdfGenerator.js:206-214 | Any mimetype other than exactly `application/pdf` goes through the image path and gets one nominal A4 page. |
| PdfLayout.GenerationShape | utils/pdfGenerator.js:196-236 | On success a background image exists exactly for non-PDF uploads, and the overlay follows the first page. |
| PdfLayout.EmptyPdfFails | utils/pdfGenerator.js:141-146 | A PDF without pages loads, and then the overlay step fails. |
| Records.GroupByBootcampIsReference | utils/templateRenderer.js:174-179 | The reduction throws exactly when a key names an inherited member. Otherwise it gives one group per distinct key, in first-appearance order, and each group holds that key's certificates in input order. |
| Records.ReduceThrowsIffInheritedKey | utils/templateRenderer.js:174-179 | Reducing into `{}` throws exactly when some certificate's key is a name such as `constructor` or `toString` that `{}` inherits, because `groups[key].push` then calls a function's missing `push`. Otherwise the result is the grouping. |
| Records.GroupSizesSum | utils/templateRenderer.js:174-179 | Whenever the reduction does not throw, every certificate lands in exactly one group: the sizes add up to the input length. |
| Records.GroupsDistinctNonEmpty | utils/templateRenderer.js:176-177 | No two groups share a name, and no group is empty. |
| Js.ReplaceFirst | utils/templateRenderer.js:56 | A string-pattern `replace` changes only the leftmost occurrence and keeps the text around it. An absent pattern changes nothing. |
| Js.ReplaceAllLength | utils/templateRenderer.js:60-61 | A global replace changes the length by the pattern/replacement size difference once per occurrence. |
| Js.SplitOnJoin | utils/templateRenderer.js:129 | Splitting on a character and joining back gives the input. |
| Js.SplitOnPieces | utils/templateRenderer.js:129 | No piece of a split holds the separator. |
| Js.TrimIsSlice | controllers/certController.js:15 | `trim` returns a contiguous slice of its input. |
| Js.NatToDecimalRoundTrip | controllers/adminController.js:145 | The decimal rendering of a count reads back as the count. |
| Templates.Lookup | utils/templateRenderer.js:130 | A missing key gives `undefined`. A present key gives the value of a field with that key. |
| Templates.LookupSpread | utils/templateRenderer.js:157 | In `{...item, ...data}` a top-level key overrides the item's, and any other key keeps the item's value. |
| Templates.ReduceIsWalk | utils/templateRenderer.js:129-131 | The dotted-path fold gives `false` at the first missing key and stays `false`. |
| Templates.NestedStripsOneThis | utils/templateRenderer.js:125-127 | Only one leading `this.` is stripped. |
| Templates.NestedPlainName | utils/templateRenderer.js:124-132 | A plain name gives the data's own property, or `false` when it holds `undefined`. An absent name gives the inherited member when every object has one of that name, so it is truthy, and `false` otherwise. |
| Templates.OpeningTag | utils/templateRenderer.js:111 | A recognised opening tag starts with its opener and has a non-empty name. Its length covers the opener, white space, the name and `}}`. |
| Templates.IfBlockAt | utils/templateRenderer.js:111 | A conditional match starts with `{{#if` and is longer than its body. |
| TemplateLaws.IfBlockAtBlock | utils/templateRenderer.js:111 | The conditional pattern matches a well-formed innermost conditional exactly, giving back its condition and body. |
| Templates.EachBlockAt | utils/templateRenderer.js:136 | A loop match starts with `{{#each` and is longer than its body. |
| TemplateLaws.EachBlockAtBlock | utils/templateRenderer.js:136 | The loop pattern matches a loop whose body holds no `{{/each}}` exactly, giving back its name and body. |
| Templates.PartialAt | utils/templateRenderer.js:95 | A partial match starts with `{{>` and has an empty body. |
| Templates.ConditionalsPassBound | utils/templateRenderer.js:104-121 | The conditional stage makes at most ten passes, and stops early only once no `{{#if` is left. |
| Templates.ConditionalsShrink | utils/templateRenderer.js:112-116 | Conditionals only remove text: the result is never longer than the input. |
| Templates.CreateAlert | utils/templateRenderer.js:206-209 | The alert is empty exactly for a falsy message. Otherwise it is `<div class="alert TYPE">` around the message. |
| TemplateLaws.ConditionalsUnchanged | utils/templateRenderer.js:110 | Text without `{{#if` passes through the conditional stage unchanged. |
| TemplateLaws.IfPassBlock | utils/templateRenderer.js:111-116 | A pass keeps an innermost conditional's body when the value is truthy, drops the whole block otherwise, and carries on after it. |
| TemplateLaws.ConditionalKeepsBodyIffTruthy | utils/templateRenderer.js:104-121 | Around one plain conditional, the stage's output contains the body exactly when the looked-up value is truthy. |
| TemplateLaws.AbsentConditionKeptIffInherited | utils/templateRenderer.js:104-132 | A conditional on a name the data does not hold keeps its body exactly when the name is one every object inherits, such as `constructor`. |
| TemplateLaws.SubstituteHole | utils/templateRenderer.js:59-62 | A placeholder of a data key becomes the key's text (`''` for a falsy value), whatever the other keys are. |
| TemplateLaws.SubstituteKeepsUnknownHole | utils/templateRenderer.js:59-62 | A placeholder whose key is not in the data stays in the text. |
| TemplateLaws.LoopPassBlock | utils/templateRenderer.js:136-161 | A loop pass puts the loop's expansion in place of the block and copies the text around it. |
| TemplateLaws.LoopRepeatsPlainBody | utils/templateRenderer.js:138-160 | A plain loop body is repeated once per array item, and a non-array gives `''`. |
| TemplateLaws.LoopItemField | utils/templateRenderer.js:145-148 | Inside a loop, `{{this.k}}` becomes the item's field `k`. |
| TemplateLaws.LoopParentField | utils/templateRenderer.js:151-154 | Inside a loop, `{{../k}}` becomes the top-level field `k`, whatever the item holds. |
| TemplateLaws.IfInsideLoopSeesTopLevel | utils/templateRenderer.js:84-86 | As written, a conditional inside a loop is decided once, against the top-level data, before the loop runs, so every item gets the same outcome. |
| TemplateLaws.IfInsideLoopSeesItem | utils/templateRenderer.js:156-157 | With loops first, a conditional inside a loop is decided per item, against `{...item, ...data}`. |
| TemplateLaws.ItemConditionalAsWritten | utils/templateRenderer.js:84-86 | For `{{#each items}}{{#if this.flag}}X{{/if}}{{/each}}` with one item whose `flag` is true, the stages as written produce `""`. |
| TemplateLaws.ItemConditionalLoopsFirst | utils/templateRenderer.js:156-157 | With loops first, the same template and data produce `"X"`. |
| Templates.Render | utils/templateRenderer.js:46-71 | A template file without `{` is served as it is: it has no stylesheet slot, no placeholder and no partial tag. |
| Templates.RenderAdvanced | utils/templateRenderer.js:74-101 | `renderAdvanced` throws exactly when a loop left standing by the conditionals runs over an array holding `null` or `undefined`, on which `Object.keys` throws. With no such item in the data it always produces a page. |
| Templates.LoopsThrowNeedsNullishItem | utils/templateRenderer.js:135-161 | Only an array holding `null` or `undefined` can make a loop throw. |
| TemplateLaws.NullLoopItemThrows | utils/templateRenderer.js:138-148 | Data `{title: "a", xs: [null]}` is accepted by the render operations, and a page looping over `xs` makes `renderAdvanced` throw. |
| TemplateLaws.RenderAdvancedAgreesWithRender | utils/templateRenderer.js:46-101 | Without conditionals or loops, `renderAdvanced` produces the page `render` does, even for data whose arrays hold `null`. |
| TemplateLaws.StylesAtFirstCss | utils/templateRenderer.js:56 | Only the first `{{CSS}}` gets the stylesheets, and a later one is left as it is. |
| TemplateLaws.RenderFillsPlaceholder | utils/templateRenderer.js:59-62 | `render` over plain text with one data placeholder puts the key's text in its place. |
| TemplateLaws.RenderKeepsUnknownPlaceholder | utils/templateRenderer.js:59-62 | A placeholder of a key missing from the data is left in the page verbatim. |
| TemplateLaws.RenderInsertsPartial | utils/templateRenderer.js:64-68 | A partial's text replaces its tag verbatim and is not scanned again. |
| CertList.EntryDefaults | utils/templateRenderer.js:186-195 | Student name falls back to "Unknown Student". Creator falls back from name to e-mail to "Unknown User". "Completion" only for type completion, "Portrait" only for format portrait. Links are copied. |
| CertList.FormatCertificatesData | utils/templateRenderer.js:165-202 | A null or empty list is the empty state. A list with a bootcamp named like an inherited member throws. Any other list is grouped, with one group per distinct key. |
| CertList.FormatEmptyIff | utils/templateRenderer.js:165-202 | The list is the empty state exactly for null or empty input, and throws exactly for a bootcamp named like an inherited member. Otherwise it carries `showCreatedBy` into every group. |
| CertList.FormatGroupsAreReference | utils/templateRenderer.js:174-196 | A non-empty list is grouped exactly when the reduction does not throw. Then there is one group per distinct bootcamp key in first-appearance order. Each group lists its certificates' entries in input order, and `isPlural` holds exactly when the count is not one. |
| CertList.FormatCountsSum | utils/templateRenderer.js:174-183 | Whenever the list is grouped, the group counts add up to the number of certificates. |
| CertList.MissingBootcampIsUnknown | utils/templateRenderer.js:174-179 | A certificate without a bootcamp is listed under "Unknown Bootcamp", whenever the grouping does not throw. |
| AuthGate.Refuse | middleware/auth.js:11-17 | A refusal is JSON with the given status exactly when the client accepts JSON, and a redirect otherwise. |
| AuthGate.SelectTokenSource | middleware/auth.js:6-9 | A `Bearer ` header decides the token, and the prefix plus the token gives back the header. Without such a header the session's access token is used. |
| AuthGate.BareBearerHidesSession | middleware/auth.js:7-17 | The header `Bearer ` gives an empty token, which counts as missing, with no fallback to the session. |
| AuthGate.RequireAuth | middleware/auth.js:3-49 | The request passes exactly when a token is present and verifies, and then carries the verified user and token with the session as it was. Otherwise it gets a 401 or login redirect with no user and no token. |
| AuthGate.MissingTokenSkipsIdentity | middleware/auth.js:11-17 | Without a token the identity service's answers make no difference. |
| AuthGate.InvalidTokenClearsSession | middleware/auth.js:22-48 | A rejected token empties the three session fields and is refused. A thrown error is refused with the session untouched. |
| AuthGate.OptionalAuth | middleware/auth.js:97-117 | `optionalAuth` always passes and never touches the session. It attaches a user exactly when a token is present and verifies, and then that user and token. |
| AuthGate.OptionalAuthAgrees | middleware/auth.js:97-117 | `optionalAuth` attaches the same user and token as `requireAuth` would. |
| AuthGate.RequireAdmin | middleware/auth.js:51-94 | The admin gate passes exactly for a user whose lookup returns the role `admin`. A missing user gets a 401 or login redirect; every other refusal gets a 403 or dashboard redirect. A JSON 403 says "Admin access required" exactly when the row was found with another role. It says "Authorization check failed" exactly when `.single()` found no row or the query failed. |
| AuthGate.AdminChain | middleware/auth.js:3-94 | After `requireAuth` has passed, the admin gate passes exactly when the verified user's role is `admin`. |
| AuthFlow.LocalPartBeforeAt | controllers/authController.js:33 | The default name is the longest `@`-free prefix of the address. |
| AuthFlow.Signup | controllers/authController.js:4-83 | Missing credentials get a 400 and nothing happens. A profile is inserted only for a created identity that has none, and it is built from the address and name. A rename happens only for an existing profile and a given name. An identity is deleted only after a profile insert failed, with a 400. |
| AuthFlow.SignupNeedsCredentials | controllers/authController.js:8-10 | A missing e-mail or password gets a 400 before the identity service is asked, and nothing happens. |
| AuthFlow.SignupNameDefault | controllers/authController.js:26-36 | A new profile takes the given name, or else the address's local part, with role `user`. |
| AuthFlow.SignupProfileFailure | controllers/authController.js:38-59 | A failed profile insert is tolerated exactly when its message mentions `duplicate key`. Otherwise the new identity is deleted and sign-up answers 400. |
| AuthFlow.Login | controllers/authController.js:85-178 | A login is admitted exactly when sign-in succeeds and the profile exists with status `approved`. The session changes only for an admitted login, and then holds the new tokens and user. |
| AuthFlow.LoginRefusesUnapproved | controllers/authController.js:106-148 | A signed-in user without an approved profile gets a 403 and is signed out. A profile without a status counts as pending. |
| AuthFlow.LoginRejectionReason | controllers/authController.js:125-131 | A rejected user is told the stored reason when there is one, and a fixed message otherwise. |
| AuthFlow.LoginNeedsCredentials | controllers/authController.js:89-91 | Missing credentials get a 400 before sign-in is tried, and the session stays. |
| AuthFlow.Logout | controllers/authController.js:180-222 | Logout signs out of the identity service exactly when a token was held. If that sign-out throws, the session is left as it was and the answer is the 500 or the `logout_failed` redirect. Otherwise the session is emptied, and logout reports success exactly when destroying the session did not fail. |
| AuthFlow.LogoutEndsAuthentication | controllers/authController.js:180-191 | After a logout whose sign-out did not throw, the session alone no longer passes `requireAuth`. After a throwing sign-out, it authenticates exactly as before. |
| AuthFlow.RefreshNeedsToken | controllers/authController.js:320-327 | Without a refresh token the answer is a 401 and the service is not asked. |
| AuthFlow.RefreshToken | controllers/authController.js:320-353 | The refresh succeeds exactly when a refresh token is held and the service refreshes it. The session changes only then, to the new tokens and user. |
| AuthFlow.LoginAlertMessageWins | controllers/authController.js:363-369 | A recognised message wins whatever the error says, and gives a success alert. |
| AuthFlow.LoginAlertErrorOtherwise | controllers/authController.js:363-376 | Otherwise the error decides: an error alert appears only for a recognised error. |
| AuthFlow.SignupAlert | controllers/authController.js:386-401 | The sign-up form shows an alert only for `signup_failed`. |
| Store.CertificateLookup | utils/supabaseDatabase.js:24-48 | A certificate comes back exactly when the database is up and exactly one row has that uid, and it is that row. Not found, duplicates and outages all give null. |
| Store.ProfileLookup | utils/supabaseDatabase.js:117-135 | A profile comes back exactly when the database is up and exactly one row has that id. Every failure gives null. |
| Store.ProfileLookupUnique | utils/supabaseDatabase.js:117-135 | With unique ids, the stored profile is the one found. |
| Store.Window | utils/supabaseDatabase.js:82 | A listing never holds more rows than the table. |
| Store.GetAllCertificates | utils/supabaseDatabase.js:70-94 | The listing fails exactly when the database does. A page holds at most `limit` rows. From an offset inside the table it is the consecutive rows from `offset`, up to `limit` of them or to the end. |
| Store.ListingWindow | utils/supabaseDatabase.js:70-94 | With enough rows, the listing is exactly `limit` consecutive rows from `offset`. |
| Store.ListingTail | utils/supabaseDatabase.js:70-94 | Past the end, the listing is the rest of the rows. An outage is an error. |
| Store.PendingCountMatchesList | utils/supabaseDatabase.js:268-285 | The pending count equals the length of the pending user list, and is 0 on failure. |
| Store.StatusPatchFields | utils/supabaseDatabase.js:241-247 | `approved_at` is set exactly for `approved`, `rejection_reason` is `reason` only for `rejected` and null otherwise, and `approved_by` is always the admin. A missing or `null` status is neither. |
| Store.UpdateUserStatus | utils/supabaseDatabase.js:239-266 | Only the target's status columns change. Identity, e-mail, name, role and sign-up time stay, every other profile stays entirely, and an outage changes nothing. The target gets the admin as approver. A given status is written and `null` clears the column. A missing status leaves the stored one, because `JSON.stringify` drops an `undefined` key. A successful update returns one of the target's patched rows. |
| Store.MigrationRowFields | utils/supabaseDatabase.js:158-169 | The uid and links are kept and the owner is always null. The bootcamp falls back to name, then "Legacy Certificate"; format to "landscape"; type to "completion". |
| Store.MigrateFromJson | utils/supabaseDatabase.js:138-192 | No file migrates nothing. Otherwise the count equals the number of accepted inserts, and a refused insert does not stop the loop. |
| Store.AllAcceptedAllMigrated | utils/supabaseDatabase.js:155-177 | When every insert is accepted, every record is counted. |
| Store.AcceptedAreMapped | utils/supabaseDatabase.js:155-177 | Each saved row is the mapping of a record of the file, in the same relative order. |
| AdminViews.ButtonsHideOwnStatus | controllers/adminController.js:37-56 | A button is hidden exactly when the user already has its status, so at most one is hidden. |
| AdminViews.UserManagement | controllers/adminController.js:11-100 | The page fails exactly when the database does. Otherwise it has one row per fetched user, the total equals the `all` tab and the filtered or full profile count, the pending badge counts every pending profile, and the empty notice shows exactly when no user was fetched. |
| AdminViews.CountStatusIsFilter | controllers/adminController.js:24-27 | The per-status tab count equals the length of the store's status filter. |
| AdminViews.TabCountsPartition | controllers/adminController.js:23-27 | The four status tabs never add up to more than the total. They equal it exactly when every user has one of the four statuses. |
| AdminViews.FilteredTabsCountOnlySelection | controllers/adminController.js:16-27 | Under a status filter, the selected status's tab equals the total and the other status tabs show 0, because they count the fetched list. |
| AdminViews.UnfilteredTabsMatchStore | controllers/adminController.js:16-39 | Without a filter, the total covers the whole profile table, the pending tab equals the pending badge, and each row's buttons follow its user. |
| AdminViews.UpdateUser | controllers/adminController.js:102-114 | The acting admin's id is recorded as approver on the target's rows, and every other profile stays. A given status is stored, `null` clears it and a missing one leaves it. The answer is a success exactly when the store update returned a row, and then names the status sent. A failure is a 500. |
| AdminViews.DistinctMembers | controllers/adminController.js:127-128 | `new Set(xs)` holds exactly the elements of `xs`, and at most `|xs|` of them. |
| AdminViews.BootcampsMembers | controllers/adminController.js:127 | A value counts among the bootcamps exactly when some certificate carries it. |
| AdminViews.OwnersMembers | controllers/adminController.js:128 | A value counts among the users exactly when some certificate carries it. |
| AdminViews.StatsBounds | controllers/adminController.js:124-128 | The two type counts together are at most the total. The distinct counts are at most the total, and at least 1 for a non-empty list. |
| AdminViews.GroupsAtMostBootcamps | controllers/adminController.js:127-141 | There are never more bootcamp groups than distinct raw bootcamp values. |
| AdminViews.NullAndEmptyShareGroup | controllers/adminController.js:127-137 | A null and an empty bootcamp are two statistics values but one "Unknown Bootcamp" group. |
| AdminViews.CountPhrasePlural | controllers/adminController.js:145 | The heading reads the count back, and ends in `s` exactly when the count is not one. |
| AdminViews.AllCertificatesPage | controllers/adminController.js:116-198 | The overview covers the first 1000 rows, and its statistics are theirs. The two type counts never exceed the total, and there are no more sections than distinct bootcamp values. Each section is its group's heading, count phrase and entries, in group order. The groups hold each row once, and the empty notice shows exactly when there are none. The page fails exactly when the database is down or a bootcamp in the window is named like an inherited member. |

## Left out

- I/O and foreign libraries are left out: Puppeteer rendering, sharp resizing and compositing, pdf-lib embedding and saving, `qrcode` encoding, multer disk storage, and `fs` calls. Their results are parameters: the decoded image size, whether a step throws, and the pages of a loaded PDF.
- `uuidv4()`, `Date.now()`, `Math.random()` and `toLocaleDateString` are left out. The uid and the current time are parameters, and dates pass through unformatted.
- The HTML markup around the computed values is left out. Each page is modelled as the values it interpolates.
- `verifyController.js`, the routes, `app.js`, `scripts/migrate.js`, the Puppeteer and environment configuration, `supabase.js` and `database.js` are not part of this model. They are wiring, configuration or JSON file I/O.
- `getCertificatesByUser`, `createProfile`, `saveCertificate` and `testConnection` are not modelled. They are thin query wrappers outside the modelled handlers. Sign-up's profile insert and the certificate insert are parameters instead.
- `getProfileHandler` (the user's profile page) is not modelled. It repeats, for one user's certificates, the counts and the bootcamp grouping that the certificate overview computes, around markup.
- Supabase answers are modelled only as far as the source inspects them: a row, no row, an error message, or an exception. The PostgREST handling of ill-formed ranges, such as a negative offset, is not modelled; `Store.Window` clamps.
- `JSON.parse` failure in `migrateFromJson` and the backup rename are not modelled, because they are file I/O. The file is a parameter that is `None` when missing.
- Store.GetPendingUsersCount: a query that succeeds but returns a null count is not modelled, because the table's count is always a number here. The error case gives 0, as in the source.
- A failed `getAllUsers` or `getPendingUsersCount` inside the user page is modelled as the store's answer. The console logging is not modelled.
- The session store is not modelled. No session middleware is mounted in `app.js`, so the model assumes that a session object exists on every request. Without one, the handlers that write `req.session` would throw and answer 500. `session.destroy` failing and `signOut()` throwing are parameters of `AuthFlow.Logout`.
- JavaScript `replace` treats `$` specially in a replacement string. The render operations require substituted texts without `$`. `Object.entries` and `Object.keys` list array-index keys first. The render operations require data keys that are not all digits.
- Templates.Render: requires data keys made of word characters (`\w`), not all digits, and substituted texts without `$`. A key with another character is inserted into the placeholder regular expression unescaped; that is not modelled.
- Templates.RenderAdvanced: requires the same of the data and, for each loop item, of its fields and texts. A `null` or `undefined` loop item is modelled: it makes the loop throw.
- Templates.GetProperty: only the members every object inherits from `Object.prototype` are modelled. Members of arrays, strings and numbers (such as `items.map`) and properties of inherited members (such as `constructor.name`) read as `undefined`, and an inherited member's text is approximate.
- CertRequest.SnakeCase: `toLowerCase` is modelled on ASCII only. JavaScript's Unicode mappings that yield ASCII letters (`İ` to `i̇`, the Kelvin sign to `k`) are not modelled: the model removes such a letter as punctuation where the source keeps the ASCII letter it maps to.
- AdminViews.UserManagement: the status label's `toUpperCase` is modelled on ASCII only, for the same reason.
- CertList.FormatCertificatesData: requires that no bootcamp name is an array index (`InsertionOrdered`), so that group order is first appearance. For index-like names, JavaScript lists those groups first in numeric order.
- AdminViews.AllCertificatesPage: the same `InsertionOrdered` requirement as CertList.FormatCertificatesData.
- TemplateLaws.SubstituteHole: requires that a substituted text has no `{`, so that a later key cannot match inside it. The source does not exclude that case.
- TemplateLaws.RenderFillsPlaceholder: the same no-brace requirement as TemplateLaws.SubstituteHole.
- CertRequest.Generate: the JSON answer depends on the request's `Content-Type` containing `application/json`, modelled as the parameter `wantsJson`. The route takes only the multipart upload form, whose content type never contains it, so the JSON answer is practically unreachable. A check of `Accept`, which the other handlers use, was probably intended; the model keeps the condition as a parameter.
- CertRequest.UploadStage: the 10 MB limit is applied after the filter, as a size parameter. multer's streaming abort is not modelled.
- PdfLayout.FitInside: models the fit over reals, without sharp's rounding to whole pixels.

## Findings

| source | as written | input that shows it | evidently intended | confidence | as-written member | corrected member |
|---|---|---|---|---|---|---|
| utils/pdfGenerator.js:36-63 | A 120×120 QR image is composited at top 10 on a 200×120 canvas. | Any QR code: rows 110–119 of the image fall below the canvas. | The whole QR code lies on the canvas. | not executed; high | PdfLayout.Generate | PdfLayout.GenerateWholeQr |
| controllers/certController.js:52-62,243-246 | A request whose file was stored but whose fields fail validation returns 400 without removing the temporary upload. | A `cert.png` upload with no form fields. | Clean-up on every path, as the success and error paths do. | not executed; high | CertRequest.RejectedUploadLeftBehind | CertRequest.GenerateWithCleanup |
| utils/templateRenderer.js:84-86 | `renderAdvanced` runs conditionals before loops, so a conditional inside a loop is decided once against the top-level data. The per-item conditional pass at 156-157 never sees it. | `{{#each items}}{{#if this.flag}}X{{/if}}{{/each}}` with `items = [{flag: true}]` renders `""`. | Loops first, so each item's conditional is decided against `{...item, ...data}` and renders `"X"`. | not executed; medium | TemplateLaws.ItemConditionalAsWritten | TemplateLaws.ItemConditionalLoopsFirst |

=== FILE: admin_views.dfy ===
/**
 * The admin pages' computed content: the user list with its filter-tab
 * counts and per-user action buttons, the status update on behalf of the
 * acting admin, and the certificate overview's statistics and bootcamp
 * groups. The markup around these values is not modelled.
 */
module AdminViews {
  import opened Js
  import opened Records
  import opened Store
  import opened AuthGate
  import opened CertList

  // ---------------------------------------------------------------------------
  // User management
  // ---------------------------------------------------------------------------

  /** Which of the three action buttons a user's row shows. */
  datatype Buttons = Buttons(approve: bool, reject: bool, suspend: bool)

  function ActionButtons(u: ProfileRow): Buttons
  {
    Buttons(u.status != Some("approved"), u.status != Some("rejected"), u.status != Some("suspended"))
  }

  /**
   * A button is hidden exactly when the user already has its status, so at
   * most one is hidden, and all three show for a user with any other status
   * (or none).
   */
  lemma ButtonsHideOwnStatus(u: ProfileRow)
    ensures !ActionButtons(u).approve <==> u.status == Some("approved")
    ensures !ActionButtons(u).reject <==> u.status == Some("rejected")
    ensures !ActionButtons(u).suspend <==> u.status == Some("suspended")
    ensures (if ActionButtons(u).approve then 0 else 1) + (if ActionButtons(u).reject then 0 else 1)
          + (if ActionButtons(u).suspend then 0 else 1) <= 1
  {
  }

  /** `users.filter(u => u.status === s).length`. */
  function CountStatus(users: seq<ProfileRow>, s: string): (n: nat)
    ensures n <= |users|
  {
    if |users| == 0 then 0
    else CountStatus(users[..|users| - 1], s) + (if users[|users| - 1].status == Some(s) then 1 else 0)
  }

  /** The five filter tabs' counts, and which tab is highlighted. */
  datatype FilterTabs = FilterTabs(all: nat, pending: nat, approved: nat, rejected: nat, suspended: nat, active: Option<string>)

  function Tabs(users: seq<ProfileRow>, status: Option<string>): FilterTabs
  {
    FilterTabs(|users|, CountStatus(users, "pending"), CountStatus(users, "approved"),
               CountStatus(users, "rejected"), CountStatus(users, "suspended"), status)
  }

  /** A user row of the table. */
  datatype UserRow = UserRow(id: string, name: string, statusLabel: string, isAdmin: bool, notes: string, buttons: Buttons)

  function UserRowFor(u: ProfileRow): UserRow
  {
    UserRow(u.id, OrElse(u.fullName, "No Name"), UpperAscii(OrElse(u.status, "pending")), u.role == Some("admin"),
            OrElse(u.notes, "None"), ActionButtons(u))
  }

  datatype UserPage =
    | UserPage(totalUsers: nat, pendingCount: nat, tabs: FilterTabs, rows: seq<UserRow>, emptyText: Option<string>)
    | UserPageFailed

  /**
   * `getUserManagement`, for the `status` query parameter: one row per fetched
   * user, the tab counts over the same list, the empty notice exactly when
   * there is none, and the error page exactly when the database fails.
   */
  function UserManagement(db: Db, query: Option<string>): (p: UserPage)
    ensures p.UserPageFailed? <==> db.conn.Down?
    ensures p.UserPage? ==>
      && |p.rows| == p.totalUsers == p.tabs.all
      && p.totalUsers == (if Present(query) then |WithStatus(db.profiles, query.value)| else |db.profiles|)
      && p.pendingCount == |WithStatus(db.profiles, "pending")|
      && p.tabs.active == (if Present(query) then query else None)
      && (p.emptyText.Some? <==> p.totalUsers == 0)
  {
    var status := if Present(query) then query else None;
    match GetAllUsers(db, status)
    case Err(_) => UserPageFailed
    case Ok(users) =>
      var rows := seq(|users|, i requires 0 <= i < |users| => UserRowFor(users[i]));
      var empty := if |users| == 0 then Some(if status.Some? then "No " + status.value + " users found." else "No users found.") else None;
      UserPage(|users|, GetPendingUsersCount(db), Tabs(users, status), rows, empty)
  }

  /** Counting a status one user at a time agrees with the store's status filter. */
  lemma {:induction false} CountStatusIsFilter(users: seq<ProfileRow>, s: string)
    ensures CountStatus(users, s) == |WithStatus(users, s)|
    decreases |users|
  {
    if |users| > 0 {
      var init := users[..|users| - 1];
      CountStatusIsFilter(init, s);
      FilterSnoc(users, s);
    }
  }

  lemma {:induction false} FilterSnoc(users: seq<ProfileRow>, s: string)
    requires |users| > 0
    ensures |WithStatus(users, s)| == |WithStatus(users[..|users| - 1], s)| + (if users[|users| - 1].status == Some(s) then 1 else 0)
    decreases |users|
  {
    if |users| > 1 {
      assert users[1..][..|users[1..]| - 1] == users[..|users| - 1][1..];
      FilterSnoc(users[1..], s);
    }
  }

  /** The four status counts never exceed the total, and reach it exactly when every user has one of the four statuses. */
  lemma {:induction false} TabCountsPartition(users: seq<ProfileRow>)
    ensures CountStatus(users, "pending") + CountStatus(users, "approved")
          + CountStatus(users, "rejected") + CountStatus(users, "suspended") <= |users|
    ensures CountStatus(users, "pending") + CountStatus(users, "approved")
          + CountStatus(users, "rejected") + CountStatus(users, "suspended") == |users|
        <==> forall i :: 0 <= i < |users| ==> users[i].status in {Some("pending"), Some("approved"), Some("rejected"), Some("suspended")}
    decreases |users|
  {
    if |users| > 0 {
      var init := users[..|users| - 1];
      TabCountsPartition(init);
      assert forall i :: 0 <= i < |init| ==> init[i] == users[i];
    }
  }

  /**
   * The tabs count the fetched list, which is already filtered: with a
   * status selected, that status's tab shows the total and every other
   * status tab shows 0.
   */
  lemma FilteredTabsCountOnlySelection(db: Db, s: string)
    requires db.conn.Up? && s != ""
    ensures var p := UserManagement(db, Some(s));
      && p.UserPage?
      && p.tabs.all == |WithStatus(db.profiles, s)|
      && (s == "pending" ==> p.tabs.pending == p.tabs.all)
      && (s != "pending" ==> p.tabs.pending == 0)
      && (s != "approved" ==> p.tabs.approved == 0)
      && (s != "rejected" ==> p.tabs.rejected == 0)
      && (s != "suspended" ==> p.tabs.suspended == 0)
  {
    var users := WithStatus(db.profiles, s);
    CountOnly(users, s, "pending");
    CountOnly(users, s, "approved");
    CountOnly(users, s, "rejected");
    CountOnly(users, s, "suspended");
  }

  lemma {:induction false} CountOnly(users: seq<ProfileRow>, s: string, t: string)
    requires forall i :: 0 <= i < |users| ==> users[i].status == Some(s)
    ensures CountStatus(users, t) == if s == t then |users| else 0
    decreases |users|
  {
    if |users| > 0 {
      CountOnly(users[..|users| - 1], s, t);
    }
  }

  /** Without a filter, every tab counts the whole profile table, and the pending tab agrees with the pending badge. */
  lemma UnfilteredTabsMatchStore(db: Db)
    requires db.conn.Up?
    ensures var p := UserManagement(db, None);
      && p.UserPage?
      && p.tabs.all == |db.profiles| == p.totalUsers
      && p.tabs.pending == p.pendingCount
      && |p.rows| == |db.profiles|
      && forall i :: 0 <= i < |p.rows| ==> p.rows[i].buttons == ActionButtons(db.profiles[i])
  {
    CountStatusIsFilter(db.profiles, "pending");
    var p := UserManagement(db, None);
    forall i | 0 <= i < |p.rows|
      ensures p.rows[i].buttons == ActionButtons(db.profiles[i])
    {
      assert p.rows[i] == UserRowFor(db.profiles[i]);
    }
  }

  // ---------------------------------------------------------------------------
  // updateUser
  // ---------------------------------------------------------------------------

  /** The request body of `updateUser`; `reason` and `notes` default to `null`. */
  datatype UpdateBody = UpdateBody(userId: string, status: BodyField<string>, reason: Option<string>, notes: Option<string>)

  /** `${status}` in a template literal. */
  function Interpolate(f: BodyField<string>): (r: string)
    ensures f.Given? ==> r == f.value
    ensures f.Absent? ==> r == "undefined"
    ensures f.Null? ==> r == "null"
  {
    match f
    case Absent => "undefined"
    case Null => "null"
    case Given(s) => s
  }

  /**
   * `updateUser`: the status update on behalf of the acting user, and the JSON
   * answer. The acting admin's id is what gets recorded as the approver, on
   * every row the update touches; a given status is stored, `null` clears it
   * and a body without one leaves it as it was. The answer is a success
   * exactly when the update returned a row, and names the status as sent; a
   * failure is a 500 carrying its message.
   */
  function UpdateUser(db: Db, body: UpdateBody, actor: User, now: string): (r: (Db, Reply))
    ensures |r.0.profiles| == |db.profiles| && r.0.certificates == db.certificates
    ensures db.conn.Up? ==> forall i :: 0 <= i < |db.profiles| && db.profiles[i].id == body.userId ==>
      && r.0.profiles[i].approvedBy == Some(actor.id)
      && (body.status.Absent? ==> r.0.profiles[i].status == db.profiles[i].status)
      && (body.status.Null? ==> r.0.profiles[i].status == None)
      && (body.status.Given? ==> r.0.profiles[i].status == Some(body.status.value))
    ensures forall i :: 0 <= i < |db.profiles| && db.profiles[i].id != body.userId ==> r.0.profiles[i] == db.profiles[i]
    ensures r.1.JsonOk? <==> UpdateUserStatus(db, body.userId, body.status, actor.id, body.reason, body.notes, now).result.Ok?
    ensures r.1.JsonOk? && body.status.Given? ==> r.1.message == "User " + body.status.value + " successfully"
    ensures !r.1.JsonOk? ==> r.1.JsonError? && r.1.code == 500
    ensures db.conn.Down? ==> r.0 == db && r.1.JsonError?
  {
    var u := UpdateUserStatus(db, body.userId, body.status, actor.id, body.reason, body.notes, now);
    match u.result
    case Ok(_) => (u.db, JsonOk("User " + Interpolate(body.status) + " successfully"))
    case Err(m) => (u.db, JsonError(500, m, None))
  }

  // ---------------------------------------------------------------------------
  // Certificate overview
  // ---------------------------------------------------------------------------

  const OverviewLimit := 1000

  /** The distinct elements of a sequence: `new Set(xs)`. */
  function Distinct<T>(xs: seq<T>): set<T>
  {
    if |xs| == 0 then {} else Distinct(xs[..|xs| - 1]) + {xs[|xs| - 1]}
  }

  /** `new Set(xs)` holds exactly the elements of `xs`, and no more of them than `xs` has entries. */
  lemma {:induction false} DistinctMembers<T>(xs: seq<T>)
    ensures forall x :: x in Distinct(xs) <==> x in xs
    ensures |Distinct(xs)| <= |xs|
    decreases |xs|
  {
    if |xs| > 0 {
      DistinctMembers(xs[..|xs| - 1]);
      assert xs == xs[..|xs| - 1] + [xs[|xs| - 1]];
    }
  }

  function BootcampColumn(certs: seq<CertificateRow>): (r: seq<Option<string>>)
    ensures |r| == |certs|
    ensures forall i :: 0 <= i < |certs| ==> r[i] == certs[i].bootcamp
  {
    seq(|certs|, i requires 0 <= i < |certs| => certs[i].bootcamp)
  }

  function OwnerColumn(certs: seq<CertificateRow>): (r: seq<Option<string>>)
    ensures |r| == |certs|
    ensures forall i :: 0 <= i < |certs| ==> r[i] == certs[i].userId
  {
    seq(|certs|, i requires 0 <= i < |certs| => certs[i].userId)
  }

  /** The distinct `bootcamp` values, null included: `new Set(certs.map(c => c.bootcamp))`. */
  function Bootcamps(certs: seq<CertificateRow>): set<Option<string>>
  {
    Distinct(BootcampColumn(certs))
  }

  /** The distinct `user_id` values, null included. */
  function Owners(certs: seq<CertificateRow>): set<Option<string>>
  {
    Distinct(OwnerColumn(certs))
  }

  /** A value is among the bootcamps exactly when some certificate carries it. */
  lemma BootcampsMembers(certs: seq<CertificateRow>, b: Option<string>)
    ensures b in Bootcamps(certs) <==> exists i :: 0 <= i < |certs| && certs[i].bootcamp == b
    ensures |Bootcamps(certs)| <= |certs|
  {
    DistinctMembers(BootcampColumn(certs));
    if b in BootcampColumn(certs) {
      var i :| 0 <= i < |certs| && BootcampColumn(certs)[i] == b;
      assert certs[i].bootcamp == b;
    }
  }

  /** A value is among the owners exactly when some certificate carries it. */
  lemma OwnersMembers(certs: seq<CertificateRow>, o: Option<string>)
    ensures o in Owners(certs) <==> exists i :: 0 <= i < |certs| && certs[i].userId == o
    ensures |Owners(certs)| <= |certs|
  {
    DistinctMembers(OwnerColumn(certs));
    if o in OwnerColumn(certs) {
      var i :| 0 <= i < |certs| && OwnerColumn(certs)[i] == o;
      assert certs[i].userId == o;
    }
  }

  /** `certificates.filter(c => c.type === t).length`. */
  function CountType(certs: seq<CertificateRow>, t: string): (n: nat)
    ensures n <= |certs|
  {
    if |certs| == 0 then 0
    else CountType(certs[..|certs| - 1], t) + (if certs[|certs| - 1].certType == Some(t) then 1 else 0)
  }

  datatype Stats = Stats(total: nat, completion: nat, participation: nat, uniqueBootcamps: nat, uniqueUsers: nat)

  function StatsFor(certs: seq<CertificateRow>): Stats
  {
    Stats(|certs|, CountType(certs, "completion"), CountType(certs, "participation"), |Bootcamps(certs)|, |Owners(certs)|)
  }

  /** The two type counts share no certificate, and the distinct counts lie between 1 and the total for a non-empty list. */
  lemma {:induction false} StatsBounds(certs: seq<CertificateRow>)
    ensures StatsFor(certs).completion + StatsFor(certs).participation <= StatsFor(certs).total
    ensures StatsFor(certs).uniqueBootcamps <= StatsFor(certs).total
    ensures StatsFor(certs).uniqueUsers <= StatsFor(certs).total
    ensures |certs| > 0 ==> StatsFor(certs).uniqueBootcamps >= 1 && StatsFor(certs).uniqueUsers >= 1
    decreases |certs|
  {
    if |certs| > 0 {
      StatsBounds(certs[..|certs| - 1]);
      BootcampsMembers(certs, certs[0].bootcamp);
      OwnersMembers(certs, certs[0].userId);
    } else {
      BootcampsMembers(certs, None);
      OwnersMembers(certs, None);
    }
  }

  /**
   * The bootcamp statistic counts raw values, the grouping counts keys after
   * the "Unknown Bootcamp" fallback: there are never more groups than
   * distinct bootcamp values, and fewer when null, empty and the literal
   * "Unknown Bootcamp" occur together.
   */
  lemma GroupsAtMostBootcamps(certs: seq<CertificateRow>)
    ensures |GroupByBootcamp(certs)| <= |Bootcamps(certs)|
  {
    GroupByBootcampIsReference(certs);
    DistinctAtMostBootcamps(certs);
  }

  lemma {:induction false} DistinctAtMostBootcamps(certs: seq<CertificateRow>)
    ensures |DistinctInOrder(Keys(certs))| <= |Bootcamps(certs)|
    decreases |certs|
  {
    if |certs| > 0 {
      var init := certs[..|certs| - 1];
      var c := certs[|certs| - 1];
      DistinctAtMostBootcamps(init);
      BootcampsSnoc(certs);
      KeysSnoc(certs);
      assert Keys(certs)[..|certs| - 1] == Keys(init);
      var d := DistinctInOrder(Keys(init));
      if GroupKey(c) !in d {
        NewKeyNewBootcamp(init, c);
        assert |DistinctInOrder(Keys(certs))| == |d| + 1;
        assert |Bootcamps(certs)| == |Bootcamps(init)| + 1;
      } else {
        assert DistinctInOrder(Keys(certs)) == d;
        AddOneNoSmaller(Bootcamps(init), c.bootcamp);
      }
    }
  }

  lemma AddOneNoSmaller<T>(a: set<T>, x: T)
    ensures |a| <= |a + {x}|
  {
    if x in a {
      assert a + {x} == a;
    }
  }

  /** Adding a certificate adds its bootcamp value to the set. */
  lemma BootcampsSnoc(certs: seq<CertificateRow>)
    requires |certs| > 0
    ensures Bootcamps(certs) == Bootcamps(certs[..|certs| - 1]) + {certs[|certs| - 1].bootcamp}
  {
    assert BootcampColumn(certs)[..|certs| - 1] == BootcampColumn(certs[..|certs| - 1]);
  }

  /** A group key not seen before comes from a bootcamp value not seen before. */
  lemma NewKeyNewBootcamp(init: seq<CertificateRow>, c: CertificateRow)
    requires GroupKey(c) !in DistinctInOrder(Keys(init))
    ensures c.bootcamp !in Bootcamps(init)
  {
    DistinctInOrderProps(Keys(init));
    BootcampsMembers(init, c.bootcamp);
  }

  /** Two certificates without a bootcamp, one null and one empty, make two bootcamp values but one group. */
  lemma NullAndEmptyShareGroup(a: CertificateRow, b: CertificateRow)
    requires a.bootcamp == None && b.bootcamp == Some("")
    ensures |Bootcamps([a, b])| == 2
    ensures |GroupByBootcamp([a, b])| == 1
  {
    BootcampsSnoc([a, b]);
    assert [a, b][..1] == [a];
    BootcampsSnoc([a]);
    assert [a][..0] == [];
    assert Bootcamps([a, b]) == {None, Some("")};
    assert GroupKey(a) == GroupKey(b) == UnknownBootcamp;
    assert GroupByBootcamp([a]) == [Group(UnknownBootcamp, [a])];
  }

  /** The group heading's count phrase: "certificate" with an "s" unless the count is one. */
  function CountPhrase(n: nat): (r: string)
  {
    NatToDecimal(n) + (if n == 1 then " certificate" else " certificates")
  }

  /** The phrase starts with the count and ends in "s" exactly when the count is not one. */
  lemma CountPhrasePlural(n: nat)
    ensures DecimalValue(CountPhrase(n)[..|NatToDecimal(n)|]) == n
    ensures CountPhrase(n)[|CountPhrase(n)| - 1] == 's' <==> n != 1
  {
    NatToDecimalRoundTrip(n);
    assert CountPhrase(n)[..|NatToDecimal(n)|] == NatToDecimal(n);
  }

  /** One bootcamp section of the overview. */
  datatype Section = Section(bootcamp: string, phrase: string, rows: seq<CertEntry>)

  function SectionFor(g: Group): Section
  {
    Section(g.bootcamp, CountPhrase(|g.certs|), Entries(g.certs))
  }

  datatype Overview = Overview(stats: Stats, sections: seq<Section>, emptyText: Option<string>) | OverviewFailed

  const NoCertificatesText := "No certificates have been generated yet."

  /**
   * `getAllCertificatesPage`: the newest thousand certificates, their
   * statistics and their bootcamp sections. The grouping runs only for a
   * non-empty list, and its TypeError on a bootcamp named like an inherited
   * member lands in the same error page as a database failure. The page
   * covers the first thousand rows: its statistics are those of the rows
   * (the two type counts never exceed the total, and there are no more
   * sections than distinct bootcamp values), each section is its group's
   * heading, count phrase and entries, the sections list each row once, and
   * the empty notice shows exactly when there are none.
   */
  function AllCertificatesPage(db: Db): (p: Overview)
    requires InsertionOrdered(db.certificates)
    ensures p.OverviewFailed? <==>
      db.conn.Down? || HasInheritedKey(db.certificates[..if |db.certificates| < OverviewLimit then |db.certificates| else OverviewLimit])
    ensures p.Overview? ==>
      var certs := db.certificates[..if |db.certificates| < OverviewLimit then |db.certificates| else OverviewLimit];
      && p.stats == StatsFor(certs)
      && p.stats.total == |certs|
      && p.stats.completion + p.stats.participation <= p.stats.total
      && (p.emptyText.Some? <==> |db.certificates| == 0)
      && |p.sections| == |GroupByBootcamp(certs)| <= p.stats.uniqueBootcamps
      && (forall i :: 0 <= i < |p.sections| ==> p.sections[i] == SectionFor(GroupByBootcamp(certs)[i]))
      && TotalSize(GroupByBootcamp(certs)) == |certs|
  {
    match GetAllCertificates(db, OverviewLimit, 0)
    case Err(_) => OverviewFailed
    case Ok(certs) =>
      GroupSizesSum(certs);
      GroupByBootcampIsReference(certs);
      StatsBounds(certs);
      GroupsAtMostBootcamps(certs);
      if |certs| == 0 then Overview(StatsFor(certs), [], Some(NoCertificatesText))
      else match ReduceByBootcamp(certs)
        case None => OverviewFailed
        case Some(groups) =>
          Overview(StatsFor(certs), seq(|groups|, i requires 0 <= i < |groups| => SectionFor(groups[i])), None)
  }
}

=== FILE: auth_flow.dfy ===
/**
 * The account handlers: sign-up, login with the approval gate, logout, token
 * refresh, and the alert shown above the login and sign-up forms. The
 * identity service's answers are inputs; profiles come from the abstract
 * database.
 */
module AuthFlow {
  import opened Js
  import opened Records
  import opened Store
  import opened AuthGate
  import Templates

  /** A refusal in the caller's dialect for the two handlers that distinguish them. */
  function Fail(h: Headers, code: nat, error: string, location: string): (r: Reply)
    ensures r.JsonError? <==> WantsJson(h)
    ensures r.JsonError? ==> r.code == code && r.error == error
    ensures r.Redirect? ==> r.location == location
  {
    if WantsJson(h) then JsonError(code, error, None) else Redirect(location)
  }

  const CredentialsRequired := "Email and password are required"

  // ---------------------------------------------------------------------------
  // Sign-up
  // ---------------------------------------------------------------------------

  /** The text before the first `@` (all of it when there is none): `email.split('@')[0]`. */
  function LocalPart(email: string): string
  {
    SplitOn(email, '@')[0]
  }

  /** The local part is the longest prefix of the address free of `@`. */
  lemma LocalPartBeforeAt(email: string)
    ensures StartsWith(email, LocalPart(email))
    ensures forall k :: 0 <= k < |LocalPart(email)| ==> LocalPart(email)[k] != '@'
    ensures |LocalPart(email)| == |email| || email[|LocalPart(email)|] == '@'
  {
    var parts := SplitOn(email, '@');
    SplitOnJoin(email, '@');
    SplitOnPieces(email, '@');
    if |parts| > 1 {
      var tail := ['@'] + JoinWith(parts[1..], '@');
      assert email == parts[0] + tail;
      assert email[..|parts[0]|] == parts[0];
      assert email[|parts[0]|] == tail[0];
    }
  }

  datatype SignupBody = SignupBody(email: Option<string>, password: Option<string>, fullName: Option<string>)

  /** `auth.admin.createUser`: the new user, an error, or a thrown exception. */
  datatype CreateAnswer = CreatedUser(user: User) | CreateError(message: string) | CreateThrew

  /** The database's answer to the profile insert. */
  datatype InsertAnswer = ProfileInserted | InsertFailed(message: string)

  /** The profile row sign-up writes when none exists yet. */
  datatype NewProfile = NewProfile(id: string, email: string, fullName: string, role: string)

  /** The side effects of sign-up besides the reply. */
  datatype SignupEffects = SignupEffects(inserted: Option<NewProfile>, renamed: Option<string>, deletedUser: Option<string>)

  const NoSignupEffects := SignupEffects(None, None, None)

  datatype SignupResult = SignupResult(reply: Reply, effects: SignupEffects)

  const SignupMessage := "Account created successfully! Your account is pending approval. You will be able to login once an administrator approves your account."

  function SignupDone(h: Headers, effects: SignupEffects): SignupResult
  {
    SignupResult(if WantsJson(h) then JsonOk(SignupMessage) else Redirect("/auth/login?message=signup_success"), effects)
  }

  /** The profile written for a user that has none: the given name, else the address's local part. */
  function ProfileFor(u: User, email: string, fullName: Option<string>): NewProfile
  {
    NewProfile(u.id, email, OrElse(fullName, LocalPart(email)), "user")
  }

  /**
   * `signup`, with `createUser` answering for every address and password,
   * the database supplying the existing profile, and `insert` the answer to
   * the profile insert when one is needed.
   */
  function Signup(h: Headers, body: SignupBody, createUser: (string, string) -> CreateAnswer, db: Db, insert: InsertAnswer)
    : (r: SignupResult)
    ensures !Present(body.email) || !Present(body.password) ==> r == SignupResult(JsonError(400, CredentialsRequired, None), NoSignupEffects)
    ensures r.effects.inserted.Some? ==>
      && Present(body.email) && Present(body.password)
      && createUser(body.email.value, body.password.value).CreatedUser?
      && GetProfile(db, createUser(body.email.value, body.password.value).user.id).None?
      && r.effects.inserted == Some(ProfileFor(createUser(body.email.value, body.password.value).user, body.email.value, body.fullName))
    ensures r.effects.renamed.Some? ==> r.effects.inserted.None? && Present(body.fullName) && r.effects.renamed == body.fullName
    ensures r.effects.deletedUser.Some? ==> r.reply.JsonError? && r.reply.code == 400 && insert.InsertFailed?
  {
    if !Present(body.email) || !Present(body.password) then
      SignupResult(JsonError(400, CredentialsRequired, None), NoSignupEffects)
    else
      var email := body.email.value;
      match createUser(email, body.password.value)
      case CreateThrew => SignupResult(Fail(h, 500, "Signup failed", "/auth/signup?error=signup_failed"), NoSignupEffects)
      case CreateError(m) => SignupResult(JsonError(400, m, None), NoSignupEffects)
      case CreatedUser(u) =>
        match GetProfile(db, u.id)
        case Some(p) =>
          var renamed := if Present(body.fullName) && p.fullName != body.fullName then Some(body.fullName.value) else None;
          SignupDone(h, SignupEffects(None, renamed, None))
        case None =>
          var np := ProfileFor(u, email, body.fullName);
          match insert
          case ProfileInserted => SignupDone(h, SignupEffects(Some(np), None, None))
          case InsertFailed(m) =>
            if Contains("Failed to create profile: " + m, "duplicate key") then SignupDone(h, SignupEffects(Some(np), None, None))
            else SignupResult(JsonError(400, "Failed to create user profile", None), SignupEffects(Some(np), None, Some(u.id)))
  }

  /** Missing credentials are refused with a 400 before the identity service is asked, and nothing happens. */
  lemma SignupNeedsCredentials(h: Headers, body: SignupBody, f: (string, string) -> CreateAnswer, g: (string, string) -> CreateAnswer,
                               db: Db, insert: InsertAnswer)
    requires !Present(body.email) || !Present(body.password)
    ensures Signup(h, body, f, db, insert) == Signup(h, body, g, db, insert)
    ensures Signup(h, body, f, db, insert).reply == JsonError(400, CredentialsRequired, None)
    ensures Signup(h, body, f, db, insert).effects == NoSignupEffects
  {
  }

  /** A new profile takes the given name, or else the part of the address before its first `@`, and the role `user`. */
  lemma SignupNameDefault(h: Headers, body: SignupBody, createUser: (string, string) -> CreateAnswer, db: Db, insert: InsertAnswer)
    ensures var r := Signup(h, body, createUser, db, insert);
      r.effects.inserted.Some? ==>
        && Present(body.email)
        && r.effects.inserted.value.email == body.email.value
        && r.effects.inserted.value.role == "user"
        && (Present(body.fullName) ==> r.effects.inserted.value.fullName == body.fullName.value)
        && (!Present(body.fullName) ==> r.effects.inserted.value.fullName == LocalPart(body.email.value))
  {
  }

  /**
   * A failed profile insert is tolerated exactly when its message mentions a
   * duplicate key; otherwise the new identity is deleted again and sign-up
   * answers 400.
   */
  lemma SignupProfileFailure(h: Headers, body: SignupBody, u: User, createUser: (string, string) -> CreateAnswer, db: Db, m: string)
    requires Present(body.email) && Present(body.password)
    requires createUser(body.email.value, body.password.value) == CreatedUser(u)
    requires GetProfile(db, u.id).None?
    ensures var r := Signup(h, body, createUser, db, InsertFailed(m));
      && (Contains("Failed to create profile: " + m, "duplicate key") ==> r == SignupDone(h, r.effects) && r.effects.deletedUser.None?)
      && (!Contains("Failed to create profile: " + m, "duplicate key") ==>
            r.reply == JsonError(400, "Failed to create user profile", None) && r.effects.deletedUser == Some(u.id))
  {
  }

  // ---------------------------------------------------------------------------
  // Login
  // ---------------------------------------------------------------------------

  datatype Credentials = Credentials(email: Option<string>, password: Option<string>)

  /** `auth.signInWithPassword`: a user with tokens, an error, or a thrown exception. */
  datatype SignInAnswer = SignedIn(user: User, accessToken: string, refreshToken: string) | SignInError(message: string) | SignInThrew

  /** The reply, the session afterwards, and whether the fresh sign-in was signed out again. */
  datatype LoginResult = LoginResult(reply: Reply, session: Session, signedOut: bool)

  /** `profile.status || 'pending'`. */
  function EffectiveStatus(p: ProfileRow): string
  {
    OrElse(p.status, "pending")
  }

  const PendingError := "Your account is pending approval. Please wait for an administrator to approve your account."
  const RejectedError := "Your account has been rejected. Please contact administrator."
  const SuspendedError := "Your account has been suspended. Please contact administrator."
  const DeniedError := "Account access denied. Please contact administrator."

  /** The 403 for a status other than `approved`, in the order the handler tests them. */
  function StatusRefusal(status: string, rejectionReason: Option<string>): (r: Reply)
    requires status != "approved"
  {
    if status == "pending" then JsonError(403, PendingError, Some("pending"))
    else if status == "rejected" then JsonError(403, OrElse(rejectionReason, RejectedError), Some("rejected"))
    else if status == "suspended" then JsonError(403, SuspendedError, Some("suspended"))
    else JsonError(403, DeniedError, Some(status))
  }

  /**
   * `login`, with `signIn` answering for every address and password. The
   * approval gate: a login is admitted exactly when sign-in succeeds and the
   * user's profile exists with status `approved`; the session changes only
   * then, to the new tokens and user.
   */
  function Login(h: Headers, c: Credentials, s: Session, signIn: (string, string) -> SignInAnswer, db: Db): (r: LoginResult)
    ensures Admitted(r.reply) <==>
      && Present(c.email) && Present(c.password)
      && signIn(c.email.value, c.password.value).SignedIn?
      && GetProfile(db, signIn(c.email.value, c.password.value).user.id).Some?
      && GetProfile(db, signIn(c.email.value, c.password.value).user.id).value.status == Some("approved")
    ensures !Admitted(r.reply) ==> r.session == s
    ensures Admitted(r.reply) ==>
      var a := signIn(c.email.value, c.password.value);
      a.SignedIn? && !r.signedOut &&
      r.session == s.(accessToken := Some(a.accessToken), refreshToken := Some(a.refreshToken), user := Some(a.user))
  {
    if !Present(c.email) || !Present(c.password) then LoginResult(JsonError(400, CredentialsRequired, None), s, false)
    else
      match signIn(c.email.value, c.password.value)
      case SignInThrew => LoginResult(Fail(h, 500, "Login failed", "/auth/login?error=login_failed"), s, false)
      case SignInError(m) => LoginResult(JsonError(400, m, None), s, false)
      case SignedIn(u, access, refresh) =>
        match GetProfile(db, u.id)
        case None => LoginResult(JsonError(403, "Profile not found. Please contact administrator.", None), s, true)
        case Some(p) =>
          var status := EffectiveStatus(p);
          AdmittedIffApproved(p);
          if status != "approved" then LoginResult(StatusRefusal(status, p.rejectionReason), s, true)
          else
            var s' := s.(accessToken := Some(access), refreshToken := Some(refresh), user := Some(u));
            LoginResult(if WantsJson(h) then JsonOk("Login successful") else Redirect("/auth/dashboard"), s', false)
  }

  /** Whether a login reply admits the user. */
  predicate Admitted(r: Reply)
  {
    r == JsonOk("Login successful") || r == Redirect("/auth/dashboard")
  }

  lemma AdmittedIffApproved(p: ProfileRow)
    ensures EffectiveStatus(p) == "approved" <==> p.status == Some("approved")
    ensures EffectiveStatus(p) != "approved" ==> !Admitted(StatusRefusal(EffectiveStatus(p), p.rejectionReason))
  {
  }

  /**
   * A signed-in user without an approved profile gets a 403 and is signed out
   * again; a profile with no status counts as pending.
   */
  lemma LoginRefusesUnapproved(h: Headers, c: Credentials, s: Session, signIn: (string, string) -> SignInAnswer, db: Db, p: ProfileRow)
    requires Present(c.email) && Present(c.password) && signIn(c.email.value, c.password.value).SignedIn?
    requires GetProfile(db, signIn(c.email.value, c.password.value).user.id) == Some(p)
    requires p.status != Some("approved")
    ensures Login(h, c, s, signIn, db).reply.JsonError? && Login(h, c, s, signIn, db).reply.code == 403
    ensures Login(h, c, s, signIn, db).signedOut
    ensures !Present(p.status) ==> Login(h, c, s, signIn, db).reply == JsonError(403, PendingError, Some("pending"))
  {
  }

  /** A rejected user is told the stored reason when there is one, and a fixed message otherwise. */
  lemma LoginRejectionReason(status: string, reason: Option<string>)
    requires status == "rejected"
    ensures Present(reason) ==> StatusRefusal(status, reason).error == reason.value
    ensures !Present(reason) ==> StatusRefusal(status, reason).error == RejectedError
  {
  }

  /** Missing credentials are refused with a 400 before the identity service is asked, and the session stays. */
  lemma LoginNeedsCredentials(h: Headers, c: Credentials, s: Session, f: (string, string) -> SignInAnswer, g: (string, string) -> SignInAnswer, db: Db)
    requires !Present(c.email) || !Present(c.password)
    ensures Login(h, c, s, f, db) == Login(h, c, s, g, db)
    ensures Login(h, c, s, f, db) == LoginResult(JsonError(400, CredentialsRequired, None), s, false)
  {
  }

  // ---------------------------------------------------------------------------
  // Logout and refresh
  // ---------------------------------------------------------------------------

  /** The reply, the session afterwards, and whether the identity service was told to sign out. */
  datatype LogoutResult = LogoutResult(reply: Reply, session: Session, signedOut: bool)

  /** The two successful logout answers: the JSON message or the login page's notice. */
  predicate LoggedOut(r: Reply)
  {
    r.JsonOk? || r == Redirect("/auth/login?message=logged_out")
  }

  /**
   * `logout`; `signOutThrew` is whether the identity service's sign-out threw,
   * `destroyFailed` whether destroying the stored session failed. The service
   * is told to sign out exactly when a token was held. A sign-out that throws
   * jumps to the catch before the session fields are cleared, so the session
   * stays as it was and the answer is the 500; otherwise the session is
   * emptied, and the answer is a success exactly when destroying it did not
   * fail.
   */
  function Logout(h: Headers, s: Session, signOutThrew: bool, destroyFailed: bool): (r: LogoutResult)
    ensures r.signedOut <==> Present(s.accessToken)
    ensures Present(s.accessToken) && signOutThrew ==> r.session == s
    ensures !(Present(s.accessToken) && signOutThrew) ==> r.session == EmptySession
    ensures LoggedOut(r.reply) <==> !(Present(s.accessToken) && signOutThrew) && !destroyFailed
    ensures !LoggedOut(r.reply) ==> r.reply == Fail(h, 500, "Logout failed", "/auth/login?error=logout_failed")
  {
    var failed := Fail(h, 500, "Logout failed", "/auth/login?error=logout_failed");
    var signedOut := Present(s.accessToken);
    if signedOut && signOutThrew then LogoutResult(failed, s, signedOut)
    else
      var cleared := ClearSession(s);
      if destroyFailed then LogoutResult(failed, cleared, signedOut)
      else LogoutResult(if WantsJson(h) then JsonOk("Logout successful") else Redirect("/auth/login?message=logged_out"), cleared, signedOut)
  }

  /**
   * After a logout whose sign-out did not throw, the session no longer
   * authenticates: a later request without a `Bearer` header is refused by
   * `requireAuth` whatever the identity service says. After a throwing
   * sign-out the session authenticates exactly as before.
   */
  lemma LogoutEndsAuthentication(h: Headers, s: Session, signOutThrew: bool, destroyFailed: bool,
                                 later: Headers, getUser: string -> IdentityAnswer)
    requires !(later.authorization.Some? && StartsWith(later.authorization.value, BearerPrefix))
    ensures !(Present(s.accessToken) && signOutThrew) ==>
      Refuses(RequireAuth(later, Logout(h, s, signOutThrew, destroyFailed).session, getUser).reply, 401, LoginRedirect)
    ensures Present(s.accessToken) && signOutThrew ==>
      RequireAuth(later, Logout(h, s, signOutThrew, destroyFailed).session, getUser) == RequireAuth(later, s, getUser)
  {
  }

  /** `auth.refreshSession`: new tokens and user, an error, or a thrown exception. */
  datatype RefreshAnswer = Refreshed(user: User, accessToken: string, refreshToken: string) | RefreshError(message: string) | RefreshThrew

  datatype RefreshResult = RefreshResult(reply: Reply, session: Session)

  /**
   * `refreshToken`, with `refresh` answering for every refresh token. The
   * session changes only on success, to the refreshed tokens and user.
   */
  function RefreshToken(s: Session, refresh: string -> RefreshAnswer): (r: RefreshResult)
    ensures r.session != s ==> r.reply == JsonOk("Token refreshed successfully")
    ensures r.reply.JsonOk? <==> Present(s.refreshToken) && refresh(s.refreshToken.value).Refreshed?
    ensures r.reply.JsonOk? ==>
      var a := refresh(s.refreshToken.value);
      r.session == Session(Some(a.accessToken), Some(a.refreshToken), Some(a.user))
  {
    if !Present(s.refreshToken) then RefreshResult(JsonError(401, "No refresh token available", None), s)
    else
      match refresh(s.refreshToken.value)
      case RefreshThrew => RefreshResult(JsonError(500, "Token refresh failed", None), s)
      case RefreshError(m) => RefreshResult(JsonError(401, m, None), s)
      case Refreshed(u, access, rt) =>
        RefreshResult(JsonOk("Token refreshed successfully"), s.(accessToken := Some(access), refreshToken := Some(rt), user := Some(u)))
  }

  /** Without a refresh token the answer is a 401 and the service is not asked. */
  lemma RefreshNeedsToken(s: Session, f: string -> RefreshAnswer, g: string -> RefreshAnswer)
    ensures !Present(s.refreshToken) ==>
      RefreshToken(s, f) == RefreshToken(s, g) && RefreshToken(s, f).reply.JsonError? && RefreshToken(s, f).reply.code == 401
  {
  }

  // ---------------------------------------------------------------------------
  // Form alerts
  // ---------------------------------------------------------------------------

  const LoggedOutText := "\U{2705} You have been successfully logged out."
  const SignupSuccessText := "\U{2705} " + SignupMessage
  const LogoutFailedText := "\U{274C} Logout failed. Please try again."
  const LoginFailedText := "\U{274C} Login failed. Please check your credentials and try again."
  const UnauthorizedText := "\U{1F512} You need to login to access that page."
  const SignupFailedText := "\U{274C} Signup failed. Please try again or contact support."

  /** The alert kind and text the login form shows for its query, if any. */
  function LoginAlertChoice(message: Option<string>, error: Option<string>): Option<(string, string)>
  {
    if message == Some("logged_out") then Some(("success", LoggedOutText))
    else if message == Some("signup_success") then Some(("success", SignupSuccessText))
    else if error == Some("logout_failed") then Some(("error", LogoutFailedText))
    else if error == Some("login_failed") then Some(("error", LoginFailedText))
    else if error == Some("unauthorized") then Some(("error", UnauthorizedText))
    else None
  }

  /** `getLoginForm`'s alert markup. */
  function LoginAlert(message: Option<string>, error: Option<string>): string
  {
    match LoginAlertChoice(message, error)
    case None => ""
    case Some(choice) => Templates.CreateAlert(choice.0, Some(choice.1))
  }

  /** A recognised message wins whatever the error says, and gives a success alert. */
  lemma LoginAlertMessageWins(message: Option<string>, error: Option<string>, other: Option<string>)
    requires message == Some("logged_out") || message == Some("signup_success")
    ensures LoginAlert(message, error) == LoginAlert(message, other)
    ensures LoginAlertChoice(message, error).Some? && LoginAlertChoice(message, error).value.0 == "success"
  {
  }

  /**
   * Otherwise the error alone decides: an error alert appears only for a
   * recognised error, and nothing recognised means no alert.
   */
  lemma LoginAlertErrorOtherwise(message: Option<string>, error: Option<string>)
    requires message != Some("logged_out") && message != Some("signup_success")
    ensures LoginAlert(message, error) == LoginAlert(None, error)
    ensures LoginAlertChoice(message, error).Some? <==>
      error == Some("logout_failed") || error == Some("login_failed") || error == Some("unauthorized")
    ensures LoginAlertChoice(message, error).Some? ==> LoginAlertChoice(message, error).value.0 == "error"
    ensures LoginAlert(message, error) == "" <==> LoginAlertChoice(message, error).None?
  {
    match LoginAlertChoice(message, error)
    case None =>
    case Some(choice) =>
      assert Present(Some(choice.1));
  }

  /** `getSignupForm`'s alert markup: only `signup_failed` is recognised. */
  function SignupAlert(error: Option<string>): (r: string)
    ensures r != "" <==> error == Some("signup_failed")
  {
    if error == Some("signup_failed") then Templates.CreateAlert("error", Some(SignupFailedText)) else ""
  }
}

=== FILE: auth_gate.dfy ===
/**
 * The authentication middleware: where the access token comes from, and the
 * decisions of `requireAuth`, `requireAdmin` and `optionalAuth`. The identity
 * service's and the profile table's answers are inputs; each decision returns
 * what the middleware sends (or that it passes the request on) together with
 * the session and request fields it leaves behind.
 */
module AuthGate {
  import opened Js

  /** The authenticated user as the identity service describes it. */
  datatype User = User(id: string, email: Option<string>)

  /** The three session fields the application reads and clears. */
  datatype Session = Session(accessToken: Option<string>, refreshToken: Option<string>, user: Option<User>)

  const EmptySession := Session(None, None, None)

  /** What a handler or middleware does with the request. */
  datatype Reply =
    | Next
    | JsonError(code: nat, error: string, status: Option<string>)
    | JsonOk(message: string)
    | Redirect(location: string)

  /** Whether a reply refuses the request with the given HTTP status or a redirect. */
  predicate Refuses(r: Reply, code: nat, location: string)
  {
    (r.JsonError? && r.code == code) || r == Redirect(location)
  }

  /** The request headers the middleware inspects. */
  datatype Headers = Headers(authorization: Option<string>, accept: Option<string>)

  /** `req.headers.accept?.includes('application/json')`. */
  predicate WantsJson(h: Headers)
  {
    h.accept.Some? && Contains(h.accept.value, "application/json")
  }

  /** A refusal in the caller's dialect: JSON status or a browser redirect. */
  function Refuse(h: Headers, code: nat, error: string, location: string): (r: Reply)
    ensures Refuses(r, code, location)
    ensures r.JsonError? <==> WantsJson(h)
  {
    if WantsJson(h) then JsonError(code, error, None) else Redirect(location)
  }

  const LoginRedirect := "/auth/login?error=unauthorized"
  const DashboardRedirect := "/auth/dashboard?error=admin_required"

  // ---------------------------------------------------------------------------
  // Token selection
  // ---------------------------------------------------------------------------

  const BearerPrefix := "Bearer "

  /**
   * The header's text after `Bearer ` when it starts so, and the session's
   * access token otherwise.
   */
  function SelectToken(h: Headers, s: Session): (t: Option<string>)
  {
    if h.authorization.Some? && StartsWith(h.authorization.value, BearerPrefix)
    then Some(h.authorization.value[|BearerPrefix|..])
    else s.accessToken
  }

  /**
   * A bearer header decides the token, and its token put back behind the
   * prefix gives the header; without one, the session decides.
   */
  lemma SelectTokenSource(h: Headers, s: Session)
    ensures h.authorization.Some? && StartsWith(h.authorization.value, BearerPrefix) ==>
      SelectToken(h, s).Some? && BearerPrefix + SelectToken(h, s).value == h.authorization.value
    ensures !(h.authorization.Some? && StartsWith(h.authorization.value, BearerPrefix)) ==>
      SelectToken(h, s) == s.accessToken
  {
    if h.authorization.Some? && StartsWith(h.authorization.value, BearerPrefix) {
      var a := h.authorization.value;
      assert a == a[..|BearerPrefix|] + a[|BearerPrefix|..];
    }
  }

  /** A bare `Bearer ` header yields an empty token, which hides any session token. */
  lemma BareBearerHidesSession(s: Session, accept: Option<string>)
    ensures SelectToken(Headers(Some(BearerPrefix), accept), s) == Some("")
    ensures !Present(SelectToken(Headers(Some(BearerPrefix), accept), s))
  {
  }

  // ---------------------------------------------------------------------------
  // requireAuth / optionalAuth
  // ---------------------------------------------------------------------------

  /** `supabaseAdmin.auth.getUser(token)`: a user, an error, or a thrown exception. */
  datatype IdentityAnswer = Identified(user: Option<User>, failed: bool) | IdentityThrew

  predicate Verified(a: IdentityAnswer)
  {
    a.Identified? && !a.failed && a.user.Some?
  }

  /** The reply, and what the request and session hold afterwards. */
  datatype Gate = Gate(reply: Reply, session: Session, user: Option<User>, token: Option<string>)

  function ClearSession(s: Session): (c: Session)
  {
    s.(accessToken := None, refreshToken := None, user := None)
  }

  /**
   * `requireAuth`, with `getUser` answering for every token. The request
   * passes exactly when a token is present and verifies; it then carries the
   * verified user and the token. Otherwise it is refused with a 401 or a
   * redirect to the login page, and never carries a user.
   */
  function RequireAuth(h: Headers, s: Session, getUser: string -> IdentityAnswer): (g: Gate)
    ensures g.reply == Next <==> Present(SelectToken(h, s)) && Verified(getUser(SelectToken(h, s).value))
    ensures g.reply == Next ==> g.user == getUser(SelectToken(h, s).value).user && g.token == SelectToken(h, s) && g.session == s
    ensures g.reply != Next ==> Refuses(g.reply, 401, LoginRedirect) && g.user.None? && g.token.None?
  {
    var token := SelectToken(h, s);
    if !Present(token) then Gate(Refuse(h, 401, "Authentication required", LoginRedirect), s, None, None)
    else
      var answer := getUser(token.value);
      if answer.IdentityThrew? then Gate(Refuse(h, 401, "Authentication failed", LoginRedirect), s, None, None)
      else if answer.failed || answer.user.None? then
        Gate(Refuse(h, 401, "Invalid or expired token", LoginRedirect), ClearSession(s), None, None)
      else Gate(Next, s, answer.user, token)
  }

  /** Without a token the identity service is never asked: its answers make no difference. */
  lemma MissingTokenSkipsIdentity(h: Headers, s: Session, f: string -> IdentityAnswer, g: string -> IdentityAnswer)
    requires !Present(SelectToken(h, s))
    ensures RequireAuth(h, s, f) == RequireAuth(h, s, g)
    ensures OptionalAuth(h, s, f) == OptionalAuth(h, s, g)
  {
  }

  /**
   * A token the service rejects clears the three session fields and is
   * refused; a thrown exception refuses without touching the session.
   */
  lemma InvalidTokenClearsSession(h: Headers, s: Session, getUser: string -> IdentityAnswer)
    requires Present(SelectToken(h, s))
    ensures var a := getUser(SelectToken(h, s).value);
      a.Identified? && !Verified(a) ==>
        RequireAuth(h, s, getUser).session == EmptySession && RequireAuth(h, s, getUser).reply != Next
    ensures getUser(SelectToken(h, s).value).IdentityThrew? ==>
      RequireAuth(h, s, getUser).session == s && RequireAuth(h, s, getUser).reply != Next
  {
  }

  /** `optionalAuth`: always passes on, attaching the user only when the token verifies. */
  function OptionalAuth(h: Headers, s: Session, getUser: string -> IdentityAnswer): (g: Gate)
    ensures g.reply == Next && g.session == s
    ensures g.user.Some? <==> Present(SelectToken(h, s)) && Verified(getUser(SelectToken(h, s).value))
    ensures g.user.Some? ==> g.user == getUser(SelectToken(h, s).value).user && g.token == SelectToken(h, s)
    ensures g.user.None? ==> g.token.None?
  {
    var token := SelectToken(h, s);
    if Present(token) then
      var answer := getUser(token.value);
      if answer.Identified? && !answer.failed && answer.user.Some? then Gate(Next, s, answer.user, token)
      else Gate(Next, s, None, None)
    else Gate(Next, s, None, None)
  }

  /** `optionalAuth` agrees with `requireAuth` on who the user is. */
  lemma OptionalAuthAgrees(h: Headers, s: Session, getUser: string -> IdentityAnswer)
    ensures OptionalAuth(h, s, getUser).user == RequireAuth(h, s, getUser).user
    ensures OptionalAuth(h, s, getUser).token == RequireAuth(h, s, getUser).token
  {
  }

  // ---------------------------------------------------------------------------
  // requireAdmin
  // ---------------------------------------------------------------------------

  /**
   * The `profiles.role` lookup: a row (whose role may be null), no row, an
   * error, or a thrown exception. The lookup uses `.single()`, which reports
   * a missing row as an error, so `NoProfileRow` is answered like `RoleError`.
   */
  datatype RoleAnswer = RoleRow(role: Option<string>) | NoProfileRow | RoleError | RoleThrew

  /**
   * `requireAdmin`, with `lookupRole` answering for every user id. The admin
   * gate passes exactly when there is a user, the lookup succeeds and the role
   * is `admin`. A missing user is a 401 (or the login page); every other
   * refusal is a 403 (or the dashboard). A JSON 403 says "Admin access
   * required" exactly when the user's row was found with another role, and
   * "Authorization check failed" exactly when the row is missing or the
   * query failed.
   */
  function RequireAdmin(h: Headers, user: Option<User>, lookupRole: string -> RoleAnswer): (r: Reply)
    ensures r == Next <==> user.Some? && lookupRole(user.value.id) == RoleRow(Some("admin"))
    ensures user.None? ==> Refuses(r, 401, LoginRedirect)
    ensures user.Some? && r != Next ==> Refuses(r, 403, DashboardRedirect)
    ensures user.Some? && r.JsonError? ==>
      && (r.error == "Admin access required" <==> lookupRole(user.value.id).RoleRow?)
      && (r.error == "Authorization check failed" <==> lookupRole(user.value.id) in {NoProfileRow, RoleError})
  {
    if user.None? then Refuse(h, 401, "Authentication required", LoginRedirect)
    else
      match lookupRole(user.value.id)
      case RoleThrew => Refuse(h, 403, "Authorization failed", DashboardRedirect)
      case RoleError | NoProfileRow => Refuse(h, 403, "Authorization check failed", DashboardRedirect)
      case RoleRow(role) =>
        if role != Some("admin") then Refuse(h, 403, "Admin access required", DashboardRedirect)
        else Next
  }

  /** Chained after `requireAuth`, the admin gate lets through only verified admins. */
  lemma AdminChain(h: Headers, s: Session, getUser: string -> IdentityAnswer, lookupRole: string -> RoleAnswer)
    requires RequireAuth(h, s, getUser).reply == Next
    ensures RequireAdmin(h, RequireAuth(h, s, getUser).user, lookupRole) == Next <==>
      lookupRole(getUser(SelectToken(h, s).value).user.value.id) == RoleRow(Some("admin"))
  {
  }
}

=== FILE: cert_list.dfy ===
/**
 * `formatCertificatesData`: the view model of a certificate list, grouped by
 * bootcamp, with per-group counts, a plural flag and per-certificate labels
 * and defaults.
 */
module CertList {
  import opened Js
  import opened Records

  /** One certificate as the list shows it. The creation date is passed through unformatted. */
  datatype CertEntry = CertEntry(
    studentName: string,
    certType: Option<string>,
    typeLabel: string,
    formatLabel: string,
    createdBy: string,
    createdAt: Option<string>,
    fileUrl: Option<string>,
    verifyUrl: Option<string>)

  datatype BootcampGroup = BootcampGroup(bootcamp: string, count: nat, isPlural: bool, showCreatedBy: bool, certificates: seq<CertEntry>)

  /** The view model, or the TypeError the grouping throws on a bootcamp named like an inherited member. */
  datatype CertificateList =
    | EmptyList(emptyMessage: string)
    | Grouped(groups: seq<BootcampGroup>, showCreatedBy: bool)
    | GroupingTypeError

  const EmptyMessage := "No certificates yet. <a href='/admin'>Generate your first certificate!</a>"
  const UnknownStudent := "Unknown Student"
  const UnknownUser := "Unknown User"

  /** `profiles?.full_name || profiles?.email || 'Unknown User'`. */
  function CreatedBy(c: CertificateRow): string
  {
    match c.creator
    case None => UnknownUser
    case Some(p) => if Present(p.fullName) then p.fullName.value else OrElse(p.email, UnknownUser)
  }

  function TypeLabel(t: Option<string>): string
  {
    if t == Some("completion") then "Completion" else "Participation"
  }

  function FormatLabel(f: Option<string>): string
  {
    if f == Some("portrait") then "Portrait" else "Landscape"
  }

  function Entry(c: CertificateRow): CertEntry
  {
    CertEntry(
      studentName := OrElse(c.studentName, UnknownStudent),
      certType := c.certType,
      typeLabel := TypeLabel(c.certType),
      formatLabel := FormatLabel(c.format),
      createdBy := CreatedBy(c),
      createdAt := c.createdAt,
      fileUrl := c.fileUrl,
      verifyUrl := c.verifyUrl)
  }

  /**
   * The labels and fallbacks of one entry: the student's name or
   * "Unknown Student"; the creator's name, else e-mail, else "Unknown User";
   * "Completion" only for type `completion`, "Portrait" only for format
   * `portrait`; the links unchanged.
   */
  lemma EntryDefaults(c: CertificateRow)
    ensures Present(c.studentName) ==> Entry(c).studentName == c.studentName.value
    ensures !Present(c.studentName) ==> Entry(c).studentName == UnknownStudent
    ensures Entry(c).createdBy ==
      if c.creator.Some? && Present(c.creator.value.fullName) then c.creator.value.fullName.value
      else if c.creator.Some? && Present(c.creator.value.email) then c.creator.value.email.value
      else UnknownUser
    ensures Entry(c).typeLabel == "Completion" <==> c.certType == Some("completion")
    ensures Entry(c).formatLabel == "Portrait" <==> c.format == Some("portrait")
    ensures Entry(c).fileUrl == c.fileUrl && Entry(c).verifyUrl == c.verifyUrl
  {
  }

  function Entries(cs: seq<CertificateRow>): (r: seq<CertEntry>)
    ensures |r| == |cs|
    ensures forall i :: 0 <= i < |cs| ==> r[i] == Entry(cs[i])
  {
    seq(|cs|, i requires 0 <= i < |cs| => Entry(cs[i]))
  }

  function FormatGroup(g: Group, showCreatedBy: bool): BootcampGroup
  {
    BootcampGroup(g.bootcamp, |g.certs|, |g.certs| != 1, showCreatedBy, Entries(g.certs))
  }

  function FormatGroups(gs: seq<Group>, showCreatedBy: bool): (r: seq<BootcampGroup>)
    ensures |r| == |gs|
    ensures forall i :: 0 <= i < |gs| ==> r[i] == FormatGroup(gs[i], showCreatedBy)
  {
    seq(|gs|, i requires 0 <= i < |gs| => FormatGroup(gs[i], showCreatedBy))
  }

  /**
   * `formatCertificatesData`; `certs` is `None` for a null argument. Group
   * order is first appearance, which is the order `Object.entries` gives when
   * no bootcamp name is an array index. A null or empty list is the empty
   * state, a list with a bootcamp named like an inherited member throws, and
   * any other list is grouped.
   */
  function FormatCertificatesData(certs: Option<seq<CertificateRow>>, showCreatedBy: bool): (r: CertificateList)
    requires certs.Some? ==> InsertionOrdered(certs.value)
    ensures r.EmptyList? <==> certs.None? || |certs.value| == 0
    ensures r.GroupingTypeError? <==> certs.Some? && HasInheritedKey(certs.value)
    ensures r.Grouped? ==> |r.groups| == |DistinctInOrder(Keys(certs.value))|
  {
    if certs.None? || |certs.value| == 0 then EmptyList(EmptyMessage)
    else
      GroupByBootcampIsReference(certs.value);
      match ReduceByBootcamp(certs.value)
      case None => GroupingTypeError
      case Some(groups) => Grouped(FormatGroups(groups, showCreatedBy), showCreatedBy)
  }

  /**
   * A null or empty list is the empty state; a list holding a bootcamp named
   * like an inherited member throws; anything else is grouped and carries the
   * flag through.
   */
  lemma FormatEmptyIff(certs: Option<seq<CertificateRow>>, showCreatedBy: bool)
    requires certs.Some? ==> InsertionOrdered(certs.value)
    ensures FormatCertificatesData(certs, showCreatedBy).EmptyList? <==> certs.None? || |certs.value| == 0
    ensures FormatCertificatesData(certs, showCreatedBy).GroupingTypeError? <==> certs.Some? && HasInheritedKey(certs.value)
    ensures FormatCertificatesData(certs, showCreatedBy).EmptyList? ==>
      FormatCertificatesData(certs, showCreatedBy).emptyMessage == EmptyMessage
    ensures FormatCertificatesData(certs, showCreatedBy).Grouped? ==>
      && FormatCertificatesData(certs, showCreatedBy).showCreatedBy == showCreatedBy
      && forall i :: 0 <= i < |FormatCertificatesData(certs, showCreatedBy).groups| ==>
           FormatCertificatesData(certs, showCreatedBy).groups[i].showCreatedBy == showCreatedBy
  {
  }

  /**
   * The groups are the reference grouping: one per distinct bootcamp key in
   * first-appearance order, each listing the entries of the certificates with
   * that key in input order, counting them, and plural exactly when the count
   * is not one. The list is grouped exactly when the reduction does not throw.
   */
  lemma FormatGroupsAreReference(certs: seq<CertificateRow>, showCreatedBy: bool)
    requires |certs| > 0 && InsertionOrdered(certs)
    ensures FormatCertificatesData(Some(certs), showCreatedBy).Grouped? <==> !HasInheritedKey(certs)
    ensures var r := FormatCertificatesData(Some(certs), showCreatedBy);
      var ks := DistinctInOrder(Keys(certs));
      r.Grouped? ==>
      && |r.groups| == |ks|
      && forall i :: 0 <= i < |r.groups| ==>
           && r.groups[i].bootcamp == ks[i]
           && r.groups[i].certificates == Entries(WithKey(certs, ks[i]))
           && r.groups[i].count == |WithKey(certs, ks[i])| > 0
           && (r.groups[i].isPlural <==> r.groups[i].count != 1)
  {
    GroupByBootcampIsReference(certs);
    GroupsDistinctNonEmpty(certs);
  }

  function CountSum(gs: seq<BootcampGroup>): nat
  {
    if |gs| == 0 then 0 else CountSum(gs[..|gs| - 1]) + gs[|gs| - 1].count
  }

  lemma {:induction false} CountSumIsTotalSize(gs: seq<Group>, showCreatedBy: bool)
    ensures CountSum(FormatGroups(gs, showCreatedBy)) == TotalSize(gs)
    decreases |gs|
  {
    if |gs| > 0 {
      var init := gs[..|gs| - 1];
      CountSumIsTotalSize(init, showCreatedBy);
      assert FormatGroups(gs, showCreatedBy)[..|gs| - 1] == FormatGroups(init, showCreatedBy);
    }
  }

  /** Whenever the list is grouped, the group counts add up to the number of certificates. */
  lemma FormatCountsSum(certs: seq<CertificateRow>, showCreatedBy: bool)
    requires |certs| > 0 && InsertionOrdered(certs)
    ensures FormatCertificatesData(Some(certs), showCreatedBy).Grouped? <==> !HasInheritedKey(certs)
    ensures FormatCertificatesData(Some(certs), showCreatedBy).Grouped? ==>
      CountSum(FormatCertificatesData(Some(certs), showCreatedBy).groups) == |certs|
  {
    CountSumIsTotalSize(GroupByBootcamp(certs), showCreatedBy);
    GroupSizesSum(certs);
    GroupByBootcampIsReference(certs);
  }

  /**
   * A certificate without a bootcamp is listed in the group named
   * "Unknown Bootcamp", unless another bootcamp's name makes the grouping throw.
   */
  lemma MissingBootcampIsUnknown(certs: seq<CertificateRow>, m: nat, showCreatedBy: bool)
    requires InsertionOrdered(certs) && m < |certs| && !Present(certs[m].bootcamp)
    ensures FormatCertificatesData(Some(certs), showCreatedBy).Grouped? <==> !HasInheritedKey(certs)
    ensures var r := FormatCertificatesData(Some(certs), showCreatedBy);
      r.Grouped? ==>
      exists i ::
           && 0 <= i < |r.groups|
           && r.groups[i].bootcamp == UnknownBootcamp
           && Entry(certs[m]) in r.groups[i].certificates
  {
    var i := KeyPosition(certs, m);
    FormatGroupsAreReference(certs, showCreatedBy);
    WithKeyHas(certs, m);
    EntryIn(WithKey(certs, UnknownBootcamp), certs[m]);
  }

  /** Where a certificate's key sits among the distinct keys. */
  lemma KeyPosition(certs: seq<CertificateRow>, m: nat) returns (i: nat)
    requires m < |certs|
    ensures i < |DistinctInOrder(Keys(certs))| && DistinctInOrder(Keys(certs))[i] == GroupKey(certs[m])
  {
    DistinctInOrderProps(Keys(certs));
    assert Keys(certs)[m] == GroupKey(certs[m]);
    var ks := DistinctInOrder(Keys(certs));
    assert GroupKey(certs[m]) in Keys(certs);
    assert GroupKey(certs[m]) in ks;
    i :| 0 <= i < |ks| && ks[i] == GroupKey(certs[m]);
  }

  lemma EntryIn(cs: seq<CertificateRow>, c: CertificateRow)
    requires c in cs
    ensures Entry(c) in Entries(cs)
  {
    var j :| 0 <= j < |cs| && cs[j] == c;
    assert Entries(cs)[j] == Entry(c);
  }
}

=== FILE: cert_request.dfy ===
/**
 * The live certificate-generation request (`POST /certs`): the upload filter,
 * the ordered validation of the form, the folder-name normalisation, and the
 * record, URLs and page layout derived from a freshly drawn identifier. The
 * headless-browser render, the QR encoder, the file system and the database
 * insert are collaborators whose answers are parameters.
 */
module CertRequest {
  import opened Js
  import opened Records

  // ---------------------------------------------------------------------------
  // Configuration
  // ---------------------------------------------------------------------------

  /** `process.env.BASE_URL || http://localhost:${process.env.PORT || 3000}`. */
  function BaseUrl(envBaseUrl: Option<string>, envPort: Option<string>): string
  {
    OrElse(envBaseUrl, "http://localhost:" + OrElse(envPort, "3000"))
  }

  // ---------------------------------------------------------------------------
  // toSnakeCase
  // ---------------------------------------------------------------------------

  /** The class `[\s-]`. */
  predicate IsSeparator(c: char)
  {
    IsJsSpace(c) || c == '-'
  }

  /** The alphabet of a normalised folder name. */
  predicate IsSnakeChar(c: char)
  {
    IsLowerAscii(c) || IsDigit(c) || c == '_'
  }

  predicate AllSnake(s: string)
  {
    forall k :: 0 <= k < |s| ==> IsSnakeChar(s[k])
  }

  /** `.replace(/[^\w\s-]/g, '')`: keep word characters, white space and hyphens. */
  function StripPunctuation(s: string): (r: string)
    ensures forall k :: 0 <= k < |r| ==> (IsWordChar(r[k]) || IsSeparator(r[k])) && r[k] in s
    decreases |s|
  {
    if |s| == 0 then []
    else (if IsWordChar(s[0]) || IsSeparator(s[0]) then [s[0]] else []) + StripPunctuation(s[1..])
  }

  /**
   * `.replace(/[\s-]+/g, '_')` as the matcher scans left to right: `inRun`
   * records that the previous character already belonged to a separator run.
   */
  function CollapseScan(s: string, inRun: bool): (r: string)
    ensures forall k :: 0 <= k < |r| ==> r[k] == '_' || (r[k] in s && !IsSeparator(r[k]))
    decreases |s|
  {
    if |s| == 0 then []
    else if IsSeparator(s[0]) then (if inRun then [] else "_") + CollapseScan(s[1..], true)
    else [s[0]] + CollapseScan(s[1..], false)
  }

  /**
   * The source's `toSnakeCase`: lower-case, trim, strip punctuation, collapse
   * separator runs. A normalised folder name uses only `[a-z0-9_]`.
   */
  function SnakeCase(s: string): (r: string)
    ensures AllSnake(r)
  {
    StagesAlphabet(s);
    CollapseScan(StripPunctuation(Trim(LowerAscii(s))), false)
  }

  // Reference for the collapse step: each maximal separator run is one underscore.

  function DropRun(s: string): (r: string)
    ensures |r| <= |s|
    ensures |s| > 0 && IsSeparator(s[0]) ==> |r| < |s|
    ensures |r| > 0 ==> !IsSeparator(r[0])
    decreases |s|
  {
    if |s| > 0 && IsSeparator(s[0]) then DropRun(s[1..]) else s
  }

  function CollapseRuns(s: string): string
    decreases |s|
  {
    if |s| == 0 then []
    else if IsSeparator(s[0]) then "_" + CollapseRuns(DropRun(s))
    else [s[0]] + CollapseRuns(s[1..])
  }

  lemma {:induction false} CollapseScanInRun(s: string)
    ensures CollapseScan(s, true) == CollapseScan(DropRun(s), false)
    decreases |s|
  {
    if |s| > 0 && IsSeparator(s[0]) {
      CollapseScanInRun(s[1..]);
    }
  }

  /** The matcher's scan replaces every maximal run of white space and hyphens by exactly one `_`. */
  lemma {:induction false} CollapseScanIsRuns(s: string)
    ensures CollapseScan(s, false) == CollapseRuns(s)
    decreases |s|
  {
    if |s| > 0 {
      if IsSeparator(s[0]) {
        CollapseScanInRun(s[1..]);
        assert DropRun(s) == DropRun(s[1..]);
        CollapseScanIsRuns(DropRun(s));
      } else {
        CollapseScanIsRuns(s[1..]);
      }
    }
  }

  /** The four normalisation stages leave only `[a-z0-9_]`. */
  lemma StagesAlphabet(s: string)
    ensures AllSnake(CollapseScan(StripPunctuation(Trim(LowerAscii(s))), false))
  {
    var lower := LowerAscii(s);
    assert forall c :: c in lower ==> !IsUpperAscii(c);
    TrimIsSlice(lower);
    var t := Trim(lower);
    assert forall c :: c in t ==> !IsUpperAscii(c);
    var p := StripPunctuation(t);
    assert forall c :: c in p ==> !IsUpperAscii(c) && (IsWordChar(c) || IsSeparator(c));
    var r := CollapseScan(p, false);
    forall k | 0 <= k < |r|
      ensures IsSnakeChar(r[k])
    {
      if r[k] != '_' {
        assert r[k] in p;
      }
    }
  }

  lemma {:induction false} CollapseKeepsPlain(s: string)
    requires AllSnake(s)
    ensures CollapseScan(s, false) == s
    decreases |s|
  {
    if |s| > 0 {
      CollapseKeepsPlain(s[1..]);
      assert [s[0]] + s[1..] == s;
    }
  }

  /** A name already in `[a-z0-9_]` is its own normal form. */
  lemma SnakeCaseFixesSnake(s: string)
    requires AllSnake(s)
    ensures SnakeCase(s) == s
  {
    assert LowerAscii(s) == s;
    TrimStartNoSpace(s);
    TrimEndNoSpace(s);
    StripPunctuationKeepsWordAndSeparators(s);
    CollapseKeepsPlain(s);
  }

  /** Normalising twice is normalising once. */
  lemma SnakeCaseIdempotent(s: string)
    ensures SnakeCase(SnakeCase(s)) == SnakeCase(s)
  {
    SnakeCaseFixesSnake(SnakeCase(s));
  }

  /**
   * Trimming runs before punctuation is removed, so white space uncovered by
   * the removal survives as a trailing underscore.
   */
  lemma SnakeCaseKeepsUncoveredSpace()
    ensures SnakeCase("a !") == "a_"
  {
    var s := "a !";
    assert LowerAscii(s) == s;
    assert TrimStart(s) == s;
    assert TrimEnd(s) == s;
    assert s[1..][1..] == "!" && "!"[1..] == [];
    assert StripPunctuation("!") == "";
    assert StripPunctuation(s[1..]) == " ";
    assert StripPunctuation(s) == "a ";
    assert "a "[1..] == " " && " "[1..] == [];
    assert CollapseScan(" ", false) == "_";
  }

  /** A name made only of punctuation normalises to the empty folder name. */
  lemma SnakeCaseAllPunctuation()
    ensures SnakeCase("!?") == ""
  {
    var s := "!?";
    assert LowerAscii(s) == s;
    assert TrimStart(s) == s;
    assert TrimEnd(s) == s;
    assert s[1..] == "?" && "?"[1..] == [];
    assert StripPunctuation("?") == "";
  }

  /** Upper case is lowered and a run of white space and hyphens becomes one underscore. */
  lemma SnakeCaseCollapsesRun()
    ensures SnakeCase("A -B") == "a_b"
  {
    LowerExample();
    TrimExample();
    StripPunctuationKeepsWordAndSeparators("a -b");
    CollapseExample();
  }

  lemma LowerExample()
    ensures LowerAscii("A -B") == "a -b"
  {
  }

  lemma TrimExample()
    ensures Trim("a -b") == "a -b"
  {
    assert !IsJsSpace("a -b"[0]) && !IsJsSpace("a -b"[3]);
  }

  lemma CollapseExample()
    ensures CollapseScan("a -b", false) == "a_b"
  {
    CollapseTail();
    assert "a -b"[1..] == " -b";
    assert CollapseScan("a -b", false) == ['a'] + CollapseScan(" -b", false);
  }

  lemma CollapseTail()
    ensures CollapseScan(" -b", false) == "_b"
  {
    CollapseLast();
    assert " -b"[1..] == "-b" && "-b"[1..] == "b";
    assert CollapseScan("-b", true) == "b";
  }

  lemma CollapseLast()
    ensures CollapseScan("b", true) == "b"
  {
    assert "b"[1..] == [];
  }

  lemma {:induction false} StripPunctuationKeepsWordAndSeparators(s: string)
    requires forall k :: 0 <= k < |s| ==> IsWordChar(s[k]) || IsSeparator(s[k])
    ensures StripPunctuation(s) == s
    decreases |s|
  {
    if |s| > 0 {
      StripPunctuationKeepsWordAndSeparators(s[1..]);
      assert [s[0]] + s[1..] == s;
    }
  }

  // ---------------------------------------------------------------------------
  // Upload filter
  // ---------------------------------------------------------------------------

  function DropTrailingSlashes(s: string): (r: string)
    ensures |r| <= |s| && r == s[..|r|]
    ensures |r| > 0 ==> r[|r| - 1] != '/'
    decreases |s|
  {
    if |s| > 0 && s[|s| - 1] == '/' then DropTrailingSlashes(s[..|s| - 1]) else s
  }

  function LastIndexOfChar(s: string, c: char): (r: Option<nat>)
    ensures r.Some? ==> r.value < |s| && s[r.value] == c && forall k :: r.value < k < |s| ==> s[k] != c
    ensures r.None? ==> forall k :: 0 <= k < |s| ==> s[k] != c
    decreases |s|
  {
    if |s| == 0 then None
    else if s[|s| - 1] == c then Some(|s| - 1)
    else LastIndexOfChar(s[..|s| - 1], c)
  }

  /** The last path component, ignoring trailing slashes; a name without a slash is its own. */
  function BaseName(s: string): (r: string)
    ensures forall k :: 0 <= k < |r| ==> r[k] != '/'
    ensures (forall k :: 0 <= k < |s| ==> s[k] != '/') ==> r == s
  {
    var t := DropTrailingSlashes(s);
    match LastIndexOfChar(t, '/')
    case None => t
    case Some(k) => t[k + 1..]
  }

  /**
   * Node's POSIX `path.extname`: from the last dot of the last component, empty
   * when there is no dot, when the component starts with its only relevant dot
   * (".png"), or when the component is "..". The extension is a suffix of the
   * last component, present exactly when that component has a dot after its
   * first character and is not "..".
   */
  function ExtName(name: string): (r: string)
    ensures |r| <= |BaseName(name)| && r == BaseName(name)[|BaseName(name)| - |r|..]
    ensures r != "" <==> BaseName(name) != ".." && exists k :: 1 <= k < |BaseName(name)| && BaseName(name)[k] == '.'
    ensures r == "" || (r[0] == '.' && forall k :: 1 <= k < |r| ==> r[k] != '.' && r[k] != '/')
  {
    var b := BaseName(name);
    match LastIndexOfChar(b, '.')
    case None => ""
    case Some(k) => if k == 0 || b == ".." then "" else b[k..]
  }

  /** `/jpeg|jpg|png|pdf/.test(s)`: unanchored, case-sensitive. */
  predicate MentionsAllowedType(s: string)
  {
    Contains(s, "jpeg") || Contains(s, "jpg") || Contains(s, "png") || Contains(s, "pdf")
  }

  const MaxUploadBytes: nat := 10 * 1024 * 1024
  const FilterMessage := "Only images (PNG, JPG) and PDF files are allowed!"

  datatype UploadVerdict = Stored | Refused(message: string)

  /** multer's `fileFilter`: both the lower-cased extension and the raw mimetype must mention an allowed type. */
  predicate PassesFilter(originalName: string, mimetype: string)
  {
    MentionsAllowedType(LowerAscii(ExtName(originalName))) && MentionsAllowedType(mimetype)
  }

  /** The upload middleware: the filter decides first, then the 10 MB size limit. */
  function UploadStage(originalName: string, mimetype: string, sizeBytes: nat): (r: UploadVerdict)
    ensures r.Stored? <==> PassesFilter(originalName, mimetype) && sizeBytes <= MaxUploadBytes
    ensures !PassesFilter(originalName, mimetype) ==> r == Refused(FilterMessage)
  {
    if !PassesFilter(originalName, mimetype) then Refused(FilterMessage)
    else if sizeBytes > MaxUploadBytes then Refused("File too large")
    else Stored
  }

  lemma ContainsWitness(s: string, p: string, i: nat)
    requires OccursAt(s, p, i)
    ensures Contains(s, p)
  {
  }

  lemma {:induction false} ContainsInSuffix(s: string, p: string)
    requires |s| > 0 && Contains(s, p) && |p| > 0 && s[0] != p[0]
    ensures Contains(s[1..], p)
  {
    var i :| 0 <= i <= |s| - |p| && OccursAt(s, p, i);
    assert s[i..i + |p|][0] == s[i];
    OccursInSuffix(s, p, 1, i - 1);
  }

  /**
   * Since every allowed type is at least three letters long, a file whose name
   * has no extension, or an extension of fewer than three letters, is refused
   * whatever its mimetype.
   */
  lemma ShortExtensionRefused(originalName: string, mimetype: string)
    requires |ExtName(originalName)| < 4
    ensures !PassesFilter(originalName, mimetype)
  {
    var e := ExtName(originalName);
    var l := LowerAscii(e);
    if MentionsAllowedType(l) {
      assert |e| > 0;
      assert l[0] == '.';
      var p :| p in ["jpeg", "jpg", "png", "pdf"] && Contains(l, p);
      ContainsInSuffix(l, p);
    }
  }

  /** An upper-case extension passes once lowered. */
  lemma FilterAcceptsUpperCaseExtension()
    ensures PassesFilter("Cert.PNG", "image/png")
  {
    var n := "Cert.PNG";
    assert BaseName(n) == n by {
      assert forall k :: 0 <= k < |n| ==> n[k] != '/';
    }
    assert n[4] == '.';
    var e := ExtName(n);
    assert n[|n| - |e|] == '.';
    assert e == n[4..] == ".PNG";
    assert LowerAscii(".PNG") == ".png";
    assert OccursAt(".png", "png", 1);
    assert OccursAt("image/png", "png", 6);
  }

  /** The mimetype is checked as well as the extension. */
  lemma FilterChecksMimetype()
    ensures !PassesFilter("cert.png", "text/html")
  {
    var m := "text/html";
    NoCharNoOccurrence(m, "jpeg", 'j');
    NoCharNoOccurrence(m, "jpg", 'j');
    NoCharNoOccurrence(m, "png", 'p');
    NoCharNoOccurrence(m, "pdf", 'p');
  }

  /** A dot-file name has no extension, so it is refused. */
  lemma FilterRefusesDotFile()
    ensures !PassesFilter(".png", "image/png")
  {
    var n := ".png";
    assert BaseName(n) == n by {
      assert forall k :: 0 <= k < |n| ==> n[k] != '/';
    }
    assert ExtName(n) == "" by {
      assert forall k :: 1 <= k < |n| ==> n[k] != '.';
    }
    ShortExtensionRefused(n, "image/png");
  }

  // ---------------------------------------------------------------------------
  // Validation
  // ---------------------------------------------------------------------------

  datatype Format = Portrait | Landscape
  datatype CertType = Completion | Participation

  function FormatName(f: Format): string
  {
    match f
    case Portrait => "portrait"
    case Landscape => "landscape"
  }

  function CertTypeName(t: CertType): string
  {
    match t
    case Completion => "completion"
    case Participation => "participation"
  }

  /** `['portrait', 'landscape'].includes(format)`. */
  function ParseFormat(s: string): Option<Format>
  {
    if s == "portrait" then Some(Portrait)
    else if s == "landscape" then Some(Landscape)
    else None
  }

  /** `['completion', 'participation'].includes(type)`. */
  function ParseCertType(s: string): Option<CertType>
  {
    if s == "completion" then Some(Completion)
    else if s == "participation" then Some(Participation)
    else None
  }

  /** Parsing accepts exactly the names of the enumerations, and inverts them. */
  lemma ParseRoundTrip(s: string, f: Format, t: CertType)
    ensures ParseFormat(FormatName(f)) == Some(f)
    ensures ParseFormat(s) == Some(f) <==> s == FormatName(f)
    ensures ParseCertType(CertTypeName(t)) == Some(t)
    ensures ParseCertType(s) == Some(t) <==> s == CertTypeName(t)
  {
  }

  datatype Upload = Upload(originalName: string, mimetype: string)

  /** The multipart fields `bootcamp`, `format`, `type`, `studentName`; `None` when absent. */
  datatype Form = Form(bootcamp: Option<string>, format: Option<string>, certType: Option<string>, studentName: Option<string>)

  datatype Request = Request(file: Option<Upload>, form: Form)

  datatype ValidRequest = ValidRequest(file: Upload, bootcamp: string, format: Format, certType: CertType, studentName: string)

  datatype Validation = Valid(req: ValidRequest) | Invalid(message: string)

  const FileRequired := "Certificate file is required"
  const FieldsRequired := "Bootcamp name, student name, format, and type are required"
  const FormatInvalid := "Format must be portrait or landscape"
  const TypeInvalid := "Type must be completion or participation"

  predicate AllFieldsPresent(f: Form)
  {
    Present(f.bootcamp) && Present(f.format) && Present(f.certType) && Present(f.studentName)
  }

  /** The four checks in source order; the first that fails names the 400 error. */
  function Validate(r: Request): (v: Validation)
    ensures v.Valid? <==>
      && r.file.Some?
      && AllFieldsPresent(r.form)
      && ParseFormat(r.form.format.value).Some?
      && ParseCertType(r.form.certType.value).Some?
    ensures v.Valid? ==>
      && v.req.file == r.file.value
      && Some(v.req.bootcamp) == r.form.bootcamp
      && Some(FormatName(v.req.format)) == r.form.format
      && Some(CertTypeName(v.req.certType)) == r.form.certType
      && Some(v.req.studentName) == r.form.studentName
    ensures r.file.None? ==> v == Invalid(FileRequired)
    ensures r.file.Some? && !AllFieldsPresent(r.form) ==> v == Invalid(FieldsRequired)
    ensures r.file.Some? && AllFieldsPresent(r.form) && ParseFormat(r.form.format.value).None? ==> v == Invalid(FormatInvalid)
    ensures (r.file.Some? && AllFieldsPresent(r.form) && ParseFormat(r.form.format.value).Some?
             && ParseCertType(r.form.certType.value).None?) ==> v == Invalid(TypeInvalid)
  {
    if r.file.None? then Invalid(FileRequired)
    else if !AllFieldsPresent(r.form) then Invalid(FieldsRequired)
    else match ParseFormat(r.form.format.value)
      case None => Invalid(FormatInvalid)
      case Some(f) =>
        match ParseCertType(r.form.certType.value)
        case None => Invalid(TypeInvalid)
        case Some(t) =>
          Valid(ValidRequest(r.file.value, r.form.bootcamp.value, f, t, r.form.studentName.value))
  }

  // ---------------------------------------------------------------------------
  // Identifier, paths and record
  // ---------------------------------------------------------------------------

  predicate IsHexLower(c: char)
  {
    IsDigit(c) || ('a' <= c <= 'f')
  }

  /** The text shape of a version-4 UUID as `uuidv4()` prints it. */
  predicate IsUuid(uid: string)
  {
    && |uid| == 36
    && (forall k :: 0 <= k < 36 ==> (k in {8, 13, 18, 23} <==> uid[k] == '-'))
    && (forall k :: 0 <= k < 36 && k !in {8, 13, 18, 23} ==> IsHexLower(uid[k]))
    && uid[14] == '4'
    && uid[19] in "89ab"
  }

  function VerifyPath(uid: string): string
  {
    "/verify/" + uid
  }

  /** `type === 'completion' ? 'completed' : 'participated'`. */
  function TypeFolder(t: CertType): string
  {
    if t == Completion then "completed" else "participated"
  }

  /**
   * Node's `path.join` over segments that hold no `/` and are not `.` or `..`:
   * empty segments vanish, the rest are joined with `/`.
   */
  function JoinSegments(segs: seq<string>): string
    decreases |segs|
  {
    if |segs| == 0 then ""
    else if segs[0] == "" then JoinSegments(segs[1..])
    else
      var rest := JoinSegments(segs[1..]);
      if rest == "" then segs[0] else segs[0] + "/" + rest
  }

  /** `.replace(/\\/g, '/')`. */
  function BackslashesToSlashes(s: string): (r: string)
    ensures |r| == |s|
    ensures forall k :: 0 <= k < |s| ==> r[k] == if s[k] == '\\' then '/' else s[k]
  {
    seq(|s|, k requires 0 <= k < |s| => if s[k] == '\\' then '/' else s[k])
  }

  /** Where the PDF is written below the certificates directory, and served below `/certs/`. */
  function RelativeFilePath(req: ValidRequest, uid: string): string
  {
    BackslashesToSlashes(JoinSegments([SnakeCase(req.bootcamp), TypeFolder(req.certType), uid + ".pdf"]))
  }

  function FileUrl(req: ValidRequest, uid: string): string
  {
    "/certs/" + RelativeFilePath(req, uid)
  }

  /** `req.user?.id || null`. */
  function OwnerId(authUserId: Option<string>): Option<string>
  {
    if Present(authUserId) then authUserId else None
  }

  /** The row handed to the database insert. */
  function BuildRecord(req: ValidRequest, uid: string, authUserId: Option<string>): CertificateRow
  {
    CertificateRow(
      uid := uid,
      userId := OwnerId(authUserId),
      bootcamp := Some(req.bootcamp),
      format := Some(FormatName(req.format)),
      certType := Some(CertTypeName(req.certType)),
      studentName := Some(req.studentName),
      description := None,
      originalFilename := Some(req.file.originalName),
      fileUrl := Some(FileUrl(req, uid)),
      verifyUrl := Some(VerifyPath(uid)),
      createdAt := None,
      creator := None)
  }

  lemma BackslashFree(s: string)
    requires forall k :: 0 <= k < |s| ==> s[k] != '\\'
    ensures BackslashesToSlashes(s) == s
  {
  }

  /** Joining three segments drops the first one when it is empty. */
  lemma JoinThree(a: string, b: string, c: string)
    requires b != "" && c != ""
    ensures JoinSegments([a, b, c]) == (if a == "" then "" else a + "/") + b + "/" + c
  {
    assert JoinSegments([c]) == c by {
      assert [c][1..] == [];
    }
    assert JoinSegments([b, c]) == b + "/" + c by {
      assert [b, c][1..] == [c];
    }
    assert [a, b, c][1..] == [b, c];
  }

  predicate NoBackslash(s: string)
  {
    forall k :: 0 <= k < |s| ==> s[k] != '\\'
  }

  lemma NoBackslashConcat(a: string, b: string)
    requires NoBackslash(a) && NoBackslash(b)
    ensures NoBackslash(a + b)
  {
    forall k | 0 <= k < |a + b|
      ensures (a + b)[k] != '\\'
    {
      if k >= |a| {
        assert (a + b)[k] == b[k - |a|];
      }
    }
  }

  lemma UuidFileNoBackslash(uid: string)
    requires IsUuid(uid)
    ensures NoBackslash(uid + ".pdf")
  {
    assert NoBackslash(uid);
    NoBackslashConcat(uid, ".pdf");
  }

  /**
   * The stored file's URL: `/certs/`, the normalised bootcamp folder (left out
   * entirely when it normalises to the empty name), the type folder, and
   * `<uid>.pdf`.
   */
  lemma FileUrlShape(req: ValidRequest, uid: string)
    requires IsUuid(uid)
    ensures var folder := SnakeCase(req.bootcamp);
      FileUrl(req, uid) ==
        "/certs/" + ((if folder == "" then "" else folder + "/") + TypeFolder(req.certType) + "/" + uid + ".pdf")
    ensures TypeFolder(req.certType) == "completed" <==> req.certType == Completion
  {
    var folder := SnakeCase(req.bootcamp);
    assert NoBackslash(folder);
    RelativePathShape(folder, TypeFolder(req.certType), uid);
  }

  /** The joined path needs no backslash rewriting when no segment holds one. */
  lemma RelativePathShape(folder: string, tf: string, uid: string)
    requires NoBackslash(folder) && tf in {"completed", "participated"} && IsUuid(uid)
    ensures BackslashesToSlashes(JoinSegments([folder, tf, uid + ".pdf"]))
      == (if folder == "" then "" else folder + "/") + tf + "/" + uid + ".pdf"
  {
    var file := uid + ".pdf";
    UuidFileNoBackslash(uid);
    JoinThree(folder, tf, file);
    var pre := if folder == "" then "" else folder + "/";
    PathNoBackslash(folder, pre, tf, file);
    BackslashFree(pre + tf + "/" + file);
    ConcatAssoc(pre + tf + "/", uid, ".pdf");
  }

  lemma PathNoBackslash(folder: string, pre: string, tf: string, file: string)
    requires NoBackslash(folder) && pre == (if folder == "" then "" else folder + "/")
    requires tf in {"completed", "participated"} && NoBackslash(file)
    ensures NoBackslash(pre + tf + "/" + file)
  {
    NoBackslashConcat(folder, "/");
    NoBackslashConcat(pre, tf);
    NoBackslashConcat(pre + tf, "/");
    NoBackslashConcat(pre + tf + "/", file);
  }

  // ---------------------------------------------------------------------------
  // Page layout of the live render path
  // ---------------------------------------------------------------------------

  /** Page size and QR overlay offsets, in CSS pixels. */
  datatype PageLayout = PageLayout(widthPx: nat, heightPx: nat, qrBottomPx: nat, qrRightPx: nat)

  function LayoutFor(f: Format): PageLayout
  {
    match f
    case Portrait => PageLayout(794, 1123, 60, 50)
    case Landscape => PageLayout(1123, 794, 60, 80)
  }

  /** The QR box edge and the caption font size of the rendered overlay. */
  const QrBoxPx: nat := 96
  const CaptionFontPx: nat := 8

  /**
   * Orientation swaps the page edges and keeps the bottom offset, while the
   * landscape right offset is strictly larger than the portrait one.
   */
  lemma LayoutOrientation()
    ensures LayoutFor(Landscape).widthPx == LayoutFor(Portrait).heightPx
    ensures LayoutFor(Landscape).heightPx == LayoutFor(Portrait).widthPx
    ensures LayoutFor(Portrait).widthPx < LayoutFor(Portrait).heightPx
    ensures LayoutFor(Landscape).qrBottomPx == LayoutFor(Portrait).qrBottomPx == 60
    ensures LayoutFor(Landscape).qrRightPx > LayoutFor(Portrait).qrRightPx
  {
  }

  // ---------------------------------------------------------------------------
  // The request handler
  // ---------------------------------------------------------------------------

  /** What is handed to the headless browser: page geometry, QR payload, caption, output path. */
  datatype RenderJob = RenderJob(
    layout: PageLayout,
    format: Format,
    qrPayload: string,
    caption: string,
    pdfBackground: bool,
    outputPath: string)

  /**
   * Where a step of the pipeline threw: while preparing (QR encoding, folder
   * creation, reading the upload), before any browser is launched, or from
   * the browser launch on (page set-up, PDF output, clean-up of the upload).
   */
  datatype Stage = Preparing | Rendering

  /** The outcome of QR encoding, directory creation, file read, render and clean-up together. */
  datatype PipelineResult = Rendered | PipelineFailed(stage: Stage, message: string)

  /** The outcome of the database insert. */
  datatype SaveResult = Saved | SaveFailed

  datatype Response =
    | BadRequest(error: string)
    | ServerError(error: string)
    | CreatedJson(record: CertificateRow, absolutePdf: string, absoluteVerify: string)
    | CreatedPage(record: CertificateRow, storedIn: string)

  /**
   * Side effects: the job handed to the headless browser (its launch was
   * attempted), the row inserted, the temporary upload removed.
   */
  datatype Effects = Effects(render: Option<RenderJob>, inserted: Option<CertificateRow>, uploadRemoved: bool)

  datatype Outcome = Outcome(response: Response, effects: Effects)

  function RenderJobFor(req: ValidRequest, uid: string, baseUrl: string): RenderJob
  {
    RenderJob(
      layout := LayoutFor(req.format),
      format := req.format,
      qrPayload := baseUrl + VerifyPath(uid),
      caption := uid,
      pdfBackground := req.file.mimetype == "application/pdf",
      outputPath := RelativeFilePath(req, uid))
  }

  /**
   * `generateCertificate` as written. `uid` is the value `uuidv4()` would
   * return at the point the source draws it; nothing before that point reads it.
   * A failure while preparing answers 500 before the browser is launched, so
   * no render job exists then. `wantsJson` stands for the request's
   * `Content-Type` containing `application/json`; the route accepts only the
   * multipart upload form, whose content type never does, so the JSON answer
   * is practically unreachable.
   */
  function Generate(r: Request, uid: string, baseUrl: string, authUserId: Option<string>,
                    pipeline: PipelineResult, save: SaveResult, wantsJson: bool): (o: Outcome)
    requires IsUuid(uid)
    ensures o.response.BadRequest? <==> Validate(r).Invalid?
    ensures Validate(r).Invalid? ==> o.effects == Effects(None, None, false)
    ensures Validate(r).Valid? ==> o.effects.uploadRemoved
    ensures o.effects.render.Some? <==> Validate(r).Valid? && !(pipeline.PipelineFailed? && pipeline.stage.Preparing?)
    ensures o.effects.render.Some? ==>
      && o.effects.render.value.qrPayload == baseUrl + "/verify/" + uid
      && o.effects.render.value.format == Validate(r).req.format
    ensures o.response.ServerError? <==> Validate(r).Valid? && pipeline.PipelineFailed?
    ensures o.response.CreatedJson? <==> Validate(r).Valid? && pipeline == Rendered && wantsJson
    ensures o.effects.inserted.Some? <==> Validate(r).Valid? && pipeline == Rendered && save == Saved
    ensures o.effects.inserted.Some? ==>
      o.effects.inserted.value.uid == uid && o.effects.inserted.value.verifyUrl == Some("/verify/" + uid)
  {
    match Validate(r)
    case Invalid(msg) => Outcome(BadRequest(msg), Effects(None, None, false))
    case Valid(req) =>
      var job := RenderJobFor(req, uid, baseUrl);
      match pipeline
      case PipelineFailed(stage, msg) =>
        var started := if stage.Rendering? then Some(job) else None;
        Outcome(ServerError("Failed to generate certificate: " + msg), Effects(started, None, true))
      case Rendered =>
        var record := BuildRecord(req, uid, authUserId);
        var inserted := if save == Saved then Some(record) else None;
        var response :=
          if wantsJson then CreatedJson(record, baseUrl + record.fileUrl.value, baseUrl + record.verifyUrl.value)
          else CreatedPage(record, SnakeCase(req.bootcamp) + "/" + TypeFolder(req.certType) + "/");
        Outcome(response, Effects(Some(job), inserted, true))
  }

  /**
   * A rejected request is answered before the identifier is drawn: its outcome
   * is the same whatever identifier, base URL, user, pipeline or database would
   * have done.
   */
  lemma RejectionIgnoresIdentifier(r: Request, uid1: string, uid2: string, base1: string, base2: string,
                                    user1: Option<string>, user2: Option<string>, p1: PipelineResult, p2: PipelineResult,
                                    s1: SaveResult, s2: SaveResult, json1: bool, json2: bool)
    requires IsUuid(uid1) && IsUuid(uid2)
    requires Validate(r).Invalid?
    ensures Generate(r, uid1, base1, user1, p1, s1, json1) == Generate(r, uid2, base2, user2, p2, s2, json2)
    ensures Generate(r, uid1, base1, user1, p1, s1, json1).response == BadRequest(Validate(r).message)
    ensures Generate(r, uid1, base1, user1, p1, s1, json1).effects.render.None?
  {
  }

  /**
   * On success the QR payload is the absolute verification link returned to
   * the client, which is the base URL followed by the record's `verify_url`;
   * the absolute PDF link is the base URL followed by the record's `file_url`.
   */
  lemma QrMatchesVerifyLink(r: Request, uid: string, baseUrl: string, authUserId: Option<string>, save: SaveResult)
    requires IsUuid(uid) && Validate(r).Valid?
    ensures var o := Generate(r, uid, baseUrl, authUserId, Rendered, save, true);
      && o.response.CreatedJson?
      && o.effects.render.Some?
      && o.effects.render.value.qrPayload == o.response.absoluteVerify
      && o.response.absoluteVerify == baseUrl + "/verify/" + uid
      && o.response.record.verifyUrl == Some("/verify/" + uid)
      && o.response.absolutePdf == baseUrl + o.response.record.fileUrl.value
      && o.effects.render.value.caption == o.response.record.uid == uid
  {
  }

  /** The response does not depend on whether the database insert succeeded. */
  lemma SaveFailureInvisible(r: Request, uid: string, baseUrl: string, authUserId: Option<string>,
                             pipeline: PipelineResult, wantsJson: bool)
    requires IsUuid(uid)
    ensures Generate(r, uid, baseUrl, authUserId, pipeline, Saved, wantsJson).response
         == Generate(r, uid, baseUrl, authUserId, pipeline, SaveFailed, wantsJson).response
    ensures Generate(r, uid, baseUrl, authUserId, pipeline, SaveFailed, wantsJson).effects.inserted.None?
  {
  }

  /**
   * The stored row mirrors the validated form; its owner is null when no
   * authenticated user is present (which is always the case on the route that
   * mounts this handler without an authentication middleware).
   */
  lemma RecordMirrorsForm(r: Request, uid: string, baseUrl: string, authUserId: Option<string>, wantsJson: bool)
    requires IsUuid(uid) && Validate(r).Valid?
    ensures var o := Generate(r, uid, baseUrl, authUserId, Rendered, Saved, wantsJson);
      && o.effects.inserted.Some?
      && var row := o.effects.inserted.value;
      && row.uid == uid
      && row.bootcamp == r.form.bootcamp
      && row.format == r.form.format
      && row.certType == r.form.certType
      && row.studentName == r.form.studentName
      && row.originalFilename == Some(r.file.value.originalName)
      && (authUserId.None? ==> row.userId.None?)
      && (Present(authUserId) ==> row.userId == authUserId)
  {
  }

  // ---------------------------------------------------------------------------
  // Temporary upload clean-up
  // ---------------------------------------------------------------------------

  /**
   * As written, a request whose file was stored by the upload middleware but
   * whose fields fail validation returns 400 without removing the temporary
   * upload.
   */
  lemma RejectedUploadLeftBehind(uid: string)
    requires IsUuid(uid)
    ensures var r := Request(Some(Upload("cert.png", "image/png")), Form(None, None, None, None));
      && r.file.Some?
      && Generate(r, uid, "", None, Rendered, Saved, true).response == BadRequest(FieldsRequired)
      && !Generate(r, uid, "", None, Rendered, Saved, true).effects.uploadRemoved
  {
  }

  /** The handler with the clean-up the success and failure paths already perform applied to every path. */
  function GenerateWithCleanup(r: Request, uid: string, baseUrl: string, authUserId: Option<string>,
                               pipeline: PipelineResult, save: SaveResult, wantsJson: bool): (o: Outcome)
    requires IsUuid(uid)
    ensures o.effects.uploadRemoved <==> r.file.Some?
    ensures o.response == Generate(r, uid, baseUrl, authUserId, pipeline, save, wantsJson).response
  {
    var o := Generate(r, uid, baseUrl, authUserId, pipeline, save, wantsJson);
    o.(effects := o.effects.(uploadRemoved := r.file.Some?))
  }
}

=== FILE: js.dfy ===
/**
 * JavaScript string and value idioms the application relies on, stated once:
 * `x || d` on optional strings, substring search (`includes`, `indexOf`),
 * literal `replace` (first occurrence and global), ASCII case mapping,
 * `trim` over the ECMAScript white-space set, `split` on one character and
 * decimal rendering of integers.
 */
module Js {

  /** JavaScript `null`/`undefined` versus a present value. */
  datatype Option<+T> = None | Some(value: T)

  /** A value or the reason it could not be produced. */
  datatype Result<+T, +E> = Ok(value: T) | Err(error: E)

  // ---------------------------------------------------------------------------
  // Falsiness of optional strings
  // ---------------------------------------------------------------------------

  /** A string-valued JS expression is truthy when it is present and non-empty. */
  predicate Present(o: Option<string>)
  {
    o.Some? && o.value != ""
  }

  /** JS `o || d` for a string-or-null operand. */
  function OrElse(o: Option<string>, d: string): string
  {
    if Present(o) then o.value else d
  }

  // ---------------------------------------------------------------------------
  // Inherited object members
  // ---------------------------------------------------------------------------

  /**
   * The properties every ordinary object inherits from `Object.prototype`.
   * Reading one of these names from a value without an own property of that
   * name gives a truthy value (a native function, or the prototype object
   * itself for `__proto__`), never `undefined`.
   */
  const ObjectPrototypeNames: set<string> := {
    "constructor", "__proto__", "hasOwnProperty", "isPrototypeOf", "propertyIsEnumerable",
    "toLocaleString", "toString", "valueOf",
    "__defineGetter__", "__defineSetter__", "__lookupGetter__", "__lookupSetter__"}

  // ---------------------------------------------------------------------------
  // Substrings
  // ---------------------------------------------------------------------------

  predicate StartsWith(s: string, p: string)
  {
    |p| <= |s| && s[..|p|] == p
  }

  predicate OccursAt(s: string, p: string, i: int)
  {
    0 <= i && i + |p| <= |s| && s[i..i + |p|] == p
  }

  /** JS `s.includes(p)`: `p` occurs somewhere in `s`. */
  predicate Contains(s: string, p: string)
  {
    exists i :: 0 <= i <= |s| - |p| && OccursAt(s, p, i)
  }

  /** JS `s.indexOf(p, from)`: the leftmost occurrence at or after `from`. */
  function IndexOfFrom(s: string, p: string, from: nat): (r: Option<nat>)
    decreases |s| - from
    ensures r.Some? ==> from <= r.value && OccursAt(s, p, r.value)
    ensures r.Some? ==> forall j :: from <= j < r.value ==> !OccursAt(s, p, j)
    ensures r.None? ==> forall j :: from <= j ==> !OccursAt(s, p, j)
  {
    if from + |p| > |s| then None
    else if OccursAt(s, p, from) then Some(from)
    else IndexOfFrom(s, p, from + 1)
  }

  /** JS `s.indexOf(p)`. */
  function IndexOf(s: string, p: string): (r: Option<nat>)
    ensures r.Some? <==> Contains(s, p)
    ensures r.Some? ==> OccursAt(s, p, r.value) && forall j :: 0 <= j < r.value ==> !OccursAt(s, p, j)
  {
    IndexOfFrom(s, p, 0)
  }

  lemma ConcatAssoc<T>(a: seq<T>, b: seq<T>, c: seq<T>)
    ensures a + b + c == a + (b + c)
  {
  }

  lemma ConsSplit<T>(a: seq<T>, x: seq<T>)
    requires |a| > 0
    ensures a + x == [a[0]] + (a[1..] + x)
  {
  }

  lemma ConsJoin<T>(a: seq<T>, t: seq<T>)
    requires |a| > 0
    ensures [a[0]] + (a[1..] + t) == a + t
  {
    assert [a[0]] + a[1..] == a;
  }

  lemma StartsWithOccursAt(s: string, p: string)
    ensures StartsWith(s, p) <==> OccursAt(s, p, 0)
  {
  }

  lemma OccursInSuffix(s: string, p: string, k: nat, i: int)
    requires k <= |s|
    ensures OccursAt(s[k..], p, i) <==> (0 <= i && OccursAt(s, p, i + k))
  {
    if 0 <= i && i + |p| <= |s| - k {
      assert s[k..][i..i + |p|] == s[i + k..i + k + |p|];
    }
  }

  /** A string without `c` cannot contain a pattern that starts with `c`. */
  lemma NoCharNoOccurrence(s: string, p: string, c: char)
    requires |p| > 0 && p[0] == c
    requires forall k :: 0 <= k < |s| ==> s[k] != c
    ensures !Contains(s, p)
  {
    forall i | 0 <= i <= |s| - |p|
      ensures !OccursAt(s, p, i)
    {
      assert s[i..i + |p|][0] == s[i] != p[0];
    }
  }

  /** A pattern absent from `s` is absent from every suffix of it. */
  lemma NotContainsSuffix(s: string, p: string, k: nat)
    requires k <= |s| && !Contains(s, p)
    ensures !Contains(s[k..], p)
  {
    forall i | 0 <= i <= |s[k..]| - |p|
      ensures !OccursAt(s[k..], p, i)
    {
      OccursInSuffix(s, p, k, i);
    }
  }

  /** A pattern one of whose characters is absent from `s` does not occur in it. */
  lemma AbsentCharNoOccurrence(s: string, p: string, k: nat)
    requires k < |p|
    requires forall j :: 0 <= j < |s| ==> s[j] != p[k]
    ensures !Contains(s, p)
  {
    forall i | 0 <= i <= |s| - |p|
      ensures !OccursAt(s, p, i)
    {
      assert s[i..i + |p|][k] == s[i + k];
    }
  }

  /** Occurrences in a concatenation that lie wholly inside one of the parts. */
  lemma OccursInConcat(a: string, b: string, p: string, j: int)
    ensures j + |p| <= |a| ==> (OccursAt(a + b, p, j) <==> OccursAt(a, p, j))
    ensures 0 <= j ==> (OccursAt(a + b, p, |a| + j) <==> OccursAt(b, p, j))
  {
    if 0 <= j && j + |p| <= |a| {
      assert (a + b)[j..j + |p|] == a[j..j + |p|];
    }
    if 0 <= j && j + |p| <= |b| {
      assert (a + b)[|a| + j..|a| + j + |p|] == b[j..j + |p|];
    }
  }

  /** The leftmost occurrence in `a` stays the leftmost once text is appended. */
  lemma IndexOfAppend(a: string, b: string, p: string)
    requires IndexOf(a, p).Some?
    ensures IndexOf(a + b, p) == IndexOf(a, p)
  {
    var i := IndexOf(a, p).value;
    OccursInConcat(a, b, p, i);
    forall j | 0 <= j < i
      ensures !OccursAt(a + b, p, j)
    {
      OccursInConcat(a, b, p, j);
    }
    var r := IndexOf(a + b, p);
    assert r.Some?;
    assert !(r.value < i);
    assert !(r.value > i);
  }

  // ---------------------------------------------------------------------------
  // Literal replacement
  // ---------------------------------------------------------------------------

  /**
   * JS `s.replace(/p/g, v)` for a pattern that matches itself only: each
   * leftmost non-overlapping occurrence is replaced, and the scan resumes after
   * the replaced text in the ORIGINAL string (replacements are not rescanned).
   */
  function ReplaceAll(s: string, p: string, v: string): string
    requires |p| > 0
    decreases |s|
  {
    if |s| < |p| then s
    else if StartsWith(s, p) then v + ReplaceAll(s[|p|..], p, v)
    else [s[0]] + ReplaceAll(s[1..], p, v)
  }

  /** JS `s.replace(p, v)` with a string pattern: the first occurrence only. */
  function ReplaceFirst(s: string, p: string, v: string): (r: string)
    ensures !Contains(s, p) ==> r == s
    ensures Contains(s, p) ==> exists i ::
      && 0 <= i <= |s| - |p|
      && OccursAt(s, p, i)
      && (forall j :: 0 <= j < i ==> !OccursAt(s, p, j))
      && r == s[..i] + v + s[i + |p|..]
  {
    match IndexOf(s, p)
    case None => s
    case Some(i) => s[..i] + v + s[i + |p|..]
  }

  /** Non-overlapping leftmost occurrences, counted the way `ReplaceAll` finds them. */
  function Occurrences(s: string, p: string): nat
    requires |p| > 0
    decreases |s|
  {
    if |s| < |p| then 0
    else if StartsWith(s, p) then 1 + Occurrences(s[|p|..], p)
    else Occurrences(s[1..], p)
  }

  /** A text without the pattern passes through a global replace unchanged. */
  lemma {:induction false} ReplaceAllAbsent(s: string, p: string, v: string)
    requires |p| > 0 && !Contains(s, p)
    ensures ReplaceAll(s, p, v) == s
    decreases |s|
  {
    if |s| < |p| {
    } else {
      assert !OccursAt(s, p, 0);
      StartsWithOccursAt(s, p);
      forall i | 0 <= i <= |s[1..]| - |p|
        ensures !OccursAt(s[1..], p, i)
      {
        OccursInSuffix(s, p, 1, i);
        assert !OccursAt(s, p, i + 1);
      }
      ReplaceAllAbsent(s[1..], p, v);
      assert [s[0]] + s[1..] == s;
    }
  }

  /**
   * The global replace changes the length by exactly the size difference of
   * pattern and replacement, once per occurrence it finds.
   */
  lemma {:induction false} ReplaceAllLength(s: string, p: string, v: string)
    requires |p| > 0
    ensures |ReplaceAll(s, p, v)| == |s| + Occurrences(s, p) * (|v| - |p|)
    decreases |s|
  {
    if |s| < |p| {
    } else if StartsWith(s, p) {
      var rest := s[|p|..];
      ReplaceAllLength(rest, p, v);
      var o := Occurrences(rest, p);
      assert Occurrences(s, p) == o + 1;
      assert |ReplaceAll(s, p, v)| == |v| + |ReplaceAll(rest, p, v)|;
      assert |s| == |p| + |rest|;
      OneMoreOccurrence(|s|, |rest|, |p|, |v|, o);
    } else {
      ReplaceAllLength(s[1..], p, v);
    }
  }

  lemma OneMoreOccurrence(n: int, m: int, lp: int, lv: int, o: int)
    requires n == lp + m
    ensures lv + (m + o * (lv - lp)) == n + (o + 1) * (lv - lp)
  {
  }

  /** Replacing a pattern by itself is the identity. */
  lemma {:induction false} ReplaceAllSelf(s: string, p: string)
    requires |p| > 0
    ensures ReplaceAll(s, p, p) == s
    decreases |s|
  {
    if |s| < |p| {
    } else if StartsWith(s, p) {
      ReplaceAllSelf(s[|p|..], p);
      assert s[..|p|] + s[|p|..] == s;
    } else {
      ReplaceAllSelf(s[1..], p);
      assert [s[0]] + s[1..] == s;
    }
  }

  /**
   * Text free of the pattern's first character is copied verbatim in front of
   * whatever the replace does to the rest.
   */
  lemma {:induction false} ReplaceAllSkipsPlain(a: string, b: string, p: string, v: string)
    requires |p| > 0
    requires forall k :: 0 <= k < |a| ==> a[k] != p[0]
    ensures ReplaceAll(a + b, p, v) == a + ReplaceAll(b, p, v)
    decreases |a|
  {
    if |a| > 0 {
      ReplaceAllPlainFront(a, b, p, v);
      assert forall k :: 0 <= k < |a[1..]| ==> a[1..][k] == a[k + 1];
      ReplaceAllSkipsPlain(a[1..], b, p, v);
      ConsJoin(a, ReplaceAll(b, p, v));
    } else {
      assert a + b == b;
    }
  }

  lemma ReplaceAllPlainFront(a: string, b: string, p: string, v: string)
    requires |p| > 0 && |a| > 0 && a[0] != p[0]
    ensures ReplaceAll(a + b, p, v) == [a[0]] + ReplaceAll(a[1..] + b, p, v)
  {
    var s := a + b;
    ConsSplit(a, b);
    assert s[1..] == a[1..] + b;
    assert !StartsWith(s, p) by {
      if |p| <= |s| { assert s[..|p|][0] == s[0]; }
    }
    if |s| < |p| {
      ReplaceAllShort(s[1..], p, v);
    }
  }

  lemma ReplaceAllShort(s: string, p: string, v: string)
    requires |p| > 0 && |s| < |p|
    ensures ReplaceAll(s, p, v) == s
  {
  }

  /** An occurrence at the very front is replaced and the scan resumes after it. */
  lemma ReplaceAllFront(b: string, p: string, v: string)
    requires |p| > 0
    ensures ReplaceAll(p + b, p, v) == v + ReplaceAll(b, p, v)
  {
    var s := p + b;
    assert s[..|p|] == p;
    assert s[|p|..] == b;
  }

  // ---------------------------------------------------------------------------
  // Characters
  // ---------------------------------------------------------------------------

  predicate IsUpperAscii(c: char) { 'A' <= c <= 'Z' }
  predicate IsLowerAscii(c: char) { 'a' <= c <= 'z' }
  predicate IsDigit(c: char) { '0' <= c <= '9' }

  /** The regular-expression class `\w`. */
  predicate IsWordChar(c: char)
  {
    IsUpperAscii(c) || IsLowerAscii(c) || IsDigit(c) || c == '_'
  }

  /**
   * The ECMAScript WhiteSpace and LineTerminator code points: the set both
   * `String.prototype.trim` and the regular-expression class `\s` use.
   */
  predicate IsJsSpace(c: char)
  {
    || c == '\t' || c == '\n' || c == '\U{000B}' || c == '\U{000C}' || c == '\r' || c == ' '
    || c == '\U{00A0}' || c == '\U{1680}' || ('\U{2000}' <= c <= '\U{200A}')
    || c == '\U{2028}' || c == '\U{2029}' || c == '\U{202F}' || c == '\U{205F}'
    || c == '\U{3000}' || c == '\U{FEFF}'
  }

  function LowerChar(c: char): char
  {
    if IsUpperAscii(c) then (c as int + 32) as char else c
  }

  function UpperChar(c: char): char
  {
    if IsLowerAscii(c) then (c as int - 32) as char else c
  }

  /** JS `toLowerCase` restricted to the ASCII letters. */
  function LowerAscii(s: string): (r: string)
    ensures |r| == |s|
    ensures forall i :: 0 <= i < |s| ==> r[i] == LowerChar(s[i])
  {
    seq(|s|, i requires 0 <= i < |s| => LowerChar(s[i]))
  }

  /** JS `toUpperCase` restricted to the ASCII letters. */
  function UpperAscii(s: string): (r: string)
    ensures |r| == |s|
    ensures forall i :: 0 <= i < |s| ==> r[i] == UpperChar(s[i])
  {
    seq(|s|, i requires 0 <= i < |s| => UpperChar(s[i]))
  }

  // ---------------------------------------------------------------------------
  // trim
  // ---------------------------------------------------------------------------

  function TrimStart(s: string): string
    decreases |s|
  {
    if |s| > 0 && IsJsSpace(s[0]) then TrimStart(s[1..]) else s
  }

  function TrimEnd(s: string): string
    decreases |s|
  {
    if |s| > 0 && IsJsSpace(s[|s| - 1]) then TrimEnd(s[..|s| - 1]) else s
  }

  /** JS `trim`. */
  function Trim(s: string): string
  {
    TrimEnd(TrimStart(s))
  }

  lemma {:induction false} TrimStartNoSpace(s: string)
    requires forall k :: 0 <= k < |s| ==> !IsJsSpace(s[k])
    ensures TrimStart(s) == s
  {
  }

  lemma {:induction false} TrimEndNoSpace(s: string)
    requires forall k :: 0 <= k < |s| ==> !IsJsSpace(s[k])
    ensures TrimEnd(s) == s
  {
  }

  /** The trimmed text is a contiguous slice of the input. */
  lemma {:induction false} TrimIsSlice(s: string)
    ensures exists i, j :: 0 <= i <= j <= |s| && Trim(s) == s[i..j]
  {
    var i := TrimStartSlice(s);
    var t := s[i..];
    var j := TrimEndSlice(t);
    assert Trim(s) == t[..j] == s[i..i + j];
  }

  lemma {:induction false} TrimStartSlice(s: string) returns (i: nat)
    ensures i <= |s| && TrimStart(s) == s[i..]
    decreases |s|
  {
    if |s| > 0 && IsJsSpace(s[0]) {
      var k := TrimStartSlice(s[1..]);
      i := k + 1;
      assert s[1..][k..] == s[i..];
    } else {
      i := 0;
    }
  }

  lemma {:induction false} TrimEndSlice(s: string) returns (j: nat)
    ensures j <= |s| && TrimEnd(s) == s[..j]
    decreases |s|
  {
    if |s| > 0 && IsJsSpace(s[|s| - 1]) {
      j := TrimEndSlice(s[..|s| - 1]);
      assert s[..|s| - 1][..j] == s[..j];
    } else {
      j := |s|;
    }
  }

  // ---------------------------------------------------------------------------
  // split
  // ---------------------------------------------------------------------------

  /** JS `s.split(c)` for a one-character separator: always at least one piece. */
  function SplitOn(s: string, c: char): (r: seq<string>)
    ensures |r| > 0
    decreases |s|
  {
    if |s| == 0 then [""]
    else
      var rest := SplitOn(s[1..], c);
      if s[0] == c then [""] + rest
      else [[s[0]] + rest[0]] + rest[1..]
  }

  /** Gluing the pieces back with the separator recovers the input. */
  function JoinWith(parts: seq<string>, c: char): string
    requires |parts| > 0
  {
    if |parts| == 1 then parts[0] else parts[0] + [c] + JoinWith(parts[1..], c)
  }

  lemma {:induction false} SplitOnJoin(s: string, c: char)
    ensures JoinWith(SplitOn(s, c), c) == s
    decreases |s|
  {
    if |s| > 0 {
      SplitOnJoin(s[1..], c);
      var rest := SplitOn(s[1..], c);
      var parts := SplitOn(s, c);
      assert [s[0]] + s[1..] == s;
      if s[0] == c {
        assert parts == [""] + rest;
        assert parts[1..] == rest;
        assert JoinWith(parts, c) == "" + [c] + JoinWith(rest, c);
      } else if |rest| == 1 {
        assert JoinWith(parts, c) == [s[0]] + rest[0];
      } else {
        assert parts[0] == [s[0]] + rest[0];
        assert parts[1..] == rest[1..];
        assert JoinWith(rest, c) == rest[0] + [c] + JoinWith(rest[1..], c);
        ConcatAssoc([s[0]], rest[0], [c] + JoinWith(rest[1..], c));
        ConcatAssoc(rest[0], [c], JoinWith(rest[1..], c));
        ConcatAssoc([s[0]] + rest[0], [c], JoinWith(rest[1..], c));
      }
    }
  }

  /** No piece holds the separator. */
  lemma {:induction false} SplitOnPieces(s: string, c: char)
    ensures forall i, k :: 0 <= i < |SplitOn(s, c)| && 0 <= k < |SplitOn(s, c)[i]| ==> SplitOn(s, c)[i][k] != c
    decreases |s|
  {
    if |s| > 0 {
      SplitOnPieces(s[1..], c);
      var rest := SplitOn(s[1..], c);
      var parts := SplitOn(s, c);
      forall i, k | 0 <= i < |parts| && 0 <= k < |parts[i]|
        ensures parts[i][k] != c
      {
        if s[0] == c {
          assert parts[i] == ([""] + rest)[i];
        } else if i == 0 {
          if k > 0 { assert parts[0][k] == rest[0][k - 1]; }
        } else {
          assert parts[i] == rest[i];
        }
      }
    }
  }

  // ---------------------------------------------------------------------------
  // Numbers
  // ---------------------------------------------------------------------------

  function DigitChar(d: nat): char
    requires d < 10
  {
    ('0' as int + d) as char
  }

  /** Decimal digits of a natural number, most significant first, no leading zero. */
  function NatToDecimal(n: nat): (r: string)
    ensures |r| > 0
    ensures forall k :: 0 <= k < |r| ==> IsDigit(r[k])
    decreases n
  {
    if n < 10 then [DigitChar(n)] else NatToDecimal(n / 10) + [DigitChar(n % 10)]
  }

  function DecimalValue(s: string): nat
    requires forall k :: 0 <= k < |s| ==> IsDigit(s[k])
    decreases |s|
  {
    if |s| == 0 then 0
    else
      assert IsDigit(s[|s| - 1]);
      DecimalValue(s[..|s| - 1]) * 10 + (s[|s| - 1] as int - '0' as int)
  }

  /** Reading the digits back yields the number: the rendering is faithful. */
  lemma {:induction false} NatToDecimalRoundTrip(n: nat)
    ensures DecimalValue(NatToDecimal(n)) == n
    decreases n
  {
    if n >= 10 {
      NatToDecimalRoundTrip(n / 10);
      var r := NatToDecimal(n);
      assert r[..|r| - 1] == NatToDecimal(n / 10);
    }
  }

  /** JS `String(n)` for an integer. */
  function IntToDecimal(n: int): string
  {
    if n < 0 then "-" + NatToDecimal(-n) else NatToDecimal(n)
  }
}

=== FILE: pdf_layout.dfy ===
/**
 * The alternate PDF pipeline (`CertificateGenerator`): page sizing, fitting and
 * centring of an uploaded image, and the placement of the QR overlay, its white
 * plate and its caption on the first page, in PDF points with the origin at the
 * bottom-left corner. Image decoding, resizing, QR encoding and PDF parsing are
 * library calls whose outcomes are parameters; the arithmetic around them is
 * modelled exactly over `real`.
 */
module PdfLayout {
  import opened Js

  // ---------------------------------------------------------------------------
  // Geometry
  // ---------------------------------------------------------------------------

  /** A strictly positive length. */
  type Dim = r: real | r > 0.0 witness 1.0

  datatype Size = Size(width: real, height: real)

  datatype Rect = Rect(x: real, y: real, width: real, height: real)

  /** `inner` lies inside `outer` with at least `pad` to spare on every side. */
  predicate InsideBy(inner: Rect, outer: Rect, pad: real)
  {
    && outer.x + pad <= inner.x
    && inner.x + inner.width + pad <= outer.x + outer.width
    && outer.y + pad <= inner.y
    && inner.y + inner.height + pad <= outer.y + outer.height
  }

  function Min(a: real, b: real): (r: real)
    ensures r <= a && r <= b && (r == a || r == b)
  {
    if a <= b then a else b
  }

  function Max(a: real, b: real): (r: real)
    ensures r >= a && r >= b && (r == a || r == b)
  {
    if a >= b then a else b
  }

  // ---------------------------------------------------------------------------
  // Constants of the generator
  // ---------------------------------------------------------------------------

  /** `this.qrSize` and `this.margin` of the constructor. */
  const QrSize: real := 120.0
  const Margin: real := 40.0

  /** A4 in points. */
  const A4Short: real := 595.0
  const A4Long: real := 842.0

  /** The resize box leaves 20 points on each side of the page. */
  const FitInset: real := 40.0

  /** The drawn size of the overlay image, its plate padding and the caption. */
  const OverlayWidth: real := 180.0
  const OverlayHeight: real := 110.0
  const PlatePadding: real := 10.0
  const CaptionDrop: real := 25.0
  const CaptionFontSize: real := 12.0
  const ShortIdLength: nat := 8

  /** The white canvas the QR code is composited onto, and the QR's offset in it. */
  const CanvasWidth: real := 200.0
  const CanvasHeight: real := 120.0
  const QrInset: real := 10.0

  // ---------------------------------------------------------------------------
  // Image pages
  // ---------------------------------------------------------------------------

  /** The page of an image upload: A4 portrait exactly for the format string "portrait", A4 landscape otherwise. */
  function NominalPageSize(format: string): (r: Size)
    ensures (r.width == A4Short && r.height == A4Long) || (r.width == A4Long && r.height == A4Short)
    ensures r.width < r.height <==> format == "portrait"
  {
    if format == "portrait" then Size(A4Short, A4Long) else Size(A4Long, A4Short)
  }

  /** `(pageWidth - 40) x (pageHeight - 40)`. */
  function FitBox(page: Size): (r: Size)
    ensures page.width - r.width == page.height - r.height == FitInset
  {
    Size(page.width - FitInset, page.height - FitInset)
  }

  /**
   * `resize(w, h, { fit: 'inside', withoutEnlargement: false })` without the
   * rounding to whole pixels: the largest scaling of the image that fits.
   */
  function FitInside(imgW: Dim, imgH: Dim, box: Size): (r: Size)
    requires box.width > 0.0 && box.height > 0.0
    ensures 0.0 < r.width <= box.width && 0.0 < r.height <= box.height
    ensures r.width == box.width || r.height == box.height
    ensures r.width * imgH == r.height * imgW
  {
    var sw := box.width / imgW;
    var sh := box.height / imgH;
    var s := Min(sw, sh);
    assert imgW * sw == box.width;
    assert imgH * sh == box.height;
    assert imgW * s <= imgW * sw;
    assert imgH * s <= imgH * sh;
    Size(imgW * s, imgH * s)
  }

  /** Enlargement is not disabled: an image smaller than the box in both directions is scaled up. */
  lemma FitInsideUpscales(imgW: Dim, imgH: Dim, box: Size)
    requires box.width > 0.0 && box.height > 0.0
    requires imgW < box.width && imgH < box.height
    ensures FitInside(imgW, imgH, box).width > imgW
    ensures FitInside(imgW, imgH, box).height > imgH
  {
    var r := FitInside(imgW, imgH, box);
    var s := Min(box.width / imgW, box.height / imgH);
    assert box.width / imgW > 1.0 && box.height / imgH > 1.0;
    assert s > 1.0;
    assert r.width == imgW * s;
    assert imgW * s > imgW * 1.0;
    assert imgH * s > imgH * 1.0;
  }

  /** `x = (pageWidth - w) / 2`, `y = (pageHeight - h) / 2`. */
  function Centred(page: Size, img: Size): (r: Rect)
    ensures r.width == img.width && r.height == img.height
    ensures r.x == page.width - (r.x + r.width)
    ensures r.y == page.height - (r.y + r.height)
  {
    Rect((page.width - img.width) / 2.0, (page.height - img.height) / 2.0, img.width, img.height)
  }

  /** An image that fits the resize box, centred, keeps at least 20 points from every page edge. */
  lemma CentredWithinMargins(page: Size, img: Size)
    requires img.width <= FitBox(page).width && img.height <= FitBox(page).height
    ensures InsideBy(Centred(page, img), Rect(0.0, 0.0, page.width, page.height), FitInset / 2.0)
  {
  }

  datatype Embedding = Jpeg | Png

  /** JPEG embedding for a mimetype mentioning jpeg or jpg, PNG conversion for anything else. */
  function EmbeddingFor(mimetype: string): (r: Embedding)
    ensures r == Jpeg <==> Contains(mimetype, "jpeg") || Contains(mimetype, "jpg")
  {
    if Contains(mimetype, "jpeg") || Contains(mimetype, "jpg") then Jpeg else Png
  }

  lemma EmbeddingExamples()
    ensures EmbeddingFor("image/jpeg") == Jpeg
    ensures EmbeddingFor("image/png") == Png
  {
    assert OccursAt("image/jpeg", "jpeg", 6);
    NoCharNoOccurrence("image/png", "jpeg", 'j');
    NoCharNoOccurrence("image/png", "jpg", 'j');
  }

  /** The single page built for an image upload and where the image is drawn on it. */
  datatype ImagePage = ImagePage(page: Size, image: Rect, embedding: Embedding)

  /** `processImageToPdf`. */
  function ProcessImage(imgW: Dim, imgH: Dim, mimetype: string, format: string): (r: ImagePage)
    ensures r.page == NominalPageSize(format)
    ensures r.embedding == EmbeddingFor(mimetype)
    ensures InsideBy(r.image, Rect(0.0, 0.0, r.page.width, r.page.height), FitInset / 2.0)
    ensures r.image.width * imgH == r.image.height * imgW
    ensures r.image.x == r.page.width - (r.image.x + r.image.width)
    ensures r.image.y == r.page.height - (r.image.y + r.image.height)
  {
    var page := NominalPageSize(format);
    var fitted := FitInside(imgW, imgH, FitBox(page));
    CentredWithinMargins(page, fitted);
    ImagePage(page, Centred(page, fitted), EmbeddingFor(mimetype))
  }

  // ---------------------------------------------------------------------------
  // Overlay
  // ---------------------------------------------------------------------------

  datatype Caption = Caption(text: string, x: real, y: real, size: real)

  /** The white plate, the drawn overlay image and the caption on the first page. */
  datatype Overlay = Overlay(plate: Rect, image: Rect, caption: Caption)

  /** `uid.slice(0, 8)`. */
  function ShortId(uid: string): (r: string)
    ensures |r| == if |uid| < ShortIdLength then |uid| else ShortIdLength
    ensures StartsWith(uid, r)
  {
    if |uid| < ShortIdLength then uid else uid[..ShortIdLength]
  }

  /** Both branches of the source's orientation test, as written. */
  function OverlayOrigin(page: Size, format: string): (real, real)
  {
    if format == "portrait" then
      (page.width - OverlayWidth - Margin, page.height - OverlayHeight - Margin)
    else
      (page.width - OverlayWidth - Margin, page.height - OverlayHeight - Margin)
  }

  /** The orientation test is vacuous: the overlay sits at the same place for every format string. */
  lemma OverlayIgnoresFormat(page: Size, f1: string, f2: string)
    ensures OverlayOrigin(page, f1) == OverlayOrigin(page, f2)
  {
  }

  /**
   * `addOverlayToPdf` for a first page of size `page`. With the origin at the
   * bottom-left, the overlay image's top-right corner is 40 points from the
   * top and right edges: the overlay is in the top-right corner.
   */
  function PlaceOverlay(page: Size, format: string, uid: string): (o: Overlay)
    ensures page.width - (o.image.x + o.image.width) == Margin
    ensures page.height - (o.image.y + o.image.height) == Margin
    ensures o.image.width == OverlayWidth && o.image.height == OverlayHeight
    ensures InsideBy(o.image, o.plate, PlatePadding)
    ensures o.plate.width == o.image.width + 2.0 * PlatePadding
    ensures o.plate.height == o.image.height + 2.0 * PlatePadding
    ensures o.caption.text == "ID: " + ShortId(uid)
    ensures o.caption.x == o.image.x && o.caption.y == o.image.y - CaptionDrop
    ensures o.caption.size == CaptionFontSize
  {
    var (x, y) := OverlayOrigin(page, format);
    Overlay(
      Rect(x - PlatePadding, y - PlatePadding, OverlayWidth + 2.0 * PlatePadding, OverlayHeight + 2.0 * PlatePadding),
      Rect(x, y, OverlayWidth, OverlayHeight),
      Caption("ID: " + ShortId(uid), x, y - CaptionDrop, CaptionFontSize))
  }

  /**
   * The caption is below the plate: its baseline plus its font size stays under
   * the plate's bottom edge.
   */
  lemma CaptionBelowPlate(page: Size, format: string, uid: string)
    ensures var o := PlaceOverlay(page, format, uid);
      o.caption.y + o.caption.size < o.plate.y
  {
  }

  /** A full identifier is cut to its first eight characters. */
  lemma CaptionOfUuid(uid: string)
    requires |uid| == 36
    ensures PlaceOverlay(Size(A4Long, A4Short), "landscape", uid).caption.text == "ID: " + uid[..8]
    ensures |PlaceOverlay(Size(A4Long, A4Short), "landscape", uid).caption.text| == 12
  {
  }

  // ---------------------------------------------------------------------------
  // QR canvas
  // ---------------------------------------------------------------------------

  /** The white canvas and where the QR image lands on it. */
  datatype Canvas = Canvas(width: real, height: real, qr: Rect)

  /** How much of a span `[offset, offset + size)` is visible on `[0, extent)`. */
  function VisibleSpan(extent: real, offset: real, size: real): (r: real)
    requires 0.0 <= offset && 0.0 < size
    ensures 0.0 <= r <= size
    ensures r == size <==> offset + size <= extent
  {
    Max(0.0, Min(offset + size, extent) - offset)
  }

  /** `createOverlayElements` as written: a 120 x 120 QR image at (10, 10) of a 200 x 120 canvas. */
  function CanvasAsWritten(): Canvas
  {
    Canvas(CanvasWidth, CanvasHeight, Rect(QrInset, QrInset, QrSize, QrSize))
  }

  /** As written, the bottom 10 pixel rows of the QR image fall off the canvas. */
  lemma QrClippedAsWritten()
    ensures var c := CanvasAsWritten();
      && VisibleSpan(c.height, c.qr.y, c.qr.height) == 110.0
      && VisibleSpan(c.height, c.qr.y, c.qr.height) < c.qr.height
      && VisibleSpan(c.width, c.qr.x, c.qr.width) == c.qr.width
  {
  }

  /**
   * The canvas with the QR image sized to the canvas height less the inset at
   * top and bottom, so that the whole code is kept.
   */
  function OverlayCanvas(): (c: Canvas)
    ensures c.width == CanvasWidth && c.height == CanvasHeight
    ensures c.qr.x == c.qr.y == QrInset && c.height - (c.qr.y + c.qr.height) == QrInset
    ensures c.qr.width == c.qr.height > 0.0
    ensures VisibleSpan(c.height, c.qr.y, c.qr.height) == c.qr.height
    ensures VisibleSpan(c.width, c.qr.x, c.qr.width) == c.qr.width
  {
    var side := CanvasHeight - 2.0 * QrInset;
    Canvas(CanvasWidth, CanvasHeight, Rect(QrInset, QrInset, side, side))
  }

  // ---------------------------------------------------------------------------
  // generateCertificate
  // ---------------------------------------------------------------------------

  /** What the uploaded file turns out to hold, as the readers would see it. */
  datatype Content =
    | Missing
    | PdfBytes(pages: seq<Size>)
    | ImageBytes(width: Dim, height: Dim)
    | Undecodable

  datatype InputFile = InputFile(mimetype: string, content: Content)

  /** The step whose error is wrapped into "Certificate generation failed: ...". */
  datatype FailedStep = ReadInput | LoadPdf | ProcessImageToPdf | GenerateQrCode | AddOverlayToPdf

  datatype Document = Document(pages: seq<Size>, background: Option<ImagePage>, canvas: Canvas, overlay: Overlay, qrPayload: string)

  datatype Generation = Generated(doc: Document) | GenerationFailed(step: FailedStep)

  /** The pages of the working document and the drawn image, before the overlay. */
  function BaseDocument(input: InputFile, format: string): Result<(seq<Size>, Option<ImagePage>), FailedStep>
  {
    match input.content
    case Missing => Err(ReadInput)
    case _ =>
      if input.mimetype == "application/pdf" then
        match input.content
        case PdfBytes(pages) => Ok((pages, None))
        case _ => Err(LoadPdf)
      else
        match input.content
        case ImageBytes(w, h) =>
          var p := ProcessImage(w, h, input.mimetype, format);
          Ok(([p.page], Some(p)))
        case _ => Err(ProcessImageToPdf)
  }

  /** The generation pipeline around a given QR canvas: dispatch, QR encoding, overlay on the first page. */
  function GenerateOn(canvas: Canvas, input: InputFile, uid: string, verifyUrl: string, format: string, qrEncodes: bool): Generation
  {
    match BaseDocument(input, format)
    case Err(step) => GenerationFailed(step)
    case Ok((pages, background)) =>
      if !qrEncodes then GenerationFailed(GenerateQrCode)
      else if |pages| == 0 then GenerationFailed(AddOverlayToPdf)
      else Generated(Document(pages, background, canvas, PlaceOverlay(pages[0], format, uid), verifyUrl))
  }

  /**
   * `generateCertificate` as written. A success stamps the canvas whose QR
   * image loses its bottom rows, encodes the verification link, and follows
   * the first page; it fails exactly when the upload is unreadable, the QR
   * encoder fails, or the document has no page.
   */
  function Generate(input: InputFile, uid: string, verifyUrl: string, format: string, qrEncodes: bool): (r: Generation)
    ensures r.Generated? ==>
      && r.doc.canvas == CanvasAsWritten()
      && VisibleSpan(r.doc.canvas.height, r.doc.canvas.qr.y, r.doc.canvas.qr.height) < r.doc.canvas.qr.height
      && r.doc.qrPayload == verifyUrl
      && |r.doc.pages| > 0
      && r.doc.overlay == PlaceOverlay(r.doc.pages[0], format, uid)
    ensures r.GenerationFailed? <==>
      BaseDocument(input, format).Err? || !qrEncodes || |BaseDocument(input, format).value.0| == 0
  {
    QrClippedAsWritten();
    GenerateOn(CanvasAsWritten(), input, uid, verifyUrl, format, qrEncodes)
  }

  /**
   * `generateCertificate` with the QR image sized to fit its canvas: the same
   * outcome as written in every case, except that the whole code is visible.
   */
  function GenerateWholeQr(input: InputFile, uid: string, verifyUrl: string, format: string, qrEncodes: bool): (r: Generation)
    ensures r.Generated? ==>
      && r.doc.canvas == OverlayCanvas()
      && VisibleSpan(r.doc.canvas.height, r.doc.canvas.qr.y, r.doc.canvas.qr.height) == r.doc.canvas.qr.height
      && VisibleSpan(r.doc.canvas.width, r.doc.canvas.qr.x, r.doc.canvas.qr.width) == r.doc.canvas.qr.width
    ensures var w := Generate(input, uid, verifyUrl, format, qrEncodes);
      && (r.GenerationFailed? <==> w.GenerationFailed?)
      && (r.GenerationFailed? ==> r == w)
      && (r.Generated? ==> r.doc == w.doc.(canvas := OverlayCanvas()))
  {
    GenerateOn(OverlayCanvas(), input, uid, verifyUrl, format, qrEncodes)
  }

  /**
   * A PDF upload keeps its own pages; the overlay is placed from the size of
   * its first page, whatever the requested format.
   */
  lemma PdfKeepsItsPages(pages: seq<Size>, uid: string, verifyUrl: string, format: string)
    requires |pages| > 0
    ensures var g := Generate(InputFile("application/pdf", PdfBytes(pages)), uid, verifyUrl, format, true);
      && g.Generated?
      && g.doc.pages == pages
      && g.doc.background.None?
      && g.doc.overlay == PlaceOverlay(pages[0], format, uid)
      && g.doc.qrPayload == verifyUrl
  {
  }

  /**
   * Every mimetype other than exactly `application/pdf` goes through the image
   * path: one nominal A4 page with the fitted, centred image behind the overlay.
   */
  lemma ImageGetsOneNominalPage(mimetype: string, w: Dim, h: Dim, uid: string, verifyUrl: string, format: string)
    requires mimetype != "application/pdf"
    ensures var g := Generate(InputFile(mimetype, ImageBytes(w, h)), uid, verifyUrl, format, true);
      && g.Generated?
      && g.doc.pages == [NominalPageSize(format)]
      && g.doc.background == Some(ProcessImage(w, h, mimetype, format))
      && g.doc.overlay == PlaceOverlay(NominalPageSize(format), format, uid)
  {
  }

  /** On success the background image exists exactly for non-PDF uploads, and the overlay follows the first page. */
  lemma GenerationShape(input: InputFile, uid: string, verifyUrl: string, format: string, qrEncodes: bool)
    requires Generate(input, uid, verifyUrl, format, qrEncodes).Generated?
    ensures var d := Generate(input, uid, verifyUrl, format, qrEncodes).doc;
      && |d.pages| > 0
      && (d.background.Some? <==> input.mimetype != "application/pdf")
      && d.overlay == PlaceOverlay(d.pages[0], format, uid)
      && d.qrPayload == verifyUrl
      && qrEncodes
  {
  }

  /** A PDF with no pages loads, but the overlay step fails on its missing first page. */
  lemma EmptyPdfFails(uid: string, verifyUrl: string, format: string)
    ensures Generate(InputFile("application/pdf", PdfBytes([])), uid, verifyUrl, format, true) == GenerationFailed(AddOverlayToPdf)
  {
  }
}

=== FILE: records.dfy ===
/**
 * The two tables the application reads and writes, as rows whose nullable
 * columns are `Option`s, and the "group certificates by bootcamp" reduction
 * that the template helper and the admin pages share.
 */
module Records {
  import opened Js

  /** The joined `profiles:user_id (full_name, email)` of a certificate query. */
  datatype Creator = Creator(fullName: Option<string>, email: Option<string>)

  /** A row of the `certificates` table. */
  datatype CertificateRow = CertificateRow(
    uid: string,
    userId: Option<string>,
    bootcamp: Option<string>,
    format: Option<string>,
    certType: Option<string>,
    studentName: Option<string>,
    description: Option<string>,
    originalFilename: Option<string>,
    fileUrl: Option<string>,
    verifyUrl: Option<string>,
    createdAt: Option<string>,
    creator: Option<Creator>)

  /** A row of the `profiles` table. */
  datatype ProfileRow = ProfileRow(
    id: string,
    email: Option<string>,
    fullName: Option<string>,
    role: Option<string>,
    status: Option<string>,
    rejectionReason: Option<string>,
    approvedBy: Option<string>,
    approvedAt: Option<string>,
    notes: Option<string>,
    createdAt: Option<string>)

  // ---------------------------------------------------------------------------
  // Grouping by bootcamp
  // ---------------------------------------------------------------------------

  const UnknownBootcamp := "Unknown Bootcamp"

  /** `cert.bootcamp || 'Unknown Bootcamp'`. */
  function GroupKey(c: CertificateRow): string
  {
    OrElse(c.bootcamp, UnknownBootcamp)
  }

  datatype Group = Group(bootcamp: string, certs: seq<CertificateRow>)

  /** Position of the group named `k`, if there is one. */
  function GroupIndex(groups: seq<Group>, k: string): (r: Option<nat>)
    ensures r.Some? ==> r.value < |groups| && groups[r.value].bootcamp == k
    ensures r.None? ==> forall i :: 0 <= i < |groups| ==> groups[i].bootcamp != k
    decreases |groups|
  {
    if |groups| == 0 then None
    else if groups[|groups| - 1].bootcamp == k then Some(|groups| - 1)
    else GroupIndex(groups[..|groups| - 1], k)
  }

  /** One step of the source's `reduce`: push onto the key's list, creating it on first sight. */
  function AddToGroups(groups: seq<Group>, c: CertificateRow): seq<Group>
  {
    var k := GroupKey(c);
    match GroupIndex(groups, k)
    case Some(j) => groups[j := Group(k, groups[j].certs + [c])]
    case None => groups + [Group(k, [c])]
  }

  /**
   * The grouping as the source computes it, with groups in the order
   * `Object.entries` lists keys that are not array indices: first appearance.
   */
  function GroupByBootcamp(certs: seq<CertificateRow>): seq<Group>
    decreases |certs|
  {
    if |certs| == 0 then []
    else AddToGroups(GroupByBootcamp(certs[..|certs| - 1]), certs[|certs| - 1])
  }

  /** Some certificate's grouping key names a member that `{}` already inherits. */
  predicate HasInheritedKey(certs: seq<CertificateRow>)
  {
    exists i :: 0 <= i < |certs| && GroupKey(certs[i]) in ObjectPrototypeNames
  }

  /**
   * The source's `reduce` into `{}`. For a key such as `constructor` the test
   * `!groups[bootcamp]` sees the inherited member, which is truthy and has no
   * `push`, so the reduction throws a TypeError there (`None`).
   */
  function ReduceByBootcamp(certs: seq<CertificateRow>): Option<seq<Group>>
    decreases |certs|
  {
    if |certs| == 0 then Some([])
    else
      var c := certs[|certs| - 1];
      match ReduceByBootcamp(certs[..|certs| - 1])
      case None => None
      case Some(groups) => if GroupKey(c) in ObjectPrototypeNames then None else Some(AddToGroups(groups, c))
  }

  /**
   * The reduction throws exactly when some key is an inherited member's name,
   * and otherwise builds the grouping.
   */
  lemma {:induction false} ReduceThrowsIffInheritedKey(certs: seq<CertificateRow>)
    ensures ReduceByBootcamp(certs).None? <==> HasInheritedKey(certs)
    ensures ReduceByBootcamp(certs).Some? ==> ReduceByBootcamp(certs).value == GroupByBootcamp(certs)
    decreases |certs|
  {
    if |certs| > 0 {
      var init := certs[..|certs| - 1];
      var c := certs[|certs| - 1];
      ReduceThrowsIffInheritedKey(init);
      if HasInheritedKey(init) {
        var i :| 0 <= i < |init| && GroupKey(init[i]) in ObjectPrototypeNames;
        assert certs[i] == init[i];
      }
      if GroupKey(c) !in ObjectPrototypeNames && !HasInheritedKey(init) {
        forall i | 0 <= i < |certs|
          ensures GroupKey(certs[i]) !in ObjectPrototypeNames
        {
          if i < |init| {
            assert certs[i] == init[i];
          }
        }
      }
    }
  }

  // Reference definition: the distinct keys in first-appearance order, and for
  // each key the certificates carrying it, in input order.

  function Keys(certs: seq<CertificateRow>): (r: seq<string>)
    ensures |r| == |certs|
    ensures forall i :: 0 <= i < |certs| ==> r[i] == GroupKey(certs[i])
  {
    seq(|certs|, i requires 0 <= i < |certs| => GroupKey(certs[i]))
  }

  function DistinctInOrder(ks: seq<string>): seq<string>
    decreases |ks|
  {
    if |ks| == 0 then []
    else
      var d := DistinctInOrder(ks[..|ks| - 1]);
      if ks[|ks| - 1] in d then d else d + [ks[|ks| - 1]]
  }

  function WithKey(certs: seq<CertificateRow>, k: string): seq<CertificateRow>
    decreases |certs|
  {
    if |certs| == 0 then []
    else
      var w := WithKey(certs[..|certs| - 1], k);
      if GroupKey(certs[|certs| - 1]) == k then w + [certs[|certs| - 1]] else w
  }

  predicate NoDuplicates(ks: seq<string>)
  {
    forall i, j :: 0 <= i < j < |ks| ==> ks[i] != ks[j]
  }

  lemma {:induction false} DistinctInOrderProps(ks: seq<string>)
    ensures forall x :: x in DistinctInOrder(ks) <==> x in ks
    ensures NoDuplicates(DistinctInOrder(ks))
    decreases |ks|
  {
    if |ks| > 0 {
      var init := ks[..|ks| - 1];
      DistinctInOrderProps(init);
      assert ks == init + [ks[|ks| - 1]];
    }
  }

  lemma {:induction false} WithKeyAbsent(certs: seq<CertificateRow>, k: string)
    requires k !in Keys(certs)
    ensures WithKey(certs, k) == []
    decreases |certs|
  {
    if |certs| > 0 {
      var init := certs[..|certs| - 1];
      assert Keys(certs)[|certs| - 1] == GroupKey(certs[|certs| - 1]);
      assert forall i :: 0 <= i < |init| ==> Keys(init)[i] == Keys(certs)[i];
      WithKeyAbsent(init, k);
    }
  }

  lemma KeysSnoc(certs: seq<CertificateRow>)
    requires |certs| > 0
    ensures Keys(certs) == Keys(certs[..|certs| - 1]) + [GroupKey(certs[|certs| - 1])]
  {
  }

  /**
   * The source's reduction builds exactly the reference grouping: one group per
   * distinct key, in first-appearance order, each holding the certificates with
   * that key in input order.
   */
  lemma GroupByBootcampIsReference(certs: seq<CertificateRow>)
    ensures ReduceByBootcamp(certs).None? <==> HasInheritedKey(certs)
    ensures ReduceByBootcamp(certs).Some? ==> ReduceByBootcamp(certs).value == GroupByBootcamp(certs)
    ensures |GroupByBootcamp(certs)| == |DistinctInOrder(Keys(certs))|
    ensures forall i :: 0 <= i < |GroupByBootcamp(certs)| ==>
      GroupByBootcamp(certs)[i] == Group(DistinctInOrder(Keys(certs))[i], WithKey(certs, DistinctInOrder(Keys(certs))[i]))
  {
    ReduceThrowsIffInheritedKey(certs);
    GroupingMatchesReference(certs);
  }

  /** The grouping step by step: each certificate joins its key's group or opens a new one at the end. */
  lemma {:induction false} GroupingMatchesReference(certs: seq<CertificateRow>)
    ensures |GroupByBootcamp(certs)| == |DistinctInOrder(Keys(certs))|
    ensures forall i :: 0 <= i < |GroupByBootcamp(certs)| ==>
      GroupByBootcamp(certs)[i] == Group(DistinctInOrder(Keys(certs))[i], WithKey(certs, DistinctInOrder(Keys(certs))[i]))
    decreases |certs|
  {
    if |certs| > 0 {
      var init := certs[..|certs| - 1];
      var c := certs[|certs| - 1];
      var k := GroupKey(c);
      GroupingMatchesReference(init);
      var g0 := GroupByBootcamp(init);
      var k0 := DistinctInOrder(Keys(init));
      DistinctInOrderProps(Keys(init));
      KeysSnoc(certs);
      assert Keys(certs)[..|certs| - 1] == Keys(init);
      var g := GroupByBootcamp(certs);
      var ks := DistinctInOrder(Keys(certs));
      assert g == AddToGroups(g0, c);
      forall x | x != k
        ensures WithKey(certs, x) == WithKey(init, x)
      {
      }
      assert WithKey(certs, k) == WithKey(init, k) + [c];
      match GroupIndex(g0, k)
      case Some(j) =>
        assert k0[j] == k;
        assert k in k0;
        assert ks == k0;
        forall i | 0 <= i < |g|
          ensures g[i] == Group(ks[i], WithKey(certs, ks[i]))
        {
          if i != j {
            assert ks[i] != k;
          }
        }
      case None =>
        assert k !in k0;
        assert k !in Keys(init);
        WithKeyAbsent(init, k);
        assert ks == k0 + [k];
    }
  }

  /** Sum of the group sizes. */
  function TotalSize(groups: seq<Group>): nat
    decreases |groups|
  {
    if |groups| == 0 then 0 else TotalSize(groups[..|groups| - 1]) + |groups[|groups| - 1].certs|
  }

  lemma {:induction false} TotalSizeUpdate(groups: seq<Group>, j: nat, g: Group)
    requires j < |groups|
    ensures TotalSize(groups[j := g]) + |groups[j].certs| == TotalSize(groups) + |g.certs|
    decreases |groups|
  {
    var n := |groups|;
    if j < n - 1 {
      assert groups[j := g][..n - 1] == groups[..n - 1][j := g];
      TotalSizeUpdate(groups[..n - 1], j, g);
    } else {
      assert groups[j := g][..n - 1] == groups[..n - 1];
    }
  }

  lemma TotalSizeSnoc(groups: seq<Group>, g: Group)
    ensures TotalSize(groups + [g]) == TotalSize(groups) + |g.certs|
  {
    assert (groups + [g])[..|groups|] == groups;
  }

  /**
   * Every certificate lands in exactly one group: the group sizes add up to
   * the input length, whenever the reduction does not throw.
   */
  lemma {:induction false} GroupSizesSum(certs: seq<CertificateRow>)
    ensures TotalSize(GroupByBootcamp(certs)) == |certs|
    ensures ReduceByBootcamp(certs).Some? <==> !HasInheritedKey(certs)
    ensures ReduceByBootcamp(certs).Some? ==> TotalSize(ReduceByBootcamp(certs).value) == |certs|
    decreases |certs|
  {
    ReduceThrowsIffInheritedKey(certs);
    if |certs| > 0 {
      var init := certs[..|certs| - 1];
      var c := certs[|certs| - 1];
      GroupSizesSum(init);
      var g0 := GroupByBootcamp(init);
      match GroupIndex(g0, GroupKey(c))
      case Some(j) =>
        TotalSizeUpdate(g0, j, Group(GroupKey(c), g0[j].certs + [c]));
      case None =>
        TotalSizeSnoc(g0, Group(GroupKey(c), [c]));
    }
  }

  /** No two groups share a bootcamp name, and every group is non-empty. */
  lemma GroupsDistinctNonEmpty(certs: seq<CertificateRow>)
    ensures NoDuplicates(seq(|GroupByBootcamp(certs)|, i requires 0 <= i < |GroupByBootcamp(certs)| => GroupByBootcamp(certs)[i].bootcamp))
    ensures forall i :: 0 <= i < |GroupByBootcamp(certs)| ==> |GroupByBootcamp(certs)[i].certs| > 0
  {
    GroupByBootcampIsReference(certs);
    DistinctInOrderProps(Keys(certs));
    var g := GroupByBootcamp(certs);
    var ks := DistinctInOrder(Keys(certs));
    forall i | 0 <= i < |g|
      ensures |g[i].certs| > 0
    {
      assert ks[i] in Keys(certs);
      if WithKey(certs, ks[i]) == [] {
        var m :| 0 <= m < |certs| && Keys(certs)[m] == ks[i];
        WithKeyHas(certs, m);
      }
    }
  }

  lemma {:induction false} WithKeyHas(certs: seq<CertificateRow>, m: nat)
    requires m < |certs|
    ensures certs[m] in WithKey(certs, GroupKey(certs[m]))
    decreases |certs|
  {
    if m < |certs| - 1 {
      WithKeyHas(certs[..|certs| - 1], m);
    }
  }

  // ---------------------------------------------------------------------------
  // Object key order
  // ---------------------------------------------------------------------------

  /**
   * A canonical array-index string ("0", "17", never "007"): `Object.entries`
   * lists such keys first, in numeric order, ahead of insertion order.
   */
  predicate IsArrayIndexKey(s: string)
  {
    && |s| > 0
    && (forall k :: 0 <= k < |s| ==> IsDigit(s[k]))
    && (|s| == 1 || s[0] != '0')
    && DecimalValue(s) < 4294967295
  }

  /** The grouping's key order is first appearance only when no key is an array index. */
  predicate InsertionOrdered(certs: seq<CertificateRow>)
  {
    forall i :: 0 <= i < |certs| ==> !IsArrayIndexKey(GroupKey(certs[i]))
  }
}

=== FILE: store.dfy ===
/**
 * The database helpers: single-row lookups that answer `null` instead of
 * failing, the paged certificate listing, the user-status patch, the pending
 * count and the legacy-JSON migration. The database is an abstract value: the
 * two tables as sequences (in the order the query sorts them) and whether the
 * service is reachable.
 */
module Store {
  import opened Js
  import opened Records

  /** Whether the database service answers at all. */
  datatype Connection = Up | Down(message: string)

  datatype Db = Db(conn: Connection, certificates: seq<CertificateRow>, profiles: seq<ProfileRow>)

  /** PostgREST's code for a `.single()` query that matched no row, or more than one. */
  const NotFoundCode := "PGRST116"

  /** What a `.single()` query hands back: one row, or an error code. */
  datatype SingleAnswer<T> = Found(row: T) | Failed(code: string, message: string)

  function Single<T>(conn: Connection, rows: seq<T>): (a: SingleAnswer<T>)
    ensures a.Found? <==> conn.Up? && |rows| == 1
    ensures a.Found? ==> a.row == rows[0]
  {
    if conn.Down? then Failed("CONNECTION", conn.message)
    else if |rows| == 1 then Found(rows[0])
    else Failed(NotFoundCode, "JSON object requested, multiple (or no) rows returned")
  }

  // ---------------------------------------------------------------------------
  // Filters
  // ---------------------------------------------------------------------------

  function CertsWithUid(certs: seq<CertificateRow>, uid: string): (r: seq<CertificateRow>)
    ensures forall i :: 0 <= i < |r| ==> r[i].uid == uid && r[i] in certs
    ensures forall c :: c in certs && c.uid == uid ==> c in r
    decreases |certs|
  {
    if |certs| == 0 then []
    else
      var rest := CertsWithUid(certs[1..], uid);
      assert forall c :: c in certs[1..] ==> c in certs;
      if certs[0].uid == uid then [certs[0]] + rest else rest
  }

  function ProfilesWithId(ps: seq<ProfileRow>, id: string): (r: seq<ProfileRow>)
    ensures forall i :: 0 <= i < |r| ==> r[i].id == id && r[i] in ps
    ensures forall p :: p in ps && p.id == id ==> p in r
    decreases |ps|
  {
    if |ps| == 0 then []
    else
      var rest := ProfilesWithId(ps[1..], id);
      assert forall p :: p in ps[1..] ==> p in ps;
      if ps[0].id == id then [ps[0]] + rest else rest
  }

  // ---------------------------------------------------------------------------
  // Lookups that never fail
  // ---------------------------------------------------------------------------

  /**
   * `getCertificateByUid`: a not-found error returns the (null) data, any
   * other error is thrown and caught, and the catch returns null.
   */
  function GetCertificateByUid(db: Db, uid: string): (r: Option<CertificateRow>)
  {
    match Single(db.conn, CertsWithUid(db.certificates, uid))
    case Found(row) => Some(row)
    // a not-found error and any other error both end in null
    case Failed(_, _) => None
  }

  /** `getProfile`: the same null-on-any-failure shape over `profiles`. */
  function GetProfile(db: Db, id: string): (r: Option<ProfileRow>)
  {
    match Single(db.conn, ProfilesWithId(db.profiles, id))
    case Found(row) => Some(row)
    // a not-found error and any other error both end in null
    case Failed(_, _) => None
  }

  /**
   * A certificate comes back exactly when the database is up and one row has
   * that uid; it is that row. Missing rows, duplicates and outages all give
   * null rather than an error.
   */
  lemma CertificateLookup(db: Db, uid: string)
    ensures GetCertificateByUid(db, uid).Some? <==> db.conn.Up? && |CertsWithUid(db.certificates, uid)| == 1
    ensures GetCertificateByUid(db, uid).Some? ==>
      GetCertificateByUid(db, uid).value.uid == uid && GetCertificateByUid(db, uid).value in db.certificates
    ensures db.conn.Down? ==> GetCertificateByUid(db, uid) == None
  {
  }

  /** The same for profiles. */
  lemma ProfileLookup(db: Db, id: string)
    ensures GetProfile(db, id).Some? <==> db.conn.Up? && |ProfilesWithId(db.profiles, id)| == 1
    ensures GetProfile(db, id).Some? ==> GetProfile(db, id).value.id == id && GetProfile(db, id).value in db.profiles
    ensures db.conn.Down? ==> GetProfile(db, id) == None
  {
  }

  /** With ids unique, the profile stored under an id is the one found. */
  lemma ProfileLookupUnique(db: Db, i: nat)
    requires db.conn.Up? && i < |db.profiles|
    requires forall j :: 0 <= j < |db.profiles| && j != i ==> db.profiles[j].id != db.profiles[i].id
    ensures GetProfile(db, db.profiles[i].id) == Some(db.profiles[i])
  {
    OnlyMatch(db.profiles, i);
  }

  lemma {:induction false} OnlyMatch(ps: seq<ProfileRow>, i: nat)
    requires i < |ps|
    requires forall j :: 0 <= j < |ps| && j != i ==> ps[j].id != ps[i].id
    ensures ProfilesWithId(ps, ps[i].id) == [ps[i]]
    decreases |ps|
  {
    var id := ps[i].id;
    if i == 0 {
      NoneMatch(ps[1..], id);
    } else {
      assert ps[0].id != id;
      OnlyMatch(ps[1..], i - 1);
    }
  }

  lemma {:induction false} NoneMatch(ps: seq<ProfileRow>, id: string)
    requires forall j :: 0 <= j < |ps| ==> ps[j].id != id
    ensures ProfilesWithId(ps, id) == []
    decreases |ps|
  {
    if |ps| > 0 {
      NoneMatch(ps[1..], id);
    }
  }

  // ---------------------------------------------------------------------------
  // Paged listing
  // ---------------------------------------------------------------------------

  const DefaultLimit := 100
  const DefaultOffset := 0

  /** The inclusive row range `getAllCertificates` asks for. */
  datatype Range = Range(first: int, last: int)

  function RequestedRange(limit: int, offset: int): (r: Range)
  {
    Range(offset, offset + limit - 1)
  }

  /** The rows at positions `first..last` (both inclusive) that exist. */
  function Window<T>(rows: seq<T>, r: Range): (w: seq<T>)
    ensures |w| <= |rows|
  {
    var lo := if r.first < 0 then 0 else if r.first > |rows| then |rows| else r.first;
    var hi := if r.last + 1 < lo then lo else if r.last + 1 > |rows| then |rows| else r.last + 1;
    rows[lo..hi]
  }

  /**
   * `getAllCertificates`: the requested window, `[]` for no data, and a thrown
   * error when the query fails. The range `[offset, offset + limit - 1]` is
   * inclusive, so a page holds at most `limit` rows, consecutive from `offset`.
   */
  function GetAllCertificates(db: Db, limit: int, offset: int): (r: Result<seq<CertificateRow>, string>)
    ensures r.Err? <==> db.conn.Down?
    ensures r.Ok? ==> |r.value| <= if limit < 0 then 0 else limit
    ensures r.Ok? && 0 <= offset <= |db.certificates| && 0 <= limit ==>
      r.value == db.certificates[offset..if offset + limit <= |db.certificates| then offset + limit else |db.certificates|]
  {
    if db.conn.Down? then Err("Failed to get all certificates: " + db.conn.message)
    else Ok(Window(db.certificates, RequestedRange(limit, offset)))
  }

  /** With enough rows, the listing is exactly `limit` consecutive rows from `offset`. */
  lemma ListingWindow(db: Db, limit: nat, offset: nat)
    requires db.conn.Up? && offset + limit <= |db.certificates|
    ensures GetAllCertificates(db, limit, offset).Ok?
    ensures |GetAllCertificates(db, limit, offset).value| == limit
    ensures forall i :: 0 <= i < limit ==> GetAllCertificates(db, limit, offset).value[i] == db.certificates[offset + i]
  {
  }

  /** Past the end, the listing is the remaining rows; an outage is an error, not an empty page. */
  lemma ListingTail(db: Db, limit: nat, offset: nat)
    requires offset <= |db.certificates| < offset + limit
    ensures db.conn.Up? ==>
      GetAllCertificates(db, limit, offset).Ok? && GetAllCertificates(db, limit, offset).value == db.certificates[offset..]
    ensures db.conn.Down? ==> GetAllCertificates(db, limit, offset).Err?
  {
    var r := RequestedRange(limit, offset);
    assert r.first == offset && r.last + 1 > |db.certificates|;
    assert Window(db.certificates, r) == db.certificates[offset..|db.certificates|];
  }

  // ---------------------------------------------------------------------------
  // Users
  // ---------------------------------------------------------------------------

  function WithStatus(ps: seq<ProfileRow>, status: string): (r: seq<ProfileRow>)
    ensures |r| <= |ps|
    ensures forall i :: 0 <= i < |r| ==> r[i].status == Some(status) && r[i] in ps
    decreases |ps|
  {
    if |ps| == 0 then []
    else
      var rest := WithStatus(ps[1..], status);
      assert forall p :: p in ps[1..] ==> p in ps;
      if ps[0].status == Some(status) then [ps[0]] + rest else rest
  }

  /** `getAllUsers(status)`: every profile, or only those with the status when one is given. */
  function GetAllUsers(db: Db, status: Option<string>): (r: Result<seq<ProfileRow>, string>)
  {
    if db.conn.Down? then Err("Failed to get users: " + db.conn.message)
    else if Present(status) then Ok(WithStatus(db.profiles, status.value))
    else Ok(db.profiles)
  }

  /** `getPendingUsersCount`: the exact count of pending profiles, or 0 when the query fails. */
  function GetPendingUsersCount(db: Db): (r: nat)
  {
    if db.conn.Down? then 0 else |WithStatus(db.profiles, "pending")|
  }

  /** The pending count agrees with the filtered user list, and is 0 on failure. */
  lemma PendingCountMatchesList(db: Db)
    ensures db.conn.Up? ==> GetAllUsers(db, Some("pending")) == Ok(WithStatus(db.profiles, "pending"))
    ensures db.conn.Up? ==> GetPendingUsersCount(db) == |GetAllUsers(db, Some("pending")).value|
    ensures db.conn.Down? ==> GetPendingUsersCount(db) == 0 && GetAllUsers(db, Some("pending")).Err?
  {
  }

  // ---------------------------------------------------------------------------
  // Status updates
  // ---------------------------------------------------------------------------

  /**
   * A field of a JSON request body as JavaScript sees it: absent (`undefined`),
   * an explicit `null`, or a value.
   */
  datatype BodyField<+T> = Absent | Null | Given(value: T)

  /**
   * The column a patch field leaves behind. supabase-js serialises the patch
   * with `JSON.stringify`, which drops a key whose value is `undefined`, so an
   * absent field keeps the stored column and `null` clears it.
   */
  function Written(f: BodyField<string>, stored: Option<string>): (r: Option<string>)
    ensures f.Absent? ==> r == stored
    ensures f.Null? ==> r == None
    ensures f.Given? ==> r == Some(f.value)
  {
    match f
    case Absent => stored
    case Null => None
    case Given(s) => Some(s)
  }

  /** The columns `updateUserStatus` writes. */
  datatype StatusPatch = StatusPatch(
    status: BodyField<string>,
    approvedBy: string,
    approvedAt: Option<string>,
    rejectionReason: Option<string>,
    notes: Option<string>)

  /**
   * The patch for a new status, with `now` standing for the ISO time stamp.
   * `reason` and `notes` default to `null`, so for them a missing field and
   * `null` are the same.
   */
  function StatusPatchFor(status: BodyField<string>, adminId: string, reason: Option<string>, notes: Option<string>, now: string): (p: StatusPatch)
  {
    StatusPatch(
      status := status,
      approvedBy := adminId,
      approvedAt := if status == Given("approved") then Some(now) else None,
      rejectionReason := if status == Given("rejected") then reason else None,
      notes := notes)
  }

  /**
   * An approval time is written exactly for an approval, a rejection reason
   * only for a rejection (any other status clears it), and the acting admin
   * is recorded whatever the status.
   */
  lemma StatusPatchFields(status: BodyField<string>, adminId: string, reason: Option<string>, notes: Option<string>, now: string)
    ensures StatusPatchFor(status, adminId, reason, notes, now).approvedAt.Some? <==> status == Given("approved")
    ensures status == Given("rejected") ==> StatusPatchFor(status, adminId, reason, notes, now).rejectionReason == reason
    ensures status != Given("rejected") ==> StatusPatchFor(status, adminId, reason, notes, now).rejectionReason == None
    ensures StatusPatchFor(status, adminId, reason, notes, now).approvedBy == adminId
    ensures StatusPatchFor(status, adminId, reason, notes, now).notes == notes
  {
  }

  function ApplyPatch(p: ProfileRow, patch: StatusPatch): ProfileRow
  {
    p.(status := Written(patch.status, p.status), approvedBy := Some(patch.approvedBy), approvedAt := patch.approvedAt,
       rejectionReason := patch.rejectionReason, notes := patch.notes)
  }

  function PatchWhere(ps: seq<ProfileRow>, id: string, patch: StatusPatch): (r: seq<ProfileRow>)
    ensures |r| == |ps|
    ensures forall i :: 0 <= i < |ps| ==> r[i] == if ps[i].id == id then ApplyPatch(ps[i], patch) else ps[i]
  {
    seq(|ps|, i requires 0 <= i < |ps| => if ps[i].id == id then ApplyPatch(ps[i], patch) else ps[i])
  }

  /** The database after an update, and what the call returns or throws. */
  datatype Updated = Updated(db: Db, result: Result<ProfileRow, string>)

  /**
   * `updateUserStatus`: patch the rows with that id, hand back the single
   * updated row, throw otherwise. Only the target user's status columns
   * change: identity, e-mail, name, role and sign-up time of every profile,
   * and every other profile entirely, stay as they were. A given status is
   * written, `null` clears the column and an absent one leaves it alone. A
   * successful update returns one of the target's rows as patched.
   */
  function UpdateUserStatus(db: Db, userId: string, status: BodyField<string>, adminId: string,
                            reason: Option<string>, notes: Option<string>, now: string): (u: Updated)
    ensures db.conn.Down? ==> u.db == db && u.result.Err?
    ensures u.db.conn == db.conn && u.db.certificates == db.certificates && |u.db.profiles| == |db.profiles|
    ensures forall i :: 0 <= i < |db.profiles| ==>
      && (db.profiles[i].id != userId ==> u.db.profiles[i] == db.profiles[i])
      && u.db.profiles[i].id == db.profiles[i].id
      && u.db.profiles[i].email == db.profiles[i].email
      && u.db.profiles[i].fullName == db.profiles[i].fullName
      && u.db.profiles[i].role == db.profiles[i].role
      && u.db.profiles[i].createdAt == db.profiles[i].createdAt
    ensures db.conn.Up? ==> forall i :: 0 <= i < |db.profiles| && db.profiles[i].id == userId ==>
      && u.db.profiles[i].approvedBy == Some(adminId)
      && (status.Absent? ==> u.db.profiles[i].status == db.profiles[i].status)
      && (status.Null? ==> u.db.profiles[i].status == None)
      && (status.Given? ==> u.db.profiles[i].status == Some(status.value))
    ensures u.result.Ok? ==>
      && db.conn.Up?
      && (exists i :: 0 <= i < |db.profiles| && db.profiles[i].id == userId && u.result.value == u.db.profiles[i])
      && u.result.value.id == userId
      && u.result.value.approvedBy == Some(adminId)
      && (u.result.value.approvedAt.Some? <==> status == Given("approved"))
  {
    if db.conn.Down? then Updated(db, Err("Failed to update user status: " + db.conn.message))
    else
      var patch := StatusPatchFor(status, adminId, reason, notes, now);
      var db' := db.(profiles := PatchWhere(db.profiles, userId, patch));
      match Single(db.conn, ProfilesWithId(db'.profiles, userId))
      case Found(row) =>
        PatchedRowCarriesPatch(db.profiles, userId, patch, row);
        Updated(db', Ok(row))
      case Failed(_, message) => Updated(db', Err("Failed to update user status: " + message))
  }

  /** A row found among the patched profiles under `id` is one of that user's rows, patched. */
  lemma PatchedRowCarriesPatch(ps: seq<ProfileRow>, id: string, patch: StatusPatch, row: ProfileRow)
    requires row in ProfilesWithId(PatchWhere(ps, id, patch), id)
    ensures exists i :: 0 <= i < |ps| && ps[i].id == id && row == PatchWhere(ps, id, patch)[i]
    ensures row.id == id && row.approvedBy == Some(patch.approvedBy)
    ensures row.approvedAt == patch.approvedAt && row.rejectionReason == patch.rejectionReason
  {
    var patched := PatchWhere(ps, id, patch);
    assert row in patched;
    var i :| 0 <= i < |patched| && patched[i] == row;
    assert ps[i].id == id;
  }

  // ---------------------------------------------------------------------------
  // Migration of the legacy JSON file
  // ---------------------------------------------------------------------------

  /** A record of the legacy JSON file; every field may be missing. */
  datatype LegacyCert = LegacyCert(
    uid: string,
    bootcamp: Option<string>,
    name: Option<string>,
    format: Option<string>,
    certType: Option<string>,
    description: Option<string>,
    program: Option<string>,
    originalFilename: Option<string>,
    fileUrl: Option<string>,
    verifyUrl: Option<string>,
    createdAt: Option<string>,
    date: Option<string>)

  /** The row built for one legacy record; `now` stands for the current ISO time stamp. */
  function MigrationRow(c: LegacyCert, now: string): CertificateRow
  {
    CertificateRow(
      uid := c.uid,
      userId := None,
      bootcamp := Some(if Present(c.bootcamp) then c.bootcamp.value else OrElse(c.name, "Legacy Certificate")),
      format := Some(OrElse(c.format, "landscape")),
      certType := Some(OrElse(c.certType, "completion")),
      studentName := None,
      description := Some(if Present(c.description) then c.description.value else OrElse(c.program, "")),
      originalFilename := Some(OrElse(c.originalFilename, "legacy-certificate")),
      fileUrl := c.fileUrl,
      verifyUrl := c.verifyUrl,
      createdAt := Some(if Present(c.createdAt) then c.createdAt.value else OrElse(c.date, now)),
      creator := None)
  }

  /**
   * The mapping keeps the uid and the links, never assigns an owner, and
   * falls back along `bootcamp`, `name`, "Legacy Certificate" for the
   * bootcamp, to "landscape" for the format and to "completion" for the type.
   */
  lemma MigrationRowFields(c: LegacyCert, now: string)
    ensures MigrationRow(c, now).uid == c.uid && MigrationRow(c, now).userId == None
    ensures MigrationRow(c, now).fileUrl == c.fileUrl && MigrationRow(c, now).verifyUrl == c.verifyUrl
    ensures MigrationRow(c, now).bootcamp ==
      Some(if Present(c.bootcamp) then c.bootcamp.value else if Present(c.name) then c.name.value else "Legacy Certificate")
    ensures !Present(c.format) ==> MigrationRow(c, now).format == Some("landscape")
    ensures Present(c.format) ==> MigrationRow(c, now).format == c.format
    ensures !Present(c.certType) ==> MigrationRow(c, now).certType == Some("completion")
    ensures Present(c.certType) ==> MigrationRow(c, now).certType == c.certType
  {
  }

  /** What the migration did: how many rows it counted, and which rows the database accepted. */
  datatype Migration = Migration(migrated: nat, saved: seq<CertificateRow>)

  /** The reference result: the mapped rows the database accepts, in file order. */
  function Accepted(legacy: seq<LegacyCert>, accepts: CertificateRow -> bool, now: string): seq<CertificateRow>
    decreases |legacy|
  {
    if |legacy| == 0 then []
    else
      var rest := Accepted(legacy[..|legacy| - 1], accepts, now);
      var row := MigrationRow(legacy[|legacy| - 1], now);
      if accepts(row) then rest + [row] else rest
  }

  /**
   * `migrateFromJson`. `file` is the parsed JSON file, `None` when there is
   * none; `accepts` stands for whether the database takes each insert. A
   * refused insert is logged and skipped: the loop carries on.
   */
  method MigrateFromJson(file: Option<seq<LegacyCert>>, accepts: CertificateRow -> bool, now: string)
    returns (m: Migration)
    ensures file.None? ==> m == Migration(0, [])
    ensures file.Some? ==> m.saved == Accepted(file.value, accepts, now)
    ensures m.migrated == |m.saved|
    ensures file.Some? ==> m.migrated <= |file.value|
  {
    if file.None? {
      return Migration(0, []);
    }
    var legacy := file.value;
    var count := 0;
    var saved: seq<CertificateRow> := [];
    var i := 0;
    while i < |legacy|
      invariant 0 <= i <= |legacy|
      invariant saved == Accepted(legacy[..i], accepts, now)
      invariant count == |saved| <= i
    {
      var row := MigrationRow(legacy[i], now);
      assert legacy[..i + 1][..i] == legacy[..i];
      if accepts(row) {
        saved := saved + [row];
        count := count + 1;
      }
      i := i + 1;
    }
    assert legacy[..i] == legacy;
    m := Migration(count, saved);
  }

  /** Every record is counted when the database accepts every insert. */
  lemma {:induction false} AllAcceptedAllMigrated(legacy: seq<LegacyCert>, accepts: CertificateRow -> bool, now: string)
    requires forall i :: 0 <= i < |legacy| ==> accepts(MigrationRow(legacy[i], now))
    ensures |Accepted(legacy, accepts, now)| == |legacy|
    decreases |legacy|
  {
    if |legacy| > 0 {
      AllAcceptedAllMigrated(legacy[..|legacy| - 1], accepts, now);
    }
  }

  /** Each saved row comes from a record of the file, in the same relative order. */
  lemma {:induction false} AcceptedAreMapped(legacy: seq<LegacyCert>, accepts: CertificateRow -> bool, now: string)
    ensures forall r :: r in Accepted(legacy, accepts, now) ==>
      accepts(r) && exists i :: 0 <= i < |legacy| && r == MigrationRow(legacy[i], now)
    decreases |legacy|
  {
    if |legacy| > 0 {
      var init := legacy[..|legacy| - 1];
      AcceptedAreMapped(init, accepts, now);
      forall r | r in Accepted(legacy, accepts, now)
        ensures accepts(r) && exists i :: 0 <= i < |legacy| && r == MigrationRow(legacy[i], now)
      {
        if r in Accepted(init, accepts, now) {
          var i :| 0 <= i < |init| && r == MigrationRow(init[i], now);
          assert legacy[i] == init[i];
        } else {
          assert r == MigrationRow(legacy[|legacy| - 1], now);
        }
      }
    }
  }
}

=== FILE: template_laws.dfy ===
/**
 * What the template engine's rewrites do to texts of known shape: plain text
 * passes through every stage, a conditional keeps its body exactly when its
 * value is truthy, a loop expands once per array item, a placeholder becomes
 * its value's text and a partial tag becomes the partial's text, and the order
 * of the stages decides which of them sees which text.
 */
module TemplateLaws {
  import opened Js
  import opened Records
  import opened Templates

  // ---------------------------------------------------------------------------
  // Plain text
  // ---------------------------------------------------------------------------

  lemma EmptyAround(x: string)
    ensures "" + x + "" == x
  {
  }

  lemma NoBraceJoin(a: string, v: string, b: string)
    requires NoBrace(a) && NoBrace(v) && NoBrace(b)
    ensures NoBrace(a + v + b)
  {
    var s := a + v + b;
    forall k | 0 <= k < |s|
      ensures s[k] != '{'
    {
      if k < |a| {
        assert s[k] == a[k];
      } else if k < |a| + |v| {
        assert s[k] == v[k - |a|];
      } else {
        assert s[k] == b[k - |a| - |v|];
      }
    }
  }

  lemma {:induction false} IfPassUnchanged(s: string, data: Value)
    requires !Contains(s, IfOpen)
    ensures IfPass(s, data) == s
    decreases |s|
  {
    if |s| > 0 {
      StartsWithOccursAt(s, IfOpen);
      assert IfBlockAt(s).None?;
      NotContainsSuffix(s, IfOpen, 1);
      IfPassUnchanged(s[1..], data);
      assert [s[0]] + s[1..] == s;
    }
  }

  /** Text with no `{{#if` is left alone by the conditional stage. */
  lemma ConditionalsUnchanged(s: string, data: Value)
    requires !Contains(s, IfOpen)
    ensures ProcessConditionals(s, data) == s
  {
  }

  /** When one pass leaves no `{{#if`, the conditional stage stops after it. */
  lemma ConditionalsOnePass(s: string, data: Value)
    requires Contains(s, IfOpen) && !Contains(IfPass(s, data), IfOpen)
    ensures ProcessConditionals(s, data) == IfPass(s, data)
  {
    assert ConditionalsFrom(s, data, 0) == ConditionalsFrom(IfPass(s, data), data, 1);
  }

  /** A text with a conditional that one pass settles comes out of the stage as that pass's output. */
  lemma ConditionalsSettle(s: string, data: Value, j: nat, out: string)
    requires OccursAt(s, IfOpen, j) && IfPass(s, data) == out && !Contains(out, IfOpen)
    ensures ProcessConditionals(s, data) == out
  {
    ConditionalsOnePass(s, data);
  }

  lemma {:induction false} LoopPassUnchanged(s: string, data: seq<Field>)
    requires !Contains(s, EachOpen)
    ensures LoopPass(s, data) == s
    decreases |s|
  {
    if |s| > 0 {
      StartsWithOccursAt(s, EachOpen);
      assert EachBlockAt(s).None?;
      NotContainsSuffix(s, EachOpen, 1);
      LoopPassUnchanged(s[1..], data);
      assert [s[0]] + s[1..] == s;
    }
  }

  // ---------------------------------------------------------------------------
  // Skipping plain prefixes
  // ---------------------------------------------------------------------------

  /** No construct of the engine starts at a character other than `{`. */
  lemma NoTagAtPlainChar(s: string)
    requires |s| > 0 && s[0] != '{'
    ensures IfBlockAt(s).None? && EachBlockAt(s).None? && PartialAt(s).None?
  {
    if 3 <= |s| {
      assert s[..3][0] == s[0];
    }
    if 5 <= |s| {
      assert s[..5][0] == s[0];
    }
    if 7 <= |s| {
      assert s[..7][0] == s[0];
    }
  }

  lemma IfPassPlainStep(c: char, rest: string, data: Value)
    requires c != '{'
    ensures IfPass([c] + rest, data) == [c] + IfPass(rest, data)
  {
    var s := [c] + rest;
    assert s[0] == c && s[1..] == rest;
    NoTagAtPlainChar(s);
  }

  lemma LoopPassPlainStep(c: char, rest: string, data: seq<Field>)
    requires c != '{'
    ensures LoopPass([c] + rest, data) == [c] + LoopPass(rest, data)
  {
    var s := [c] + rest;
    assert s[0] == c && s[1..] == rest;
    NoTagAtPlainChar(s);
  }

  lemma PartialPassPlainStep(c: char, rest: string, partials: map<string, string>)
    requires c != '{'
    ensures PartialPass([c] + rest, partials) == [c] + PartialPass(rest, partials)
  {
    var s := [c] + rest;
    assert s[0] == c && s[1..] == rest;
    NoTagAtPlainChar(s);
  }

  lemma IfPassFrontStep(a: string, x: string, data: Value)
    requires |a| > 0 && a[0] != '{'
    ensures IfPass(a + x, data) == [a[0]] + IfPass(a[1..] + x, data)
  {
    ConsSplit(a, x);
    IfPassPlainStep(a[0], a[1..] + x, data);
  }

  lemma {:induction false} IfPassSkips(a: string, x: string, data: Value)
    requires NoBrace(a)
    ensures IfPass(a + x, data) == a + IfPass(x, data)
    decreases |a|
  {
    if |a| > 0 {
      IfPassFrontStep(a, x, data);
      IfPassSkips(a[1..], x, data);
      ConsJoin(a, IfPass(x, data));
    } else {
      assert a + x == x;
    }
  }

  lemma LoopPassFrontStep(a: string, x: string, data: seq<Field>)
    requires |a| > 0 && a[0] != '{'
    ensures LoopPass(a + x, data) == [a[0]] + LoopPass(a[1..] + x, data)
  {
    ConsSplit(a, x);
    LoopPassPlainStep(a[0], a[1..] + x, data);
  }

  lemma {:induction false} LoopPassSkips(a: string, x: string, data: seq<Field>)
    requires NoBrace(a)
    ensures LoopPass(a + x, data) == a + LoopPass(x, data)
    decreases |a|
  {
    if |a| > 0 {
      LoopPassFrontStep(a, x, data);
      LoopPassSkips(a[1..], x, data);
      ConsJoin(a, LoopPass(x, data));
    } else {
      assert a + x == x;
    }
  }

  lemma PartialPassFrontStep(a: string, x: string, partials: map<string, string>)
    requires |a| > 0 && a[0] != '{'
    ensures PartialPass(a + x, partials) == [a[0]] + PartialPass(a[1..] + x, partials)
  {
    ConsSplit(a, x);
    PartialPassPlainStep(a[0], a[1..] + x, partials);
  }

  lemma {:induction false} PartialPassSkips(a: string, x: string, partials: map<string, string>)
    requires NoBrace(a)
    ensures PartialPass(a + x, partials) == a + PartialPass(x, partials)
    decreases |a|
  {
    if |a| > 0 {
      PartialPassFrontStep(a, x, partials);
      PartialPassSkips(a[1..], x, partials);
      ConsJoin(a, PartialPass(x, partials));
    } else {
      assert a + x == x;
    }
  }

  // ---------------------------------------------------------------------------
  // Conditionals
  // ---------------------------------------------------------------------------

  predicate IsPath(cond: string)
  {
    |cond| > 0 && forall k :: 0 <= k < |cond| ==> IsPathChar(cond[k])
  }

  /** `{{#if cond}}body{{/if}}`. */
  function IfBlockText(cond: string, body: string): string
  {
    IfOpen + " " + cond + "}}" + body + IfClose
  }

  /** The body holds no `{{/if}}` and no `{{#if`, not even overlapping the closing tag. */
  predicate InnermostBody(body: string)
  {
    IndexOf(body + IfClose, IfClose) == Some(|body|) && !Contains(body + IfClose, IfOpen)
  }

  lemma PlainBodyInnermost(body: string)
    requires NoBrace(body)
    ensures InnermostBody(body)
  {
    var t := body + IfClose;
    OccursInConcat(body, IfClose, IfClose, 0);
    assert OccursAt(IfClose, IfClose, 0);
    forall j | 0 <= j < |body|
      ensures !OccursAt(t, IfClose, j)
    {
      assert t[j..j + 7][0] == t[j] == body[j];
    }
    assert IndexOf(t, IfClose) == Some(|body|);
    forall j | 0 <= j <= |t| - |IfOpen|
      ensures !OccursAt(t, IfOpen, j)
    {
      if j < |body| {
        assert t[j..j + 5][0] == t[j] == body[j];
      } else {
        assert t[j..j + 5][2] == t[j + 2] == IfClose[j - |body| + 2];
      }
    }
  }

  lemma SpaceThenName(s: string, name: string, tail: string)
    requires |name| > 0 && !IsJsSpace(name[0]) && s == " " + name + tail
    ensures PrefixWhile(s, IsJsSpace) == 1
  {
    assert s[0] == ' ' && s[1] == name[0];
  }

  lemma NameThenClose(s: string, name: string, tail: string, P: char -> bool)
    requires |name| > 0 && (forall k :: 0 <= k < |name| ==> P(name[k])) && !P('}')
    requires s == name + "}}" + tail
    ensures PrefixWhile(s, P) == |name|
  {
    assert forall k :: 0 <= k < |name| ==> s[k] == name[k];
    assert s[|name|] == '}';
  }

  /** The opening tag of `{{#if cond}}`, followed by anything, is read back as `cond`. */
  lemma IfOpeningTag(cond: string, rest: string)
    requires IsPath(cond)
    ensures OpeningTag(IfOpen + " " + cond + "}}" + rest, IfOpen, IsPathChar) == Some(Tag(cond, 8 + |cond|))
    ensures (IfOpen + " " + cond + "}}" + rest)[8 + |cond|..] == rest
  {
    var s := IfOpen + " " + cond + "}}" + rest;
    var tail := "}}" + rest;
    assert s[..5] == IfOpen;
    assert s[5..] == " " + cond + tail;
    SpaceThenName(s[5..], cond, tail);
    assert s[6..] == cond + "}}" + rest;
    NameThenClose(s[6..], cond, rest, IsPathChar);
    assert s[6..6 + |cond|] == cond;
    assert s[6 + |cond|..][..2] == "}}";
  }

  lemma IfBlockAtFromTag(s: string, t: Tag, r: string, e: nat, body: string, len: nat)
    requires OpeningTag(s, IfOpen, IsPathChar) == Some(t)
    requires s[t.length..] == r
    requires IndexOf(r, IfClose) == Some(e)
    requires IndexOf(r, IfOpen).None? || IndexOf(r, IfOpen).value >= e
    requires r[..e] == body && len == t.length + e + |IfClose|
    ensures IfBlockAt(s) == Some(Block(t.name, body, len))
  {
  }

  /** In an innermost body followed by its closing tag, the first `{{#if` (if any) is past the body. */
  lemma NoInnerIf(body: string, rest: string)
    requires InnermostBody(body)
    ensures IndexOf(body + IfClose + rest, IfOpen).None? || IndexOf(body + IfClose + rest, IfOpen).value >= |body|
  {
    var r := body + IfClose + rest;
    assert r == (body + IfClose) + rest;
    var inner := IndexOf(r, IfOpen);
    if inner.Some? && inner.value < |body| {
      OccursInConcat(body + IfClose, rest, IfOpen, inner.value);
    }
  }

  /** The opening tag of a well-formed conditional, and what follows it. */
  lemma IfTagParts(cond: string, body: string, rest: string)
    requires IsPath(cond)
    ensures OpeningTag(IfBlockText(cond, body) + rest, IfOpen, IsPathChar) == Some(Tag(cond, 8 + |cond|))
    ensures (IfBlockText(cond, body) + rest)[8 + |cond|..] == body + IfClose + rest
  {
    var r := body + IfClose + rest;
    IfTextSplit(cond, body, rest);
    IfOpeningTag(cond, r);
  }

  lemma IfTextSplit(cond: string, body: string, rest: string)
    ensures IfBlockText(cond, body) + rest == IfOpen + " " + cond + "}}" + (body + IfClose + rest)
  {
  }

  /** After the opening tag of an innermost conditional, the closing tag ends the body. */
  lemma IfCloseParts(body: string, rest: string)
    requires InnermostBody(body)
    ensures IndexOf(body + IfClose + rest, IfClose) == Some(|body|)
    ensures IndexOf(body + IfClose + rest, IfOpen).None? || IndexOf(body + IfClose + rest, IfOpen).value >= |body|
    ensures (body + IfClose + rest)[..|body|] == body
  {
    IndexOfAppend(body + IfClose, rest, IfClose);
    NoInnerIf(body, rest);
  }

  /** The conditional pattern matches a well-formed innermost conditional, body and all. */
  lemma IfBlockAtBlock(cond: string, body: string, rest: string)
    requires IsPath(cond) && InnermostBody(body)
    ensures IfBlockAt(IfBlockText(cond, body) + rest) == Some(Block(cond, body, |IfBlockText(cond, body)|))
  {
    var s := IfBlockText(cond, body) + rest;
    IfTagParts(cond, body, rest);
    IfCloseParts(body, rest);
    IfBlockAtFromTag(s, Tag(cond, 8 + |cond|), body + IfClose + rest, |body|, body, |IfBlockText(cond, body)|);
  }

  /**
   * A pass over plain text, an innermost conditional and more text keeps the
   * conditional's body when its value is truthy and drops the whole
   * conditional otherwise, then carries on after it.
   */
  lemma IfPassBlock(a: string, cond: string, body: string, x: string, data: Value)
    requires NoBrace(a) && IsPath(cond) && InnermostBody(body)
    ensures IfPass(a + IfBlockText(cond, body) + x, data)
         == a + (if Truthy(NestedValue(data, cond)) then body else "") + IfPass(x, data)
  {
    var blk := IfBlockText(cond, body);
    var kept := if Truthy(NestedValue(data, cond)) then body else "";
    ConcatAssoc(a, blk, x);
    IfPassSkips(a, blk + x, data);
    IfPassBlockAtStart(cond, body, x, data);
    var t := IfPass(x, data);
    ConcatAssoc(a, kept, t);
  }

  lemma IfBlockOccurs(a: string, cond: string, body: string, x: string)
    ensures OccursAt(a + IfBlockText(cond, body) + x, IfOpen, |a|)
  {
    var ib := IfBlockText(cond, body);
    ConcatAssoc(a, ib, x);
    assert OccursAt(ib, IfOpen, 0) by {
      assert ib[..5] == IfOpen;
    }
    OccursInConcat(ib, x, IfOpen, 0);
    OccursInConcat(a, ib + x, IfOpen, 0);
  }

  /**
   * The conditional stage over plain text around one conditional with a plain
   * body: the body is kept exactly when the looked-up value is truthy.
   */
  lemma ConditionalKeepsBodyIffTruthy(a: string, cond: string, body: string, x: string, data: Value)
    requires NoBrace(a) && IsPath(cond) && NoBrace(body) && NoBrace(x)
    ensures ProcessConditionals(a + IfBlockText(cond, body) + x, data)
         == a + (if Truthy(NestedValue(data, cond)) then body else "") + x
  {
    var s := a + IfBlockText(cond, body) + x;
    var kept := if Truthy(NestedValue(data, cond)) then body else "";
    var out := a + kept + x;
    assert IfPass(s, data) == out by {
      PlainBodyInnermost(body);
      IfPassBlock(a, cond, body, x, data);
      NoBraceNoTag(x, IfOpen);
      IfPassUnchanged(x, data);
    }
    IfBlockOccurs(a, cond, body, x);
    assert !Contains(out, IfOpen) by {
      assert NoBrace(out);
      NoBraceNoTag(out, IfOpen);
    }
    ConditionalsSettle(s, data, |a|, out);
  }

  // ---------------------------------------------------------------------------
  // Placeholders
  // ---------------------------------------------------------------------------

  /** A name made of `\w` characters: what a placeholder's key is in practice. */
  predicate IsWord(k: string)
  {
    |k| > 0 && forall j :: 0 <= j < |k| ==> IsWordChar(k[j])
  }

  /** Text with no brace of either kind, such as a `\w` or `[\w-]` name. */
  predicate BraceFree(k: string)
  {
    forall j :: 0 <= j < |k| ==> k[j] != '{' && k[j] != '}'
  }

  /** `{{`, `{{this.`, `{{../` or `{{>`: two braces, then no brace of either kind. */
  predicate HoleOpen(open: string)
  {
    && |open| >= 2 && open[0] == '{' && open[1] == '{'
    && forall j :: 2 <= j < |open| ==> open[j] != '{' && open[j] != '}'
  }

  lemma OpenersAreHoleOpen()
    ensures HoleOpen("{{") && HoleOpen("{{this.") && HoleOpen("{{../") && HoleOpen(PartialOpen)
  {
    var t := "{{this.";
    assert t[2] == 't' && t[3] == 'h' && t[4] == 'i' && t[5] == 's' && t[6] == '.';
    var u := "{{../";
    assert u[2] == '.' && u[3] == '.' && u[4] == '/';
    assert PartialOpen[2] == '>';
  }

  /** The tag for the name `k` under the opener `open`. */
  function Hole(open: string, k: string): string
  {
    open + k + "}}"
  }

  lemma HoleChars(open: string, k: string)
    requires HoleOpen(open) && |k| > 0 && BraceFree(k)
    ensures var m := Hole(open, k);
      && |m| == |open| + |k| + 2
      && m[0] == '{' && m[1] == '{'
      && (forall j :: 2 <= j < |m| ==> m[j] != '{')
      && (forall j :: 2 <= j < |open| + |k| ==> m[j] != '}')
      && (forall d :: 0 <= d < |k| ==> m[|open| + d] == k[d])
      && m[|open| + |k|] == '}'
  {
    var m := Hole(open, k);
    assert forall j :: 0 <= j < |open| ==> m[j] == open[j];
    assert forall d :: 0 <= d < |k| ==> m[|open| + d] == k[d];
    assert m[|open| + |k|] == '}' && m[|open| + |k| + 1] == '}';
  }

  /** In plain text around one tag, a pattern that opens with `{{` can only occur at the placeholder. */
  lemma PatternOnlyAtHole(a: string, open: string, k: string, b: string, p: string)
    requires NoBrace(a) && NoBrace(b) && HoleOpen(open) && |k| > 0 && BraceFree(k)
    requires |p| >= 2 && p[0] == '{' && p[1] == '{'
    ensures forall i :: 0 <= i <= |a + Hole(open, k) + b| - |p| && i != |a| ==> !OccursAt(a + Hole(open, k) + b, p, i)
  {
    var m := Hole(open, k);
    var t := a + m + b;
    HoleChars(open, k);
    forall i | 0 <= i <= |t| - |p| && i != |a|
      ensures !OccursAt(t, p, i)
    {
      assert t[i..i + |p|][0] == t[i] && t[i..i + |p|][1] == t[i + 1];
      if i < |a| {
        assert t[i] == a[i];
      } else if i == |a| + 1 {
        assert t[i + 1] == m[2];
      } else if i < |a| + |m| {
        assert t[i] == m[i - |a|];
      } else {
        assert t[i] == b[i - |a| - |m|];
      }
    }
  }

  /** The placeholder of a different key does not match at the placeholder. */
  lemma OtherKeyNotAtHole(a: string, open: string, k: string, b: string, key: string)
    requires HoleOpen(open) && |k| > 0 && BraceFree(k) && |key| > 0 && BraceFree(key) && key != k
    ensures !OccursAt(a + Hole(open, k) + b, Hole(open, key), |a|)
  {
    var m := Hole(open, k);
    var p := Hole(open, key);
    var t := a + m + b;
    HoleChars(open, k);
    HoleChars(open, key);
    var o := |open|;
    if |a| + |p| <= |t| {
      var w := t[|a|..|a| + |p|];
      if |key| < |k| {
        assert w[o + |key|] == t[|a| + o + |key|] == m[o + |key|] != '}';
      } else if |key| > |k| {
        assert w[o + |k|] == t[|a| + o + |k|] == m[o + |k|] == '}';
        assert p[o + |k|] != '}';
      } else {
        var d :| 0 <= d < |k| && key[d] != k[d];
        assert w[o + d] == t[|a| + o + d] == m[o + d] == k[d];
        assert p[o + d] == key[d];
      }
    }
  }

  /** A placeholder whose key is not `key` survives the replace for `key`. */
  lemma OtherKeyAbsent(a: string, open: string, k: string, b: string, key: string)
    requires NoBrace(a) && NoBrace(b) && HoleOpen(open) && IsWord(k) && IsWord(key) && key != k
    ensures !Contains(a + Hole(open, k) + b, Hole(open, key))
  {
    HoleChars(open, key);
    PatternOnlyAtHole(a, open, k, b, Hole(open, key));
    OtherKeyNotAtHole(a, open, k, b, key);
  }

  lemma ReplaceHole(a: string, m: string, b: string, v: string)
    requires NoBrace(a) && NoBrace(b) && |m| > 0 && m[0] == '{'
    ensures ReplaceAll(a + m + b, m, v) == a + v + b
  {
    ConcatAssoc(a, m, b);
    ReplaceAllSkipsPlain(a, m + b, m, v);
    ReplaceAllFront(b, m, v);
    NoBraceNoTag(b, m);
    ReplaceAllAbsent(b, m, v);
  }

  /**
   * Substitution turns the one placeholder of a plain text into its key's
   * text, whatever the other keys are, provided that text brings no brace of
   * its own for a later key to match.
   */
  lemma {:induction false} SubstituteHole(a: string, open: string, k: string, b: string, source: Value, keys: seq<string>)
    requires NoBrace(a) && NoBrace(b) && HoleOpen(open) && IsWord(k)
    requires forall i :: 0 <= i < |keys| ==> IsWord(keys[i])
    requires k in keys && NoBrace(PlaceholderText(GetProperty(source, k)))
    ensures Substitute(a + Hole(open, k) + b, open, source, keys) == a + PlaceholderText(GetProperty(source, k)) + b
    decreases |keys|
  {
    var t := a + Hole(open, k) + b;
    var v := PlaceholderText(GetProperty(source, k));
    assert Hole(open, keys[0]) == open + keys[0] + "}}";
    if keys[0] == k {
      ReplaceHole(a, Hole(open, k), b, v);
      SubstituteNoBrace(a + v + b, open, source, keys[1..]);
    } else {
      OtherKeyAbsent(a, open, k, b, keys[0]);
      ReplaceAllAbsent(t, Hole(open, keys[0]), PlaceholderText(GetProperty(source, keys[0])));
      assert k in keys[1..];
      SubstituteHole(a, open, k, b, source, keys[1..]);
    }
  }

  lemma SubstituteHoleAlone(open: string, k: string, source: Value, keys: seq<string>)
    requires HoleOpen(open) && IsWord(k)
    requires forall i :: 0 <= i < |keys| ==> IsWord(keys[i])
    requires k in keys && NoBrace(PlaceholderText(GetProperty(source, k)))
    ensures Substitute(Hole(open, k), open, source, keys) == PlaceholderText(GetProperty(source, k))
  {
    var v := PlaceholderText(GetProperty(source, k));
    EmptyAround(Hole(open, k));
    SubstituteHole("", open, k, "", source, keys);
    EmptyAround(v);
  }

  /** A placeholder whose key is not among the keys is left in the text as it was. */
  lemma SubstituteKeepsUnknownHole(a: string, open: string, k: string, b: string, source: Value, keys: seq<string>)
    requires NoBrace(a) && NoBrace(b) && HoleOpen(open) && IsWord(k)
    requires forall i :: 0 <= i < |keys| ==> IsWord(keys[i])
    requires k !in keys
    ensures Substitute(a + Hole(open, k) + b, open, source, keys) == a + Hole(open, k) + b
  {
    forall i | 0 <= i < |keys|
      ensures !Contains(a + Hole(open, k) + b, open + keys[i] + "}}")
    {
      OtherKeyAbsent(a, open, k, b, keys[i]);
    }
    SubstituteAbsent(a + Hole(open, k) + b, open, source, keys);
  }

  // ---------------------------------------------------------------------------
  // Loops
  // ---------------------------------------------------------------------------

  /** `{{#each name}}body{{/each}}`. */
  function EachBlockText(name: string, body: string): string
  {
    EachOpen + " " + name + "}}" + body + EachClose
  }

  /** The body holds no `{{/each}}`, so the lazy pattern closes at the body's end. */
  predicate ClosesAtEnd(body: string)
  {
    IndexOf(body + EachClose, EachClose) == Some(|body|)
  }

  /** One differing character rules out an occurrence. */
  lemma MismatchAt(t: string, p: string, i: nat, d: nat)
    requires d < |p| && i + d < |t| && t[i + d] != p[d]
    ensures !OccursAt(t, p, i)
  {
    if i + |p| <= |t| {
      assert t[i..i + |p|][d] == t[i + d];
    }
  }

  /** The closing tag is found right after the body when it starts nowhere earlier. */
  lemma ClosesAtEndFrom(body: string)
    requires forall j :: 0 <= j < |body| ==> !OccursAt(body + EachClose, EachClose, j)
    ensures ClosesAtEnd(body)
  {
    OccursInConcat(body, EachClose, EachClose, 0);
    assert OccursAt(EachClose, EachClose, 0);
  }

  lemma PlainBodyClosesAtEnd(body: string)
    requires NoBrace(body)
    ensures ClosesAtEnd(body)
  {
    var t := body + EachClose;
    forall j | 0 <= j < |body|
      ensures !OccursAt(t, EachClose, j)
    {
      assert t[j] == body[j];
      MismatchAt(t, EachClose, j, 0);
    }
    ClosesAtEndFrom(body);
  }

  /** The opening tag of `{{#each name}}`, followed by anything, is read back as `name`. */
  lemma EachOpeningTag(name: string, rest: string)
    requires IsWord(name)
    ensures OpeningTag(EachOpen + " " + name + "}}" + rest, EachOpen, IsWordChar) == Some(Tag(name, 10 + |name|))
    ensures (EachOpen + " " + name + "}}" + rest)[10 + |name|..] == rest
  {
    var s := EachOpen + " " + name + "}}" + rest;
    var tail := "}}" + rest;
    assert s[..7] == EachOpen;
    assert s[7..] == " " + name + tail;
    SpaceThenName(s[7..], name, tail);
    assert s[8..] == name + "}}" + rest;
    NameThenClose(s[8..], name, rest, IsWordChar);
    assert s[8..8 + |name|] == name;
    assert s[8 + |name|..][..2] == "}}";
  }

  lemma EachBlockAtFromTag(s: string, t: Tag, r: string, e: nat, body: string, len: nat)
    requires OpeningTag(s, EachOpen, IsWordChar) == Some(t)
    requires s[t.length..] == r
    requires IndexOf(r, EachClose) == Some(e)
    requires r[..e] == body && len == t.length + e + |EachClose|
    ensures EachBlockAt(s) == Some(Block(t.name, body, len))
  {
  }

  /** The pieces the loop pattern inspects, for a loop whose body holds no closing tag. */
  lemma EachBlockParts(name: string, body: string, rest: string)
    requires IsWord(name) && ClosesAtEnd(body)
    ensures OpeningTag(EachBlockText(name, body) + rest, EachOpen, IsWordChar) == Some(Tag(name, 10 + |name|))
    ensures (EachBlockText(name, body) + rest)[10 + |name|..] == body + EachClose + rest
    ensures IndexOf(body + EachClose + rest, EachClose) == Some(|body|)
    ensures (body + EachClose + rest)[..|body|] == body
    ensures |EachBlockText(name, body)| == 10 + |name| + |body| + |EachClose|
  {
    var s := EachBlockText(name, body) + rest;
    var r := body + EachClose + rest;
    assert s == EachOpen + " " + name + "}}" + r;
    EachOpeningTag(name, r);
    IndexOfAppend(body + EachClose, rest, EachClose);
    assert r == (body + EachClose) + rest;
  }

  /** The loop pattern matches a loop whose body holds no closing tag, body and all. */
  lemma EachBlockAtBlock(name: string, body: string, rest: string)
    requires IsWord(name) && ClosesAtEnd(body)
    ensures EachBlockAt(EachBlockText(name, body) + rest) == Some(Block(name, body, |EachBlockText(name, body)|))
  {
    EachBlockParts(name, body, rest);
    EachBlockAtFromTag(EachBlockText(name, body) + rest, Tag(name, 10 + |name|), body + EachClose + rest,
      |body|, body, |EachBlockText(name, body)|);
  }

  lemma LoopPassAtBlock(s: string, b: Block, data: seq<Field>)
    requires EachBlockAt(s) == Some(b)
    ensures LoopPass(s, data) == LoopExpansion(b.name, b.body, data) + LoopPass(s[b.length..], data)
  {
  }

  /** A pass over plain text, a loop and more text puts the loop's expansion in its place. */
  lemma LoopPassBlock(a: string, name: string, body: string, x: string, data: seq<Field>)
    requires NoBrace(a) && IsWord(name) && ClosesAtEnd(body)
    ensures LoopPass(a + EachBlockText(name, body) + x, data) == a + LoopExpansion(name, body, data) + LoopPass(x, data)
  {
    var blk := EachBlockText(name, body);
    ConcatAssoc(a, blk, x);
    LoopPassSkips(a, blk + x, data);
    LoopPassBlockAtStart(name, body, x, data);
    var e := LoopExpansion(name, body, data);
    var t := LoopPass(x, data);
    ConcatAssoc(a, e, t);
  }

  lemma LoopPassBlockAtStart(name: string, body: string, x: string, data: seq<Field>)
    requires IsWord(name) && ClosesAtEnd(body)
    ensures LoopPass(EachBlockText(name, body) + x, data) == LoopExpansion(name, body, data) + LoopPass(x, data)
  {
    var blk := EachBlockText(name, body);
    EachBlockAtBlock(name, body, x);
    LoopPassAtBlock(blk + x, Block(name, body, |blk|), data);
    assert (blk + x)[|blk|..] == x;
  }

  /** `n` copies of `s`. */
  function Repeat(s: string, n: nat): string
    decreases n
  {
    if n == 0 then "" else s + Repeat(s, n - 1)
  }

  lemma RepeatNoBrace(s: string, n: nat)
    requires NoBrace(s)
    ensures NoBrace(Repeat(s, n))
    decreases n
  {
    if n > 0 {
      RepeatNoBrace(s, n - 1);
    }
  }

  /** A plain loop body is copied unchanged for every item. */
  lemma ExpandItemPlain(content: string, item: Value, data: seq<Field>)
    requires NoBrace(content)
    ensures ExpandItem(content, item, data) == content
  {
    SubstituteNoBrace(content, "{{this.", item, ObjectKeys(item));
    SubstituteNoBrace(content, "{{../", Obj(data), ObjectKeys(Obj(data)));
    NoBraceNoTag(content, IfOpen);
  }

  lemma {:induction false} ExpandItemsPlain(content: string, items: seq<Value>, data: seq<Field>)
    requires NoBrace(content)
    ensures ExpandItems(content, items, data) == Repeat(content, |items|)
    decreases |items|
  {
    if |items| > 0 {
      ExpandItemPlain(content, items[0], data);
      ExpandItemsPlain(content, items[1..], data);
    }
  }

  /** A template that is one loop whose body holds no closing tag. */
  lemma LoopAlone(name: string, body: string, data: seq<Field>)
    requires IsWord(name) && ClosesAtEnd(body)
    ensures LoopPass(EachBlockText(name, body), data) == LoopExpansion(name, body, data)
  {
    var t := EachBlockText(name, body);
    var e := LoopExpansion(name, body, data);
    LoopPassBlockAtStart(name, body, "", data);
    assert t + "" == t;
    assert LoopPass("", data) == "";
    assert e + "" == e;
  }

  lemma LoopPlainBody(name: string, body: string, data: seq<Field>)
    requires IsWord(name) && NoBrace(body)
    ensures LoopPass(EachBlockText(name, body), data)
         == if Lookup(data, name).Arr? then Repeat(body, |Lookup(data, name).items|) else ""
  {
    PlainBodyClosesAtEnd(body);
    LoopAlone(name, body, data);
    if Lookup(data, name).Arr? {
      ExpandItemsPlain(body, Lookup(data, name).items, data);
    }
  }

  /**
   * A loop with a plain body over an array renders the body once per item,
   * and over anything else renders nothing.
   */
  lemma LoopRepeatsPlainBody(a: string, name: string, body: string, x: string, data: seq<Field>)
    requires NoBrace(a) && IsWord(name) && NoBrace(body) && NoBrace(x)
    ensures LoopPass(a + EachBlockText(name, body) + x, data)
         == a + (if Lookup(data, name).Arr? then Repeat(body, |Lookup(data, name).items|) else "") + x
  {
    PlainBodyClosesAtEnd(body);
    LoopPassBlock(a, name, body, x, data);
    NoBraceNoTag(x, EachOpen);
    LoopPassUnchanged(x, data);
    if Lookup(data, name).Arr? {
      ExpandItemsPlain(body, Lookup(data, name).items, data);
    }
  }

  /** The keys of an object whose fields have plain keys are words. */
  lemma PlainObjectKeysAreWords(fs: seq<Field>)
    requires PlainFields(fs)
    ensures forall i :: 0 <= i < |ObjectKeys(Obj(fs))| ==> IsWord(ObjectKeys(Obj(fs))[i])
  {
    DistinctInOrderProps(FieldKeys(fs));
    var ks := ObjectKeys(Obj(fs));
    forall i | 0 <= i < |ks|
      ensures IsWord(ks[i])
    {
      assert ks[i] in FieldKeys(fs);
      var j :| 0 <= j < |fs| && FieldKeys(fs)[j] == ks[i];
      assert PlainKey(fs[j].key);
    }
  }

  /** Inside a loop, `{{this.k}}` becomes the item's field `k`. */
  lemma LoopItemField(k: string, fields: seq<Field>, data: seq<Field>)
    requires PlainFields(fields) && IsWord(k) && k in FieldKeys(fields)
    requires NoBrace(PlaceholderText(Lookup(fields, k)))
    ensures ExpandItem(Hole("{{this.", k), Obj(fields), data) == PlaceholderText(Lookup(fields, k))
  {
    var item := Obj(fields);
    var v := PlaceholderText(Lookup(fields, k));
    var keys := ObjectKeys(item);
    assert Substitute(Hole("{{this.", k), "{{this.", item, keys) == v by {
      PlainObjectKeysAreWords(fields);
      DistinctInOrderProps(FieldKeys(fields));
      assert k in keys;
      OpenersAreHoleOpen();
      assert GetProperty(item, k) == Lookup(fields, k);
      SubstituteHoleAlone("{{this.", k, item, keys);
    }
    assert Substitute(v, "{{../", Obj(data), ObjectKeys(Obj(data))) == v by {
      SubstituteNoBrace(v, "{{../", Obj(data), ObjectKeys(Obj(data)));
    }
    assert ProcessConditionals(v, ItemContext(item, data)) == v by {
      NoBraceNoTag(v, IfOpen);
      ConditionalsUnchanged(v, ItemContext(item, data));
    }
  }

  /** The item stage does not touch a `{{../k}}` placeholder. */
  lemma ItemStageSkipsParentHole(k: string, item: Value)
    requires IsWord(k)
    ensures Substitute(Hole("{{../", k), "{{this.", item, ObjectKeys(item)) == Hole("{{../", k)
  {
    var keys := ObjectKeys(item);
    forall i | 0 <= i < |keys|
      ensures !Contains(Hole("{{../", k), "{{this." + keys[i] + "}}")
    {
      ParentHoleLacksItemHole(k, keys[i]);
    }
    SubstituteAbsent(Hole("{{../", k), "{{this.", item, keys);
  }

  lemma ParentHoleLacksItemHole(k: string, key: string)
    requires IsWord(k)
    ensures !Contains(Hole("{{../", k), "{{this." + key + "}}")
  {
    var m := Hole("{{../", k);
    var p := "{{this." + key + "}}";
    EmptyAround(m);
    OpenersAreHoleOpen();
    HoleChars("{{../", k);
    PatternOnlyAtHole("", "{{../", k, "", p);
    MismatchAt(m, p, 0, 2);
  }

  /** Inside a loop, `{{../k}}` becomes the top-level field `k`, whatever the item holds. */
  lemma LoopParentField(k: string, item: Value, data: seq<Field>)
    requires PlainFields(data) && IsWord(k) && k in FieldKeys(data)
    requires NoBrace(PlaceholderText(Lookup(data, k)))
    ensures ExpandItem(Hole("{{../", k), item, data) == PlaceholderText(Lookup(data, k))
  {
    var m := Hole("{{../", k);
    var v := PlaceholderText(Lookup(data, k));
    ItemStageSkipsParentHole(k, item);
    assert Substitute(m, "{{../", Obj(data), ObjectKeys(Obj(data))) == v by {
      OpenersAreHoleOpen();
      PlainObjectKeysAreWords(data);
      DistinctInOrderProps(FieldKeys(data));
      assert k in ObjectKeys(Obj(data));
      assert GetProperty(Obj(data), k) == Lookup(data, k);
      SubstituteHoleAlone("{{../", k, Obj(data), ObjectKeys(Obj(data)));
    }
    assert ProcessConditionals(v, ItemContext(item, data)) == v by {
      NoBraceNoTag(v, IfOpen);
      ConditionalsUnchanged(v, ItemContext(item, data));
    }
  }

  // ---------------------------------------------------------------------------
  // Conditionals inside loops
  // ---------------------------------------------------------------------------

  /** `{{#each name}}`. */
  function EachTag(name: string): string
  {
    EachOpen + " " + name + "}}"
  }

  lemma EachTagChars(name: string)
    requires IsWord(name)
    ensures var u := EachTag(name);
      && |u| == 10 + |name|
      && u[0] == '{' && u[1] == '{' && u[2] == '#' && u[3] == 'e'
      && (forall j :: 2 <= j < |u| ==> u[j] != '{')
      && (forall j :: 3 <= j < |u| ==> u[j] != '#')
  {
    var u := EachTag(name);
    assert forall j :: 0 <= j < 7 ==> u[j] == EachOpen[j];
    assert u[7] == ' ';
    assert forall d :: 0 <= d < |name| ==> u[8 + d] == name[d];
    assert u[8 + |name|] == '}' && u[9 + |name|] == '}';
  }

  /** `{{#if cond}}`. */
  function IfTag(cond: string): string
  {
    IfOpen + " " + cond + "}}"
  }

  lemma IfTagChars(cond: string)
    requires IsPath(cond)
    ensures var h := IfTag(cond);
      && |h| == 8 + |cond|
      && h[0] == '{' && h[1] == '{' && h[2] == '#' && h[3] == 'i'
      && (forall j :: 2 <= j < |h| ==> h[j] != '{')
  {
    var h := IfTag(cond);
    assert forall j :: 0 <= j < 5 ==> h[j] == IfOpen[j];
    assert h[5] == ' ';
    assert forall d :: 0 <= d < |cond| ==> h[6 + d] == cond[d];
    assert h[6 + |cond|] == '}' && h[7 + |cond|] == '}';
  }

  lemma IfCloseChars()
    ensures |IfClose| == 7 && IfClose[0] == '{' && IfClose[1] == '{' && IfClose[2] == '/' && IfClose[3] == 'i'
    ensures forall j :: 2 <= j < |IfClose| ==> IfClose[j] != '{'
  {
  }

  lemma IfBlockChars(cond: string, body: string)
    requires IsPath(cond) && NoBrace(body)
    ensures var ib := IfBlockText(cond, body);
      && |ib| == |cond| + |body| + 15
      && ib[0] == '{' && ib[1] == '{' && ib[2] == '#' && ib[3] == 'i'
      && (forall j :: 2 <= j < |ib| - 7 ==> ib[j] != '{')
      && ib[|ib| - 7] == '{' && ib[|ib| - 6] == '{' && ib[|ib| - 5] == '/' && ib[|ib| - 4] == 'i'
      && (forall j :: |ib| - 5 <= j < |ib| ==> ib[j] != '{')
  {
    var h := IfTag(cond);
    var ib := IfBlockText(cond, body);
    assert ib == h + body + IfClose;
    IfTagChars(cond);
    IfCloseChars();
    var n := |h| + |body|;
    assert forall j :: 0 <= j < |h| ==> ib[j] == h[j];
    assert forall j :: |h| <= j < n ==> ib[j] == body[j - |h|];
    assert forall j :: n <= j < |ib| ==> ib[j] == IfClose[j - n];
  }

  lemma EachCloseChars()
    ensures |EachClose| == 9 && EachClose[0] == '{' && EachClose[1] == '{' && EachClose[2] == '/' && EachClose[3] == 'e'
    ensures forall j :: 2 <= j < |EachClose| ==> EachClose[j] != '{' && EachClose[j] != '#'
  {
  }

  lemma EachCloseHasNoIf()
    ensures !Contains(EachClose, IfOpen)
  {
    EachCloseChars();
    assert IfOpen[2] == '#';
    AbsentCharNoOccurrence(EachClose, IfOpen, 2);
  }

  lemma IfPassNoMatchStep(c: char, rest: string, data: Value)
    requires !StartsWith([c] + rest, IfOpen)
    ensures IfPass([c] + rest, data) == [c] + IfPass(rest, data)
  {
    assert ([c] + rest)[1..] == rest;
  }

  /** A prefix in which no `{{#if` starts, even one running past its end, is copied by a pass. */
  lemma {:induction false} IfPassSkipsPrefix(a: string, x: string, data: Value)
    requires forall j :: 0 <= j < |a| ==> !OccursAt(a + x, IfOpen, j)
    ensures IfPass(a + x, data) == a + IfPass(x, data)
    decreases |a|
  {
    if |a| > 0 {
      IfPassNoMatchFront(a, x, data);
      NoMatchInTail(a, x, IfOpen);
      IfPassSkipsPrefix(a[1..], x, data);
      ConsJoin(a, IfPass(x, data));
    } else {
      assert a + x == x;
    }
  }

  lemma IfPassNoMatchFront(a: string, x: string, data: Value)
    requires |a| > 0 && !OccursAt(a + x, IfOpen, 0)
    ensures IfPass(a + x, data) == [a[0]] + IfPass(a[1..] + x, data)
  {
    ConsSplit(a, x);
    StartsWithOccursAt(a + x, IfOpen);
    IfPassNoMatchStep(a[0], a[1..] + x, data);
  }

  lemma NoMatchInTail(a: string, x: string, p: string)
    requires |a| > 0 && forall j :: 0 <= j < |a| ==> !OccursAt(a + x, p, j)
    ensures forall j :: 0 <= j < |a[1..]| ==> !OccursAt(a[1..] + x, p, j)
  {
    assert (a + x)[1..] == a[1..] + x;
    forall j | 0 <= j < |a[1..]|
      ensures !OccursAt(a[1..] + x, p, j)
    {
      OccursInSuffix(a + x, p, 1, j);
    }
  }

  /** No `{{#if` starts inside a loop's opening tag when a tag follows it. */
  lemma EachTagHidesNoIf(name: string, y: string)
    requires IsWord(name) && |y| >= 2 && y[0] == '{' && y[1] == '{'
    ensures forall j :: 0 <= j < |EachTag(name)| ==> !OccursAt(EachTag(name) + y, IfOpen, j)
  {
    var u := EachTag(name);
    var t := u + y;
    EachTagChars(name);
    forall j | 0 <= j < |u|
      ensures !OccursAt(t, IfOpen, j)
    {
      if j == 0 {
        assert t[3] == u[3];
        MismatchAt(t, IfOpen, 0, 3);
      } else if j + 2 < |u| {
        assert t[j + 2] == u[j + 2];
        MismatchAt(t, IfOpen, j, 2);
      } else {
        assert t[j + 2] == y[j + 2 - |u|];
        MismatchAt(t, IfOpen, j, 2);
      }
    }
  }

  /** A loop around plain text has no `{{#if` at all. */
  lemma PlainLoopHasNoIf(name: string, kept: string)
    requires IsWord(name) && NoBrace(kept)
    ensures !Contains(EachBlockText(name, kept), IfOpen)
  {
    var u := EachTag(name);
    var t := EachBlockText(name, kept);
    assert t == u + kept + EachClose;
    EachTagChars(name);
    EachCloseChars();
    var c := |u| + |kept|;
    forall j | 0 <= j <= |t| - |IfOpen|
      ensures !OccursAt(t, IfOpen, j)
    {
      if j == 0 {
        assert t[3] == u[3];
        MismatchAt(t, IfOpen, 0, 3);
      } else if j == 1 {
        assert t[2] == u[2];
        MismatchAt(t, IfOpen, 1, 1);
      } else if j < |u| {
        assert t[j] == u[j];
        MismatchAt(t, IfOpen, j, 0);
      } else if j < c {
        assert t[j] == kept[j - |u|];
        MismatchAt(t, IfOpen, j, 0);
      } else if j == c {
        assert t[j + 2] == EachClose[2];
        MismatchAt(t, IfOpen, j, 2);
      } else if j == c + 1 {
        assert t[j + 1] == EachClose[2];
        MismatchAt(t, IfOpen, j, 1);
      } else {
        assert t[j] == EachClose[j - c];
        MismatchAt(t, IfOpen, j, 0);
      }
    }
  }

  lemma EachBlockTextSplit(name: string, body: string)
    ensures EachBlockText(name, body) == EachTag(name) + (body + EachClose)
  {
  }

  lemma IfBlockTextSplit(cond: string, body: string)
    ensures IfBlockText(cond, body) == IfTag(cond) + (body + IfClose)
  {
  }

  /** A pass over an innermost conditional at the very start. */
  lemma IfPassBlockAtStart(cond: string, body: string, x: string, data: Value)
    requires IsPath(cond) && InnermostBody(body)
    ensures IfPass(IfBlockText(cond, body) + x, data)
         == (if Truthy(NestedValue(data, cond)) then body else "") + IfPass(x, data)
  {
    var blk := IfBlockText(cond, body);
    IfBlockAtBlock(cond, body, x);
    IfPassAtBlock(blk + x, Block(cond, body, |blk|), data);
    assert (blk + x)[|blk|..] == x;
  }

  lemma IfPassAtBlock(s: string, b: Block, data: Value)
    requires IfBlockAt(s) == Some(b)
    ensures IfPass(s, data) == (if Truthy(NestedValue(data, b.name)) then b.body else "") + IfPass(s[b.length..], data)
  {
  }

  lemma IfPassInsideLoop(name: string, cond: string, body: string, data: Value)
    requires IsWord(name) && IsPath(cond) && NoBrace(body)
    ensures IfPass(EachBlockText(name, IfBlockText(cond, body)), data)
         == EachBlockText(name, if Truthy(NestedValue(data, cond)) then body else "")
  {
    var u := EachTag(name);
    var ib := IfBlockText(cond, body);
    var kept := if Truthy(NestedValue(data, cond)) then body else "";
    var y := ib + EachClose;
    EachBlockTextSplit(name, ib);
    EachBlockTextSplit(name, kept);
    assert |y| >= 2 && y[0] == '{' && y[1] == '{' by {
      IfBlockChars(cond, body);
    }
    EachTagHidesNoIf(name, y);
    IfPassSkipsPrefix(u, y, data);
    assert IfPass(y, data) == kept + EachClose by {
      PlainBodyInnermost(body);
      IfPassBlockAtStart(cond, body, EachClose, data);
      EachCloseHasNoIf();
      IfPassUnchanged(EachClose, data);
    }
  }

  /** The conditional stage over a loop whose body is one conditional with a plain body. */
  lemma ConditionalsInsideLoop(name: string, cond: string, body: string, data: Value)
    requires IsWord(name) && IsPath(cond) && NoBrace(body)
    ensures ProcessConditionals(EachBlockText(name, IfBlockText(cond, body)), data)
         == EachBlockText(name, if Truthy(NestedValue(data, cond)) then body else "")
  {
    var u := EachTag(name);
    var ib := IfBlockText(cond, body);
    var t := EachBlockText(name, ib);
    var kept := if Truthy(NestedValue(data, cond)) then body else "";
    var out := EachBlockText(name, kept);
    assert IfPass(t, data) == out by {
      IfPassInsideLoop(name, cond, body, data);
    }
    assert OccursAt(t, IfOpen, |u|) by {
      EachBlockTextSplit(name, ib);
      assert t == u + ib + EachClose;
      IfBlockOccurs(u, cond, body, EachClose);
    }
    assert !Contains(out, IfOpen) by {
      PlainLoopHasNoIf(name, kept);
    }
    ConditionalsSettle(t, data, |u|, out);
  }

  /**
   * As the source orders its stages, a conditional inside a loop is decided
   * once, against the top-level data, before the loop runs: every item gets
   * the same outcome, and `this.` in the condition names a top-level field.
   */
  lemma IfInsideLoopSeesTopLevel(name: string, cond: string, body: string, data: seq<Field>)
    requires IsWord(name) && IsPath(cond) && NoBrace(body)
    ensures BindBlocks(EachBlockText(name, IfBlockText(cond, body)), data)
         == if Lookup(data, name).Arr?
            then Repeat(if Truthy(NestedValue(Obj(data), cond)) then body else "", |Lookup(data, name).items|)
            else ""
  {
    var kept := if Truthy(NestedValue(Obj(data), cond)) then body else "";
    ConditionalsInsideLoop(name, cond, body, Obj(data));
    LoopPlainBody(name, kept, data);
  }

  /** What each item contributes when a loop's body is one conditional: the body, if the item's context makes the condition truthy. */
  function PerItem(cond: string, body: string, items: seq<Value>, data: seq<Field>): string
    decreases |items|
  {
    if |items| == 0 then ""
    else (if Truthy(NestedValue(ItemContext(items[0], data), cond)) then body else "") + PerItem(cond, body, items[1..], data)
  }

  lemma {:induction false} PerItemNoBrace(cond: string, body: string, items: seq<Value>, data: seq<Field>)
    requires NoBrace(body)
    ensures NoBrace(PerItem(cond, body, items, data))
    decreases |items|
  {
    if |items| > 0 {
      PerItemNoBrace(cond, body, items[1..], data);
    }
  }

  /** A conditional holds no placeholder of the loop stages: `{{this.` and `{{../` never match in it. */
  lemma IfBlockHasNoItemHole(cond: string, body: string, p: string)
    requires IsPath(cond) && NoBrace(body)
    requires |p| >= 3 && p[0] == '{' && p[1] == '{' && p[2] != '#' && p[2] != '/'
    ensures !Contains(IfBlockText(cond, body), p)
  {
    var ib := IfBlockText(cond, body);
    IfBlockChars(cond, body);
    var n := |ib|;
    forall j | 0 <= j <= n - |p|
      ensures !OccursAt(ib, p, j)
    {
      if j == 0 || j == n - 7 {
        MismatchAt(ib, p, j, 2);
      } else if j == 1 || j == n - 6 {
        MismatchAt(ib, p, j, 1);
      } else {
        MismatchAt(ib, p, j, 0);
      }
    }
  }

  lemma ExpandItemConditional(cond: string, body: string, item: Value, data: seq<Field>)
    requires IsPath(cond) && NoBrace(body)
    ensures ExpandItem(IfBlockText(cond, body), item, data)
         == if Truthy(NestedValue(ItemContext(item, data), cond)) then body else ""
  {
    var ib := IfBlockText(cond, body);
    var ik := ObjectKeys(item);
    var dk := ObjectKeys(Obj(data));
    forall i | 0 <= i < |ik|
      ensures !Contains(ib, "{{this." + ik[i] + "}}")
    {
      IfBlockHasNoItemHole(cond, body, "{{this." + ik[i] + "}}");
    }
    SubstituteAbsent(ib, "{{this.", item, ik);
    forall i | 0 <= i < |dk|
      ensures !Contains(ib, "{{../" + dk[i] + "}}")
    {
      IfBlockHasNoItemHole(cond, body, "{{../" + dk[i] + "}}");
    }
    SubstituteAbsent(ib, "{{../", Obj(data), dk);
    ConditionalAlone(cond, body, ItemContext(item, data));
  }

  /** A template that is one conditional with a plain body. */
  lemma ConditionalAlone(cond: string, body: string, data: Value)
    requires IsPath(cond) && NoBrace(body)
    ensures ProcessConditionals(IfBlockText(cond, body), data)
         == if Truthy(NestedValue(data, cond)) then body else ""
  {
    var ib := IfBlockText(cond, body);
    var kept := if Truthy(NestedValue(data, cond)) then body else "";
    assert IfPass(ib, data) == kept by {
      PlainBodyInnermost(body);
      IfPassBlockAtStart(cond, body, "", data);
      assert ib + "" == ib;
      assert kept + "" == kept;
    }
    assert OccursAt(ib, IfOpen, 0) by {
      assert ib[..5] == IfOpen;
    }
    assert !Contains(kept, IfOpen) by {
      NoBraceNoTag(kept, IfOpen);
    }
    ConditionalsSettle(ib, data, 0, kept);
  }

  lemma {:induction false} ExpandItemsConditional(cond: string, body: string, items: seq<Value>, data: seq<Field>)
    requires IsPath(cond) && NoBrace(body)
    ensures ExpandItems(IfBlockText(cond, body), items, data) == PerItem(cond, body, items, data)
    decreases |items|
  {
    if |items| > 0 {
      ExpandItemConditional(cond, body, items[0], data);
      ExpandItemsConditional(cond, body, items[1..], data);
    }
  }

  /** A conditional's text ends the lazy loop body only at the loop's own closing tag. */
  lemma IfBlockClosesAtEnd(cond: string, body: string)
    requires IsPath(cond) && NoBrace(body)
    ensures ClosesAtEnd(IfBlockText(cond, body))
  {
    IfBlockNoEarlyEachClose(cond, body);
    ClosesAtEndFrom(IfBlockText(cond, body));
  }

  lemma IfBlockNoEarlyEachClose(cond: string, body: string)
    requires IsPath(cond) && NoBrace(body)
    ensures forall j :: 0 <= j < |IfBlockText(cond, body)| ==> !OccursAt(IfBlockText(cond, body) + EachClose, EachClose, j)
  {
    var ib := IfBlockText(cond, body);
    var t := ib + EachClose;
    var n := |ib|;
    IfBlockChars(cond, body);
    EachCloseChars();
    forall j | 0 <= j < n
      ensures !OccursAt(t, EachClose, j)
    {
      assert t[j] == ib[j];
      if j == 0 {
        assert t[2] == ib[2];
        MismatchAt(t, EachClose, 0, 2);
      } else if j == 1 {
        assert t[2] == ib[2];
        MismatchAt(t, EachClose, 1, 1);
      } else if j == n - 7 {
        assert t[j + 3] == ib[n - 4];
        MismatchAt(t, EachClose, j, 3);
      } else if j == n - 6 {
        assert t[j + 1] == ib[n - 5];
        MismatchAt(t, EachClose, j, 1);
      } else {
        MismatchAt(t, EachClose, j, 0);
      }
    }
  }

  /**
   * With loops expanded first, a conditional inside a loop is decided per
   * item, against the item's fields merged with the top-level data.
   */
  lemma IfInsideLoopSeesItem(name: string, cond: string, body: string, data: seq<Field>)
    requires IsWord(name) && IsPath(cond) && NoBrace(body)
    ensures BindBlocksLoopsFirst(EachBlockText(name, IfBlockText(cond, body)), data)
         == if Lookup(data, name).Arr? then PerItem(cond, body, Lookup(data, name).items, data) else ""
  {
    var ib := IfBlockText(cond, body);
    var out := if Lookup(data, name).Arr? then PerItem(cond, body, Lookup(data, name).items, data) else "";
    assert LoopPass(EachBlockText(name, ib), data) == out by {
      IfBlockClosesAtEnd(cond, body);
      LoopAlone(name, ib, data);
      if Lookup(data, name).Arr? {
        ExpandItemsConditional(cond, body, Lookup(data, name).items, data);
      }
    }
    assert NoBrace(out) by {
      if Lookup(data, name).Arr? {
        PerItemNoBrace(cond, body, Lookup(data, name).items, data);
      }
    }
    ConditionalsPlain(out, Obj(data));
  }

  lemma ConditionalsPlain(s: string, data: Value)
    requires NoBrace(s)
    ensures ProcessConditionals(s, data) == s
  {
    NoBraceNoTag(s, IfOpen);
    ConditionalsUnchanged(s, data);
  }

  /** The loop item, data and template of the smallest example that tells the two stage orders apart. */
  const FlagItem := Obj([Field("flag", Bool(true))])
  const FlagData := [Field("items", Arr([FlagItem]))]
  const FlagCondition := "this.flag"

  lemma FlagExampleShape()
    ensures IsWord("items") && IsPath(FlagCondition) && NoBrace("X")
    ensures Lookup(FlagData, "items") == Arr([FlagItem])
    ensures SplitOn("flag", '.') == ["flag"]
    ensures FlagCondition == "this." + "flag"
  {
    assert IsWord("items") by {
      var w := "items";
      assert w[0] == 'i' && w[1] == 't' && w[2] == 'e' && w[3] == 'm' && w[4] == 's';
    }
    assert IsPath(FlagCondition) by {
      var c := FlagCondition;
      assert c[0] == 't' && c[1] == 'h' && c[2] == 'i' && c[3] == 's' && c[4] == '.';
      assert c[5] == 'f' && c[6] == 'l' && c[7] == 'a' && c[8] == 'g';
    }
    assert SplitOn("flag", '.') == ["flag"] by {
      var f := "flag";
      assert f[0] == 'f' && f[1] == 'l' && f[2] == 'a' && f[3] == 'g';
      SplitOnAbsent(f, '.');
    }
    assert Lookup(FlagData, "items") == Arr([FlagItem]);
    assert FlagCondition == "this." + "flag";
  }

  lemma FlagNotTopKey()
    ensures "flag" !in FieldKeys(FlagData)
  {
    assert FieldKeys(FlagData) == ["items"];
    assert "flag"[0] != "items"[0];
  }

  lemma FlagAbsentAtTop()
    ensures NestedValue(Obj(FlagData), FlagCondition) == Bool(false)
  {
    var top := Obj(FlagData);
    assert GetProperty(top, "flag") == Undefined by {
      FlagNotTopKey();
    }
    assert NestedValue(top, FlagCondition) == Walk(top, ["flag"]) by {
      FlagExampleShape();
      NestedStripsOneThis(top, "flag");
    }
  }

  lemma FlagSetOnItem()
    ensures NestedValue(ItemContext(FlagItem, FlagData), FlagCondition) == Bool(true)
  {
    var ctx := ItemContext(FlagItem, FlagData);
    assert GetProperty(ctx, "flag") == Bool(true) by {
      FlagNotTopKey();
      LookupSpread(OwnFields(FlagItem), FlagData, "flag");
    }
    assert NestedValue(ctx, FlagCondition) == Walk(ctx, ["flag"]) by {
      FlagExampleShape();
      NestedStripsOneThis(ctx, "flag");
    }
    assert Walk(ctx, ["flag"]) == Walk(Bool(true), []);
  }

  /** As written: a loop item whose `flag` is true still renders nothing, since the top-level data has no `flag`. */
  lemma ItemConditionalAsWritten(t: string, data: seq<Field>)
    requires t == EachBlockText("items", IfBlockText(FlagCondition, "X")) && data == FlagData
    ensures BindBlocks(t, data) == ""
  {
    FlagExampleShape();
    FlagAbsentAtTop();
    IfInsideLoopSeesTopLevel("items", FlagCondition, "X", data);
    assert Repeat("", 1) == "";
  }

  /** With loops first, the same template renders the item's body. */
  lemma ItemConditionalLoopsFirst(t: string, data: seq<Field>)
    requires t == EachBlockText("items", IfBlockText(FlagCondition, "X")) && data == FlagData
    ensures BindBlocksLoopsFirst(t, data) == "X"
  {
    FlagExampleShape();
    FlagSetOnItem();
    IfInsideLoopSeesItem("items", FlagCondition, "X", data);
    var items := [FlagItem];
    assert PerItem(FlagCondition, "X", items, data) == "X" + PerItem(FlagCondition, "X", items[1..], data);
    assert items[1..] == [];
  }

  // ---------------------------------------------------------------------------
  // Whole renders
  // ---------------------------------------------------------------------------

  /** A text without `{{#each` has no loop to throw in. */
  lemma {:induction false} NoLoopNoThrow(s: string, data: seq<Field>)
    requires !Contains(s, EachOpen)
    ensures !LoopsThrow(s, data)
    decreases |s|
  {
    if |s| > 0 {
      StartsWithOccursAt(s, EachOpen);
      assert EachBlockAt(s).None?;
      NotContainsSuffix(s, EachOpen, 1);
      NoLoopNoThrow(s[1..], data);
    }
  }

  /**
   * A conditional on a name the data object does not hold keeps its body
   * exactly when the name is one every object inherits, such as
   * `constructor` or `toString`.
   */
  lemma AbsentConditionKeptIffInherited(cond: string, body: string, data: seq<Field>)
    requires IsWord(cond) && cond !in FieldKeys(data) && NoBrace(body)
    ensures ProcessConditionals(IfBlockText(cond, body), Obj(data)) == if cond in ObjectPrototypeNames then body else ""
  {
    assert !StartsWith(cond, "this.") by {
      if |cond| >= 5 {
        assert IsWordChar(cond[4]);
      }
    }
    NestedPlainName(data, cond);
    ConditionalAlone(cond, body, Obj(data));
  }

  /** A loop around plain text has no stylesheet slot. */
  lemma PlainLoopHasNoCss(name: string, kept: string)
    requires IsWord(name) && NoBrace(kept)
    ensures !Contains(EachBlockText(name, kept), CssPlaceholder)
  {
    var u := EachTag(name);
    var t := EachBlockText(name, kept);
    assert t == u + kept + EachClose;
    EachTagChars(name);
    EachCloseChars();
    var c := |u| + |kept|;
    forall j | 0 <= j <= |t| - |CssPlaceholder|
      ensures !OccursAt(t, CssPlaceholder, j)
    {
      if j == 0 {
        assert t[2] == u[2];
        MismatchAt(t, CssPlaceholder, 0, 2);
      } else if j == 1 {
        assert t[2] == u[2];
        MismatchAt(t, CssPlaceholder, 1, 1);
      } else if j < |u| {
        assert t[j] == u[j];
        MismatchAt(t, CssPlaceholder, j, 0);
      } else if j < c {
        assert t[j] == kept[j - |u|];
        MismatchAt(t, CssPlaceholder, j, 0);
      } else if j == c {
        assert t[j + 2] == EachClose[2];
        MismatchAt(t, CssPlaceholder, j, 2);
      } else if j == c + 1 {
        assert t[j + 1] == EachClose[2];
        MismatchAt(t, CssPlaceholder, j, 1);
      } else {
        assert t[j] == EachClose[j - c];
        MismatchAt(t, CssPlaceholder, j, 0);
      }
    }
  }

  /** `{title: "a", xs: [null]}`. */
  function NullItemData(): seq<Field>
  {
    [Field("title", Str("a")), Field("xs", Arr([Null]))]
  }

  lemma NullItemDataPlain()
    ensures PlainFields(NullItemData()) && PlainItems(NullItemData()) && HasNullishItem(NullItemData())
    ensures Lookup(NullItemData(), "xs") == Arr([Null])
  {
    var d := NullItemData();
    var t := "title";
    var x := "xs";
    assert t[0] == 't' && t[1] == 'i' && t[2] == 't' && t[3] == 'l' && t[4] == 'e';
    assert x[0] == 'x' && x[1] == 's';
    assert !IsDigit(t[0]) && !IsDigit(x[0]);
    assert PlaceholderText(Arr([Null])) == JoinWith([""], ',') == "";
    assert d[1].value.Arr? && Nullish(d[1].value.items[0]);
  }

  /**
   * Data whose array holds `null` is accepted by `render`, and by
   * `renderAdvanced` as long as no loop runs over that array; a page that
   * loops over it makes `renderAdvanced` throw.
   */
  lemma NullLoopItemThrows(files: TemplateFiles, name: string, cssFiles: seq<string>, body: string)
    requires name in files.html && files.html[name] == EachBlockText("xs", body) && NoBrace(body)
    requires NoDollar(Styles(files, cssFiles))
    ensures PlainFields(NullItemData()) && PlainItems(NullItemData())
    ensures RenderAdvanced(files, name, NullItemData(), cssFiles) == LoopItemTypeError
  {
    var data := NullItemData();
    NullItemDataPlain();
    var x := "xs";
    assert x[0] == 'x' && x[1] == 's';
    assert IsWord("xs");
    var t := EachBlockText("xs", body);
    PlainLoopHasNoCss("xs", body);
    assert WithStyles(files, name, cssFiles) == t;
    PlainLoopHasNoIf("xs", body);
    ConditionalsUnchanged(t, Obj(data));
    PlainBodyClosesAtEnd(body);
    EachBlockAtBlock("xs", body, "");
    assert t + "" == t;
    assert LoopItemThrows("xs", data) by {
      assert Lookup(data, "xs").items[0] == Null;
    }
  }

  /**
   * Without conditionals or loops, `renderAdvanced` produces the page that
   * `render` does, even for data whose arrays hold `null`.
   */
  lemma RenderAdvancedAgreesWithRender(files: TemplateFiles, name: string, data: seq<Field>, cssFiles: seq<string>)
    requires PlainFields(data) && PlainItems(data) && NoDollar(Styles(files, cssFiles))
    requires !Contains(WithStyles(files, name, cssFiles), IfOpen) && !Contains(WithStyles(files, name, cssFiles), EachOpen)
    ensures RenderAdvanced(files, name, data, cssFiles) == Page(Render(files, name, data, cssFiles))
  {
    var t := WithStyles(files, name, cssFiles);
    ConditionalsUnchanged(t, Obj(data));
    LoopPassUnchanged(t, data);
    NoLoopNoThrow(t, data);
  }

  /** Only the first `{{CSS}}` receives the stylesheets; a later one is left as it is. */
  lemma StylesAtFirstCss(files: TemplateFiles, name: string, cssFiles: seq<string>, a: string, b: string)
    requires name in files.html && files.html[name] == a + CssPlaceholder + b && NoBrace(a)
    ensures WithStyles(files, name, cssFiles) == a + Styles(files, cssFiles) + b
  {
    var t := a + CssPlaceholder + b;
    OccursInConcat(a, CssPlaceholder + b, CssPlaceholder, 0);
    assert (CssPlaceholder + b)[..|CssPlaceholder|] == CssPlaceholder;
    assert t == a + (CssPlaceholder + b);
    forall j | 0 <= j < |a|
      ensures !OccursAt(t, CssPlaceholder, j)
    {
      assert t[j] == a[j];
      MismatchAt(t, CssPlaceholder, j, 0);
    }
    assert IndexOf(t, CssPlaceholder) == Some(|a|);
    assert t[..|a|] == a;
    assert t[|a| + |CssPlaceholder|..] == b;
  }

  lemma CssIsAHole()
    ensures CssPlaceholder == Hole("{{", "CSS") && IsWord("CSS")
  {
    var c := "CSS";
    assert c[0] == 'C' && c[1] == 'S' && c[2] == 'S';
  }

  /** The template's text when it holds no `{{CSS}}`. */
  lemma WithStylesNoCss(files: TemplateFiles, name: string, cssFiles: seq<string>)
    requires name in files.html && !Contains(files.html[name], CssPlaceholder)
    ensures WithStyles(files, name, cssFiles) == files.html[name]
  {
  }

  /** `render` as its three stages: styles, placeholders, partials. */
  lemma RenderStages(files: TemplateFiles, name: string, data: seq<Field>, cssFiles: seq<string>, t: string, u: string, out: string)
    requires PlainFields(data) && NoDollar(Styles(files, cssFiles))
    requires WithStyles(files, name, cssFiles) == t
    requires Substitute(t, "{{", Obj(data), ObjectKeys(Obj(data))) == u
    requires PartialPass(u, files.partials) == out
    ensures Render(files, name, data, cssFiles) == out
  {
  }

  /** A page holding one placeholder of a word key and otherwise plain text has no stylesheet slot unless the key is `CSS`. */
  lemma HolePageKeepsStyles(files: TemplateFiles, name: string, cssFiles: seq<string>, a: string, k: string, b: string)
    requires name in files.html && files.html[name] == a + Hole("{{", k) + b
    requires NoBrace(a) && NoBrace(b) && IsWord(k) && k != "CSS"
    ensures WithStyles(files, name, cssFiles) == a + Hole("{{", k) + b
  {
    OpenersAreHoleOpen();
    CssIsAHole();
    OtherKeyAbsent(a, "{{", k, b, "CSS");
    WithStylesNoCss(files, name, cssFiles);
  }

  /**
   * `render` over plain text around one placeholder of a data key puts the
   * key's text in its place, provided that text brings no brace.
   */
  lemma RenderFillsPlaceholder(files: TemplateFiles, name: string, data: seq<Field>, cssFiles: seq<string>, a: string, k: string, b: string)
    requires PlainFields(data) && NoDollar(Styles(files, cssFiles))
    requires name in files.html && files.html[name] == a + Hole("{{", k) + b
    requires NoBrace(a) && NoBrace(b) && IsWord(k) && k != "CSS"
    requires k in FieldKeys(data) && NoBrace(PlaceholderText(Lookup(data, k)))
    ensures Render(files, name, data, cssFiles) == a + PlaceholderText(Lookup(data, k)) + b
  {
    var t := a + Hole("{{", k) + b;
    var u := a + PlaceholderText(Lookup(data, k)) + b;
    HolePageKeepsStyles(files, name, cssFiles, a, k, b);
    FillDataHole(data, a, k, b);
    NoBraceJoin(a, PlaceholderText(Lookup(data, k)), b);
    PartialPassPlain(u, files.partials);
    RenderStages(files, name, data, cssFiles, t, u, u);
  }

  /** The placeholder stage over the whole data fills one hole of a data key. */
  lemma FillDataHole(data: seq<Field>, a: string, k: string, b: string)
    requires PlainFields(data) && NoBrace(a) && NoBrace(b) && IsWord(k)
    requires k in FieldKeys(data) && NoBrace(PlaceholderText(Lookup(data, k)))
    ensures Substitute(a + Hole("{{", k) + b, "{{", Obj(data), ObjectKeys(Obj(data)))
         == a + PlaceholderText(Lookup(data, k)) + b
  {
    OpenersAreHoleOpen();
    PlainObjectKeysAreWords(data);
    DistinctInOrderProps(FieldKeys(data));
    assert k in ObjectKeys(Obj(data));
    assert GetProperty(Obj(data), k) == Lookup(data, k);
    SubstituteHole(a, "{{", k, b, Obj(data), ObjectKeys(Obj(data)));
  }

  lemma PartialPassPlain(u: string, partials: map<string, string>)
    requires NoBrace(u)
    ensures PartialPass(u, partials) == u
  {
    NoBraceNoTag(u, PartialOpen);
    PartialPassUnchanged(u, partials);
  }

  /** A placeholder whose key the data lacks is left in the page verbatim. */
  lemma RenderKeepsUnknownPlaceholder(files: TemplateFiles, name: string, data: seq<Field>, cssFiles: seq<string>, a: string, k: string, b: string)
    requires PlainFields(data) && NoDollar(Styles(files, cssFiles))
    requires name in files.html && files.html[name] == a + Hole("{{", k) + b
    requires NoBrace(a) && NoBrace(b) && IsWord(k) && k != "CSS" && k !in FieldKeys(data)
    ensures Render(files, name, data, cssFiles) == a + Hole("{{", k) + b
  {
    var t := a + Hole("{{", k) + b;
    HolePageKeepsStyles(files, name, cssFiles, a, k, b);
    KeepDataHole(data, a, k, b);
    PartialPassSkipsHole(a, k, b, files.partials);
    RenderStages(files, name, data, cssFiles, t, t, t);
  }

  /** The placeholder stage over the whole data leaves a hole of a missing key. */
  lemma KeepDataHole(data: seq<Field>, a: string, k: string, b: string)
    requires PlainFields(data) && NoBrace(a) && NoBrace(b) && IsWord(k) && k !in FieldKeys(data)
    ensures Substitute(a + Hole("{{", k) + b, "{{", Obj(data), ObjectKeys(Obj(data))) == a + Hole("{{", k) + b
  {
    OpenersAreHoleOpen();
    PlainObjectKeysAreWords(data);
    DistinctInOrderProps(FieldKeys(data));
    SubstituteKeepsUnknownHole(a, "{{", k, b, Obj(data), ObjectKeys(Obj(data)));
  }

  /** The partial stage leaves a placeholder hole alone. */
  lemma PartialPassSkipsHole(a: string, k: string, b: string, partials: map<string, string>)
    requires NoBrace(a) && NoBrace(b) && IsWord(k)
    ensures PartialPass(a + Hole("{{", k) + b, partials) == a + Hole("{{", k) + b
  {
    var t := a + Hole("{{", k) + b;
    OpenersAreHoleOpen();
    HoleChars("{{", k);
    assert PartialOpen[0] == '{' && PartialOpen[1] == '{' && PartialOpen[2] == '>';
    PatternOnlyAtHole(a, "{{", k, b, PartialOpen);
    assert t[|a| + 2] == k[0];
    MismatchAt(t, PartialOpen, |a|, 2);
    PartialPassUnchanged(t, partials);
  }

  predicate IsPartialName(p: string)
  {
    |p| > 0 && forall j :: 0 <= j < |p| ==> IsPartialChar(p[j])
  }

  lemma PartialAtTag(p: string, rest: string)
    requires IsPartialName(p)
    ensures PartialAt(Hole(PartialOpen, p) + rest) == Some(Block(p, "", |p| + 5))
  {
    var s := Hole(PartialOpen, p) + rest;
    assert s[..3] == PartialOpen;
    assert s[3..] == p + "}}" + rest;
    NameThenClose(s[3..], p, rest, IsPartialChar);
    assert s[3..3 + |p|] == p;
    assert s[3 + |p|..][..2] == "}}";
  }

  /** The template stages leave a partial tag alone for the partial stage. */
  lemma PartialTagSurvivesStages(files: TemplateFiles, name: string, data: seq<Field>, cssFiles: seq<string>, a: string, p: string, b: string)
    requires PlainFields(data)
    requires name in files.html && files.html[name] == a + Hole(PartialOpen, p) + b
    requires NoBrace(a) && NoBrace(b) && IsPartialName(p)
    ensures Substitute(WithStyles(files, name, cssFiles), "{{", Obj(data), ObjectKeys(Obj(data))) == a + Hole(PartialOpen, p) + b
  {
    var t := a + Hole(PartialOpen, p) + b;
    OpenersAreHoleOpen();
    HoleChars(PartialOpen, p);
    assert t[|a| + 2] == '>';
    CssIsAHole();
    PatternOnlyAtHole(a, PartialOpen, p, b, CssPlaceholder);
    MismatchAt(t, CssPlaceholder, |a|, 2);
    WithStylesNoCss(files, name, cssFiles);
    var keys := ObjectKeys(Obj(data));
    PlainObjectKeysAreWords(data);
    forall i | 0 <= i < |keys|
      ensures !Contains(t, "{{" + keys[i] + "}}")
    {
      var q := "{{" + keys[i] + "}}";
      PatternOnlyAtHole(a, PartialOpen, p, b, q);
      MismatchAt(t, q, |a|, 2);
    }
    SubstituteAbsent(t, "{{", Obj(data), keys);
  }

  /**
   * `render` puts a partial's file text in place of its tag, verbatim: the
   * inserted text is not scanned for placeholders or further partials.
   */
  lemma RenderInsertsPartial(files: TemplateFiles, name: string, data: seq<Field>, cssFiles: seq<string>, a: string, p: string, b: string)
    requires PlainFields(data) && NoDollar(Styles(files, cssFiles))
    requires name in files.html && files.html[name] == a + Hole(PartialOpen, p) + b
    requires NoBrace(a) && NoBrace(b) && IsPartialName(p)
    ensures Render(files, name, data, cssFiles) == a + FileOrEmpty(files.partials, p) + b
  {
    PartialTagSurvivesStages(files, name, data, cssFiles, a, p, b);
    PartialPassInserts(a, p, b, files.partials);
    RenderStages(files, name, data, cssFiles, WithStyles(files, name, cssFiles),
      a + Hole(PartialOpen, p) + b, a + FileOrEmpty(files.partials, p) + b);
  }

  /** The partial stage over plain text around one partial tag. */
  lemma PartialPassInserts(a: string, p: string, b: string, partials: map<string, string>)
    requires NoBrace(a) && NoBrace(b) && IsPartialName(p)
    ensures PartialPass(a + Hole(PartialOpen, p) + b, partials) == a + FileOrEmpty(partials, p) + b
  {
    var m := Hole(PartialOpen, p);
    var f := FileOrEmpty(partials, p);
    PartialPassTag(p, b, partials);
    ConcatAssoc(a, m, b);
    PartialPassSkips(a, m + b, partials);
    ConcatAssoc(a, f, b);
  }

  lemma PartialPassTag(p: string, b: string, partials: map<string, string>)
    requires NoBrace(b) && IsPartialName(p)
    ensures PartialPass(Hole(PartialOpen, p) + b, partials) == FileOrEmpty(partials, p) + b
  {
    var m := Hole(PartialOpen, p);
    PartialAtTag(p, b);
    PartialPassAtTag(m + b, Block(p, "", |p| + 5), partials);
    assert (m + b)[|p| + 5..] == b;
    PartialPassPlain(b, partials);
  }

  lemma PartialPassAtTag(s: string, b: Block, partials: map<string, string>)
    requires PartialAt(s) == Some(b)
    ensures PartialPass(s, partials) == FileOrEmpty(partials, b.name) + PartialPass(s[b.length..], partials)
  {
  }
}

=== FILE: templates.dfy ===
/**
 * The HTML template engine: `{{CSS}}` injection, `{{#if}}` conditionals
 * rewritten innermost-first for at most ten passes, `{{#each}}` loops,
 * `{{key}}` placeholders and `{{>partial}}` inclusion, each a left-to-right
 * rewrite of the whole text, plus the two view helpers that feed it. Template,
 * stylesheet and partial files are maps from name to text; a missing file reads
 * as the empty text.
 *
 * The rewrite of a placeholder uses JavaScript `replace` with a string
 * replacement, where `$` is special; the render operations therefore require
 * that no substituted text contains `$`. Keys are interpolated into regular
 * expressions and listed by `Object.keys`; the render operations require word
 * keys that are not all digits, for which both are literal and in insertion
 * order. A loop over an array holding `null` or `undefined` makes
 * `renderAdvanced` throw, and is modelled as that error.
 */
module Templates {
  import opened Js
  import opened Records

  // ---------------------------------------------------------------------------
  // Values
  // ---------------------------------------------------------------------------

  /** The JavaScript values a view model holds (numbers are integers here). */
  datatype Value =
    | Undefined
    | Null
    | Bool(b: bool)
    | Num(n: int)
    | Str(s: string)
    | Arr(items: seq<Value>)
    | Obj(fields: seq<Field>)
    | Inherited(name: string)

  /** One own property, in insertion order; a later field with the same key wins. */
  datatype Field = Field(key: string, value: Value)

  predicate Truthy(v: Value)
  {
    match v
    case Undefined => false
    case Null => false
    case Bool(b) => b
    case Num(n) => n != 0
    case Str(s) => s != ""
    case Arr(_) => true
    case Obj(_) => true
    case Inherited(_) => true
  }

  /** JavaScript `String(v)`. */
  function ToText(v: Value): string
    decreases v
  {
    match v
    case Undefined => "undefined"
    case Null => "null"
    case Bool(b) => if b then "true" else "false"
    case Num(n) => IntToDecimal(n)
    case Str(s) => s
    case Arr(items) =>
      if |items| == 0 then ""
      else JoinWith(seq(|items|, i requires 0 <= i < |items| =>
        if items[i].Undefined? || items[i].Null? then "" else ToText(items[i])), ',')
    case Obj(_) => "[object Object]"
    case Inherited(name) =>
      if name == "__proto__" then "[object Object]"
      else "function " + (if name == "constructor" then "Object" else name) + "() { [native code] }"
  }

  /** The text `value || ''` puts in place of a placeholder. */
  function PlaceholderText(v: Value): (r: string)
    ensures !Truthy(v) ==> r == ""
    ensures v.Str? ==> r == v.s
    ensures v.Num? ==> r == if v.n == 0 then "" else IntToDecimal(v.n)
    ensures v.Bool? ==> r == if v.b then "true" else ""
  {
    if Truthy(v) then ToText(v) else ""
  }

  // ---------------------------------------------------------------------------
  // Property access
  // ---------------------------------------------------------------------------

  function FieldKeys(fs: seq<Field>): (r: seq<string>)
    ensures |r| == |fs| && forall i :: 0 <= i < |fs| ==> r[i] == fs[i].key
  {
    seq(|fs|, i requires 0 <= i < |fs| => fs[i].key)
  }

  /** `obj[k]` over own properties: the last field with key `k`, else `undefined`. */
  function Lookup(fs: seq<Field>, k: string): (r: Value)
    ensures k !in FieldKeys(fs) ==> r == Undefined
    ensures k in FieldKeys(fs) ==> exists i :: 0 <= i < |fs| && fs[i].key == k && fs[i].value == r
    decreases |fs|
  {
    if |fs| == 0 then Undefined
    else if fs[|fs| - 1].key == k then fs[|fs| - 1].value
    else
      assert FieldKeys(fs) == FieldKeys(fs[..|fs| - 1]) + [fs[|fs| - 1].key];
      Lookup(fs[..|fs| - 1], k)
  }

  /** In `{...a, ...b}` a key of `b` takes `b`'s value, any other key keeps `a`'s. */
  lemma {:induction false} LookupSpread(a: seq<Field>, b: seq<Field>, k: string)
    ensures Lookup(a + b, k) == if k in FieldKeys(b) then Lookup(b, k) else Lookup(a, k)
    decreases |b|
  {
    if |b| == 0 {
      assert a + b == a;
    } else {
      var n := |b|;
      assert (a + b)[..|a + b| - 1] == a + b[..n - 1];
      assert FieldKeys(b) == FieldKeys(b[..n - 1]) + [b[n - 1].key];
      LookupSpread(a, b[..n - 1], k);
    }
  }

  /** Index-named fields of an array or a string, as `Object.keys` and spreading see them. */
  function IndexFields(items: seq<Value>): (r: seq<Field>)
    ensures |r| == |items|
    ensures forall i :: 0 <= i < |items| ==> r[i] == Field(NatToDecimal(i), items[i])
  {
    seq(|items|, i requires 0 <= i < |items| => Field(NatToDecimal(i), items[i]))
  }

  function Chars(s: string): (r: seq<Value>)
    ensures |r| == |s| && forall i :: 0 <= i < |s| ==> r[i] == Str([s[i]])
  {
    seq(|s|, i requires 0 <= i < |s| => Str([s[i]]))
  }

  /** The own enumerable properties of a value, in `Object.keys` order for non-numeric keys. */
  function OwnFields(v: Value): seq<Field>
  {
    match v
    case Obj(fs) => fs
    case Arr(items) => IndexFields(items)
    case Str(s) => IndexFields(Chars(s))
    case _ => []
  }

  /**
   * `v[k]`: an own property, `length` of an array or a string, else a member
   * inherited from `Object.prototype`, else `undefined`.
   */
  function GetProperty(v: Value, k: string): (r: Value)
    ensures k in FieldKeys(OwnFields(v)) && !(k == "length" && (v.Arr? || v.Str?)) ==> r == Lookup(OwnFields(v), k)
    ensures k !in FieldKeys(OwnFields(v)) && k != "length" ==>
      r == if k in ObjectPrototypeNames && !v.Undefined? && !v.Null? then Inherited(k) else Undefined
  {
    if v.Arr? && k == "length" then Num(|v.items|)
    else if v.Str? && k == "length" then Num(|v.s|)
    else if k in FieldKeys(OwnFields(v)) then Lookup(OwnFields(v), k)
    else if k in ObjectPrototypeNames && !v.Undefined? && !v.Null? then Inherited(k)
    else Undefined
  }

  /** `Object.keys(v)`: each key once, at its first position. */
  function ObjectKeys(v: Value): seq<string>
  {
    DistinctInOrder(FieldKeys(OwnFields(v)))
  }

  // ---------------------------------------------------------------------------
  // getNestedValue
  // ---------------------------------------------------------------------------

  /** One step of the source's `reduce`: `current && current[key] !== undefined ? current[key] : false`. */
  function Step(current: Value, key: string): Value
  {
    if Truthy(current) && GetProperty(current, key) != Undefined then GetProperty(current, key) else Bool(false)
  }

  function Reduce(current: Value, keys: seq<string>): Value
    decreases |keys|
  {
    if |keys| == 0 then current else Reduce(Step(current, keys[0]), keys[1..])
  }

  /** `getNestedValue`: one leading `this.` removed, then the dotted path walked. */
  function NestedValue(data: Value, path: string): Value
  {
    var p := if StartsWith(path, "this.") then path[5..] else path;
    Reduce(data, SplitOn(p, '.'))
  }

  /** Reference walk: stop with `false` at the first key that is missing or reached through a falsy value. */
  function Walk(current: Value, keys: seq<string>): Value
    decreases |keys|
  {
    if |keys| == 0 then current
    else if Truthy(current) && GetProperty(current, keys[0]) != Undefined then Walk(GetProperty(current, keys[0]), keys[1..])
    else Bool(false)
  }

  lemma {:induction false} ReduceFromFalse(keys: seq<string>)
    ensures Reduce(Bool(false), keys) == Bool(false)
    decreases |keys|
  {
    if |keys| > 0 {
      ReduceFromFalse(keys[1..]);
    }
  }

  /** The fold yields `false` at the first missing key and never recovers. */
  lemma {:induction false} ReduceIsWalk(current: Value, keys: seq<string>)
    ensures Reduce(current, keys) == Walk(current, keys)
    decreases |keys|
  {
    if |keys| > 0 {
      if Truthy(current) && GetProperty(current, keys[0]) != Undefined {
        ReduceIsWalk(GetProperty(current, keys[0]), keys[1..]);
      } else {
        ReduceFromFalse(keys[1..]);
      }
    }
  }

  /** Only one leading `this.` is removed. */
  lemma NestedStripsOneThis(data: Value, path: string)
    ensures NestedValue(data, "this." + path) == Walk(data, SplitOn(path, '.'))
    ensures NestedValue(data, "this.this." + path) == Walk(data, SplitOn("this." + path, '.'))
  {
    var p := "this." + path;
    assert p[..5] == "this." && p[5..] == path;
    ReduceIsWalk(data, SplitOn(path, '.'));
    var q := "this.this." + path;
    assert q[..5] == "this." && q[5..] == "this." + path;
    ReduceIsWalk(data, SplitOn("this." + path, '.'));
  }

  lemma {:induction false} SplitOnAbsent(s: string, c: char)
    requires forall k :: 0 <= k < |s| ==> s[k] != c
    ensures SplitOn(s, c) == [s]
    decreases |s|
  {
    if |s| > 0 {
      SplitOnAbsent(s[1..], c);
      assert [s[0]] + s[1..] == s;
    }
  }

  /**
   * A plain name reads the data object's own property; failing that, a name
   * that `Object.prototype` provides reads as the inherited member, which is
   * truthy; any other name, and an own property holding `undefined`, read as
   * `false`.
   */
  lemma NestedPlainName(data: seq<Field>, name: string)
    requires forall k :: 0 <= k < |name| ==> IsWordChar(name[k])
    requires !StartsWith(name, "this.")
    ensures name in FieldKeys(data) ==>
      NestedValue(Obj(data), name) == if Lookup(data, name) != Undefined then Lookup(data, name) else Bool(false)
    ensures name !in FieldKeys(data) ==>
      NestedValue(Obj(data), name) == if name in ObjectPrototypeNames then Inherited(name) else Bool(false)
    ensures name !in FieldKeys(data) ==> (Truthy(NestedValue(Obj(data), name)) <==> name in ObjectPrototypeNames)
  {
    SplitOnAbsent(name, '.');
    var keys := SplitOn(name, '.');
    assert keys[1..] == [];
    assert Reduce(Obj(data), keys) == Reduce(Step(Obj(data), name), []);
  }

  // ---------------------------------------------------------------------------
  // Tags
  // ---------------------------------------------------------------------------

  const CssPlaceholder := "{{CSS}}"
  const IfOpen := "{{#if"
  const IfClose := "{{/if}}"
  const EachOpen := "{{#each"
  const EachClose := "{{/each}}"
  const PartialOpen := "{{>"

  /** `[\w.]`, the characters of a conditional's path. */
  predicate IsPathChar(c: char)
  {
    IsWordChar(c) || c == '.'
  }

  /** `[\w-]`, the characters of a partial's name. */
  predicate IsPartialChar(c: char)
  {
    IsWordChar(c) || c == '-'
  }

  /** Length of the longest prefix of `s` whose characters satisfy `P`. */
  function PrefixWhile(s: string, P: char -> bool): (r: nat)
    ensures r <= |s|
    ensures forall k :: 0 <= k < r ==> P(s[k])
    ensures r < |s| ==> !P(s[r])
    decreases |s|
  {
    if |s| > 0 && P(s[0]) then 1 + PrefixWhile(s[1..], P) else 0
  }

  /** An opening tag `opener \s+ name }}` with `name` in `P+`: its name and its length. */
  datatype Tag = Tag(name: string, length: nat)

  /**
   * The white-space run and the name are each maximal, so the greedy match of
   * `opener\s+(P+)}}` at the start of `s` is the only one.
   */
  function OpeningTag(s: string, opener: string, P: char -> bool): (r: Option<Tag>)
    ensures r.Some? ==> |r.value.name| > 0 && |opener| + 1 + |r.value.name| + 2 <= r.value.length <= |s|
    ensures r.Some? ==> StartsWith(s, opener)
  {
    if !StartsWith(s, opener) then None
    else
      var sp := PrefixWhile(s[|opener|..], IsJsSpace);
      var b := |opener| + sp;
      var n := PrefixWhile(s[b..], P);
      var c := b + n;
      if sp == 0 || n == 0 || !StartsWith(s[c..], "}}") then None
      else Some(Tag(s[b..c], c + 2))
  }

  /** A matched construct at the start of the text: its name, its inner text and its total length. */
  datatype Block = Block(name: string, body: string, length: nat)

  /**
   * `{{#if\s+([\w.]+)}}((?:(?!{{#if)(?!{{\/if}})[\s\S])*?){{\/if}}` at the start
   * of `s`: the body runs to the first `{{/if}}` and may not contain the start
   * of another `{{#if`, so only innermost conditionals match.
   */
  function IfBlockAt(s: string): (r: Option<Block>)
    ensures r.Some? ==> |r.value.body| < r.value.length <= |s| && StartsWith(s, IfOpen)
  {
    match OpeningTag(s, IfOpen, IsPathChar)
    case None => None
    case Some(t) =>
      var rest := s[t.length..];
      match IndexOf(rest, IfClose)
      case None => None
      case Some(e) =>
        var inner := IndexOf(rest, IfOpen);
        if inner.Some? && inner.value < e then None
        else Some(Block(t.name, rest[..e], t.length + e + |IfClose|))
  }

  /** `{{#each\s+(\w+)}}([\s\S]*?){{\/each}}` at the start of `s`: the body runs to the first `{{/each}}`. */
  function EachBlockAt(s: string): (r: Option<Block>)
    ensures r.Some? ==> |r.value.body| < r.value.length <= |s| && StartsWith(s, EachOpen)
  {
    match OpeningTag(s, EachOpen, IsWordChar)
    case None => None
    case Some(t) =>
      var rest := s[t.length..];
      match IndexOf(rest, EachClose)
      case None => None
      case Some(e) => Some(Block(t.name, rest[..e], t.length + e + |EachClose|))
  }

  /** `{{>([\w-]+)}}` at the start of `s`. */
  function PartialAt(s: string): (r: Option<Block>)
    ensures r.Some? ==> 0 < r.value.length <= |s| && StartsWith(s, PartialOpen) && r.value.body == ""
  {
    if !StartsWith(s, PartialOpen) then None
    else
      var n := PrefixWhile(s[3..], IsPartialChar);
      if n == 0 || !StartsWith(s[3 + n..], "}}") then None
      else Some(Block(s[3..3 + n], "", 3 + n + 2))
  }

  // ---------------------------------------------------------------------------
  // Conditionals
  // ---------------------------------------------------------------------------

  /** One global `replace` of the conditional pattern: each match is its body or nothing. */
  function IfPass(s: string, data: Value): (r: string)
    ensures |r| <= |s|
    decreases |s|
  {
    if |s| == 0 then ""
    else match IfBlockAt(s)
      case Some(b) =>
        (if Truthy(NestedValue(data, b.name)) then b.body else "") + IfPass(s[b.length..], data)
      case None => [s[0]] + IfPass(s[1..], data)
  }

  const MaxIfPasses: nat := 10

  function ConditionalsFrom(s: string, data: Value, done: nat): string
    requires done <= MaxIfPasses
    decreases MaxIfPasses - done
  {
    if Contains(s, IfOpen) && done < MaxIfPasses then ConditionalsFrom(IfPass(s, data), data, done + 1) else s
  }

  /** `processConditionals`: passes while an `{{#if` remains, at most ten. */
  function ProcessConditionals(s: string, data: Value): string
  {
    ConditionalsFrom(s, data, 0)
  }

  /** `n` passes, unconditionally. */
  function IteratePasses(s: string, data: Value, n: nat): string
    decreases n
  {
    if n == 0 then s else IteratePasses(IfPass(s, data), data, n - 1)
  }

  /** How many passes `ConditionalsFrom` runs before it stops. */
  ghost function PassCount(s: string, data: Value, done: nat): (n: nat)
    requires done <= MaxIfPasses
    ensures n <= MaxIfPasses - done
    decreases MaxIfPasses - done
  {
    if Contains(s, IfOpen) && done < MaxIfPasses then PassCount(IfPass(s, data), data, done + 1) + 1 else 0
  }

  /** The stage is exactly `PassCount` passes. */
  lemma ConditionalsFromRuns(s: string, data: Value, done: nat)
    requires done <= MaxIfPasses
    ensures ConditionalsFrom(s, data, done) == IteratePasses(s, data, PassCount(s, data, done))
    decreases MaxIfPasses - done
  {
    if Contains(s, IfOpen) && done < MaxIfPasses {
      var t := IfPass(s, data);
      var m := PassCount(t, data, done + 1);
      ConditionalsFromRuns(t, data, done + 1);
      ConditionalsFromStep(s, data, done);
      PassCountStep(s, data, done);
      IteratePassesStep(s, data, m);
    } else {
      ConditionalsFromStop(s, data, done);
      IteratePassesZero(s, data);
    }
  }

  lemma PassCountStep(s: string, data: Value, done: nat)
    requires done < MaxIfPasses && Contains(s, IfOpen)
    ensures PassCount(s, data, done) == PassCount(IfPass(s, data), data, done + 1) + 1
  {
  }

  /** Stopping before the cap means no `{{#if` is left. */
  lemma ConditionalsFromEarly(s: string, data: Value, done: nat)
    requires done <= MaxIfPasses
    ensures PassCount(s, data, done) < MaxIfPasses - done ==> !Contains(ConditionalsFrom(s, data, done), IfOpen)
    decreases MaxIfPasses - done
  {
    if Contains(s, IfOpen) && done < MaxIfPasses {
      ConditionalsFromEarly(IfPass(s, data), data, done + 1);
      ConditionalsFromStep(s, data, done);
    } else {
      ConditionalsFromStop(s, data, done);
    }
  }

  lemma ConditionalsFromStep(s: string, data: Value, done: nat)
    requires done < MaxIfPasses && Contains(s, IfOpen)
    ensures ConditionalsFrom(s, data, done) == ConditionalsFrom(IfPass(s, data), data, done + 1)
  {
  }

  lemma ConditionalsFromStop(s: string, data: Value, done: nat)
    requires done <= MaxIfPasses && !(Contains(s, IfOpen) && done < MaxIfPasses)
    ensures ConditionalsFrom(s, data, done) == s
  {
  }

  lemma IteratePassesStep(s: string, data: Value, m: nat)
    ensures IteratePasses(s, data, m + 1) == IteratePasses(IfPass(s, data), data, m)
  {
  }

  lemma IteratePassesZero(s: string, data: Value)
    ensures IteratePasses(s, data, 0) == s
  {
  }

  /**
   * The rewrite makes at most ten passes, and stops early only once no
   * `{{#if` is left.
   */
  lemma ConditionalsPassBound(s: string, data: Value)
    ensures exists n ::
              && 0 <= n <= MaxIfPasses
              && ProcessConditionals(s, data) == IteratePasses(s, data, n)
              && (n < MaxIfPasses ==> !Contains(ProcessConditionals(s, data), IfOpen))
  {
    var n := PassCount(s, data, 0);
    ConditionalsFromRuns(s, data, 0);
    ConditionalsFromEarly(s, data, 0);
    assert ProcessConditionals(s, data) == IteratePasses(s, data, n);
  }

  lemma IteratePassesShrink(s: string, data: Value, n: nat)
    ensures |IteratePasses(s, data, n)| <= |s|
    decreases n
  {
    if n > 0 {
      IteratePassesShrink(IfPass(s, data), data, n - 1);
    }
  }

  /** Conditionals only ever remove text. */
  lemma ConditionalsShrink(s: string, data: Value)
    ensures |ProcessConditionals(s, data)| <= |s|
  {
    ConditionalsPassBound(s, data);
    var n :| 0 <= n <= MaxIfPasses && ProcessConditionals(s, data) == IteratePasses(s, data, n)
      && (n < MaxIfPasses ==> !Contains(ProcessConditionals(s, data), IfOpen));
    IteratePassesShrink(s, data, n);
  }

  // ---------------------------------------------------------------------------
  // Placeholders
  // ---------------------------------------------------------------------------

  /** One global replace per key, in key order: `open + key + "}}"` becomes the key's placeholder text. */
  function Substitute(t: string, open: string, source: Value, keys: seq<string>): string
    decreases |keys|
  {
    if |keys| == 0 then t
    else Substitute(ReplaceAll(t, open + keys[0] + "}}", PlaceholderText(GetProperty(source, keys[0]))), open, source, keys[1..])
  }

  // ---------------------------------------------------------------------------
  // Loops
  // ---------------------------------------------------------------------------

  /** `{...item, ...data}`. */
  function ItemContext(item: Value, data: seq<Field>): Value
  {
    Obj(OwnFields(item) + data)
  }

  /** One item: `{{this.k}}`, then `{{../k}}`, then conditionals over the merged context. */
  function ExpandItem(content: string, item: Value, data: seq<Field>): string
  {
    var withItem := Substitute(content, "{{this.", item, ObjectKeys(item));
    var withParent := Substitute(withItem, "{{../", Obj(data), ObjectKeys(Obj(data)));
    ProcessConditionals(withParent, ItemContext(item, data))
  }

  function ExpandItems(content: string, items: seq<Value>, data: seq<Field>): string
    decreases |items|
  {
    if |items| == 0 then "" else ExpandItem(content, items[0], data) + ExpandItems(content, items[1..], data)
  }

  /** A loop over anything but an array renders as nothing. */
  function LoopExpansion(name: string, body: string, data: seq<Field>): string
  {
    match Lookup(data, name)
    case Arr(items) => ExpandItems(body, items, data)
    case _ => ""
  }

  /** `processLoops`: one global replace of the loop pattern. */
  function LoopPass(s: string, data: seq<Field>): string
    decreases |s|
  {
    if |s| == 0 then ""
    else match EachBlockAt(s)
      case Some(b) => LoopExpansion(b.name, b.body, data) + LoopPass(s[b.length..], data)
      case None => [s[0]] + LoopPass(s[1..], data)
  }

  // ---------------------------------------------------------------------------
  // Partials and files
  // ---------------------------------------------------------------------------

  function FileOrEmpty(files: map<string, string>, name: string): string
  {
    if name in files then files[name] else ""
  }

  /** One global replace of the partial pattern; the inserted text is not rescanned. */
  function PartialPass(s: string, partials: map<string, string>): string
    decreases |s|
  {
    if |s| == 0 then ""
    else match PartialAt(s)
      case Some(b) => FileOrEmpty(partials, b.name) + PartialPass(s[b.length..], partials)
      case None => [s[0]] + PartialPass(s[1..], partials)
  }

  datatype TemplateFiles = TemplateFiles(html: map<string, string>, css: map<string, string>, partials: map<string, string>)

  /** The named stylesheets concatenated in order, a missing one contributing nothing. */
  function Styles(files: TemplateFiles, cssFiles: seq<string>): string
    decreases |cssFiles|
  {
    if |cssFiles| == 0 then ""
    else Styles(files, cssFiles[..|cssFiles| - 1]) + FileOrEmpty(files.css, cssFiles[|cssFiles| - 1])
  }

  // ---------------------------------------------------------------------------
  // Plain text
  // ---------------------------------------------------------------------------

  /** Text without `{`: no tag of the engine can start in it. */
  predicate NoBrace(s: string)
  {
    forall k :: 0 <= k < |s| ==> s[k] != '{'
  }

  lemma NoBraceNoTag(s: string, p: string)
    requires NoBrace(s) && |p| > 0 && p[0] == '{'
    ensures !Contains(s, p)
  {
    NoCharNoOccurrence(s, p, '{');
  }

  lemma {:induction false} PartialPassUnchanged(s: string, partials: map<string, string>)
    requires !Contains(s, PartialOpen)
    ensures PartialPass(s, partials) == s
    decreases |s|
  {
    if |s| > 0 {
      StartsWithOccursAt(s, PartialOpen);
      assert PartialAt(s).None?;
      NotContainsSuffix(s, PartialOpen, 1);
      PartialPassUnchanged(s[1..], partials);
      assert [s[0]] + s[1..] == s;
    }
  }

  /** Substitution leaves alone a text in which none of its patterns occurs. */
  lemma {:induction false} SubstituteAbsent(t: string, open: string, source: Value, keys: seq<string>)
    requires forall i :: 0 <= i < |keys| ==> !Contains(t, open + keys[i] + "}}")
    ensures Substitute(t, open, source, keys) == t
    decreases |keys|
  {
    if |keys| > 0 {
      ReplaceAllAbsent(t, open + keys[0] + "}}", PlaceholderText(GetProperty(source, keys[0])));
      SubstituteAbsent(t, open, source, keys[1..]);
    }
  }

  lemma SubstituteNoBrace(t: string, open: string, source: Value, keys: seq<string>)
    requires NoBrace(t) && |open| > 0 && open[0] == '{'
    ensures Substitute(t, open, source, keys) == t
  {
    forall i | 0 <= i < |keys|
      ensures !Contains(t, open + keys[i] + "}}")
    {
      NoBraceNoTag(t, open + keys[i] + "}}");
    }
    SubstituteAbsent(t, open, source, keys);
  }

  /** A template file without `{` has no stylesheet slot, no placeholder and no partial tag. */
  lemma PlainTemplateStages(files: TemplateFiles, name: string, data: seq<Field>, cssFiles: seq<string>)
    ensures NoBrace(FileOrEmpty(files.html, name)) ==>
      && WithStyles(files, name, cssFiles) == FileOrEmpty(files.html, name)
      && PartialPass(Substitute(FileOrEmpty(files.html, name), "{{", Obj(data), ObjectKeys(Obj(data))), files.partials)
         == FileOrEmpty(files.html, name)
  {
    var f := FileOrEmpty(files.html, name);
    if NoBrace(f) {
      NoBraceNoTag(f, CssPlaceholder);
      SubstituteNoBrace(f, "{{", Obj(data), ObjectKeys(Obj(data)));
      NoBraceNoTag(f, PartialOpen);
      PartialPassUnchanged(f, files.partials);
    }
  }

  // ---------------------------------------------------------------------------
  // Render
  // ---------------------------------------------------------------------------

  predicate NoDollar(s: string)
  {
    forall k :: 0 <= k < |s| ==> s[k] != '$'
  }

  /** A word key that is not all digits: literal inside a regular expression, listed in insertion order. */
  predicate PlainKey(k: string)
  {
    && |k| > 0
    && (forall j :: 0 <= j < |k| ==> IsWordChar(k[j]))
    && (exists j :: 0 <= j < |k| && !IsDigit(k[j]))
  }

  /** Fields with plain keys whose placeholder texts are free of `$`. */
  predicate PlainFields(fs: seq<Field>)
  {
    forall i :: 0 <= i < |fs| ==> PlainKey(fs[i].key) && NoDollar(PlaceholderText(fs[i].value))
  }

  /** A loop item whose substituted texts are literal; `null` and `undefined` qualify. */
  predicate PlainItem(v: Value)
  {
    && (v.Obj? ==> PlainFields(v.fields))
    && (v.Arr? ==> forall j :: 0 <= j < |v.items| ==> NoDollar(PlaceholderText(v.items[j])))
    && (v.Str? ==> NoDollar(v.s))
  }

  /** Every item of every array in the data is a plain loop item. */
  predicate PlainItems(data: seq<Field>)
  {
    forall i :: 0 <= i < |data| && data[i].value.Arr? ==>
      forall j :: 0 <= j < |data[i].value.items| ==> PlainItem(data[i].value.items[j])
  }

  predicate Nullish(v: Value)
  {
    v.Undefined? || v.Null?
  }

  /** Some array of the data holds `null` or `undefined`. */
  predicate HasNullishItem(data: seq<Field>)
  {
    exists i, j :: 0 <= i < |data| && data[i].value.Arr? && 0 <= j < |data[i].value.items| && Nullish(data[i].value.items[j])
  }

  /** The loop over `data[name]` meets a `null` or `undefined` item, on which `Object.keys` throws. */
  predicate LoopItemThrows(name: string, data: seq<Field>)
  {
    && Lookup(data, name).Arr?
    && exists j :: 0 <= j < |Lookup(data, name).items| && Nullish(Lookup(data, name).items[j])
  }

  /** Some loop that one pass of the loop pattern over `s` expands throws. */
  predicate LoopsThrow(s: string, data: seq<Field>)
    decreases |s|
  {
    if |s| == 0 then false
    else match EachBlockAt(s)
      case Some(b) => LoopItemThrows(b.name, data) || LoopsThrow(s[b.length..], data)
      case None => LoopsThrow(s[1..], data)
  }

  /** Only an array holding `null` or `undefined` can make a loop throw. */
  lemma {:induction false} LoopsThrowNeedsNullishItem(s: string, data: seq<Field>)
    ensures LoopsThrow(s, data) ==> HasNullishItem(data)
    decreases |s|
  {
    if |s| > 0 {
      match EachBlockAt(s)
      case Some(b) =>
        LoopsThrowNeedsNullishItem(s[b.length..], data);
        if LoopItemThrows(b.name, data) {
          var v := Lookup(data, b.name);
          var j :| 0 <= j < |v.items| && Nullish(v.items[j]);
          var i :| 0 <= i < |data| && data[i].key == b.name && data[i].value == v;
          assert data[i].value.Arr? && Nullish(data[i].value.items[j]);
        }
      case None =>
        LoopsThrowNeedsNullishItem(s[1..], data);
    }
  }

  /** The template with its first `{{CSS}}` replaced by the concatenated stylesheets. */
  function WithStyles(files: TemplateFiles, name: string, cssFiles: seq<string>): string
  {
    ReplaceFirst(FileOrEmpty(files.html, name), CssPlaceholder, Styles(files, cssFiles))
  }

  /**
   * `render`: CSS, then placeholders, then partials. It never looks inside
   * array items. A template file without `{` is served as it is, its
   * stylesheets dropped for want of a `{{CSS}}` slot.
   */
  function Render(files: TemplateFiles, name: string, data: seq<Field>, cssFiles: seq<string>): (r: string)
    requires PlainFields(data) && NoDollar(Styles(files, cssFiles))
    ensures NoBrace(FileOrEmpty(files.html, name)) ==> r == FileOrEmpty(files.html, name)
  {
    PlainTemplateStages(files, name, data, cssFiles);
    PartialPass(Substitute(WithStyles(files, name, cssFiles), "{{", Obj(data), ObjectKeys(Obj(data))), files.partials)
  }

  /** The block stages of `renderAdvanced` in its order: conditionals over the whole data, then loops. */
  function BindBlocks(t: string, data: seq<Field>): string
  {
    LoopPass(ProcessConditionals(t, Obj(data)), data)
  }

  /** The block stages with loops first, so that a conditional inside a loop is decided per item. */
  function BindBlocksLoopsFirst(t: string, data: seq<Field>): string
  {
    ProcessConditionals(LoopPass(t, data), Obj(data))
  }

  /** What `renderAdvanced` returns, or the TypeError it throws. */
  datatype Rendered = Page(html: string) | LoopItemTypeError

  /**
   * `renderAdvanced`: CSS, then conditionals, then loops, then placeholders,
   * then partials. It throws exactly when a loop left standing by the
   * conditionals runs over an array holding `null` or `undefined`; with no
   * such item in the data it always produces a page.
   */
  function RenderAdvanced(files: TemplateFiles, name: string, data: seq<Field>, cssFiles: seq<string>): (r: Rendered)
    requires PlainFields(data) && PlainItems(data) && NoDollar(Styles(files, cssFiles))
    ensures r.LoopItemTypeError? <==> LoopsThrow(ProcessConditionals(WithStyles(files, name, cssFiles), Obj(data)), data)
    ensures !HasNullishItem(data) ==> r.Page?
  {
    var t := WithStyles(files, name, cssFiles);
    LoopsThrowNeedsNullishItem(ProcessConditionals(t, Obj(data)), data);
    if LoopsThrow(ProcessConditionals(t, Obj(data)), data) then LoopItemTypeError
    else Page(PartialPass(Substitute(BindBlocks(t, data), "{{", Obj(data), ObjectKeys(Obj(data))), files.partials))
  }

  // ---------------------------------------------------------------------------
  // createAlert
  // ---------------------------------------------------------------------------

  const AlertPrefix := "<div class=\"alert "
  const AlertSuffix := "</div>"

  /** `createAlert`: nothing for a falsy message, else a `div` of class `alert TYPE` holding the message. */
  function CreateAlert(kind: string, message: Option<string>): (r: string)
    ensures r == "" <==> !Present(message)
    ensures Present(message) ==>
      && |r| == |AlertPrefix| + |kind| + 2 + |message.value| + |AlertSuffix|
      && StartsWith(r, AlertPrefix + kind + "\">")
      && r[|AlertPrefix| + |kind| + 2..|r| - |AlertSuffix|] == message.value
      && r[|r| - |AlertSuffix|..] == AlertSuffix
  {
    if !Present(message) then ""
    else
      var r := AlertPrefix + kind + "\">" + message.value + AlertSuffix;
      assert r[..|AlertPrefix| + |kind| + 2] == AlertPrefix + kind + "\">";
      assert r[|AlertPrefix| + |kind| + 2..|r| - |AlertSuffix|] == message.value;
      r
  }
}
